=== FILE: README.md ===
# Diffusiophoresis GA optimizer — a Dafny model of its core

The system searches for parameter sets of a diffusiophoresis experiment with a
genetic algorithm. An individual is an `Equation`: a dictionary of named
`Variable`s. Each variable has a value, a declared range and a constancy flag.
An equation's fitness is its diffusiophoretic velocity. Its derived-quantity
getters compute it from the variables through a small formula library. Any
quantity stored directly in the equation overrides its formula.

The engine (`GeneticAlgorithm`) runs each generation in the same order:

1. Select two parents from the scored population and deep-copy them.
2. Cross the parents over and mutate each child.
3. Repeat until the new population is full.
4. Score the new population through a per-object fitness cache.
5. Rank the population.
6. Adapt the mutation rate, first by fitness improvement and then by the
   number of distinct scores.
7. Report progress.

The repository holds three revisions of the operators:

- `src/ga/`: the gated dispatching classes the engine uses.
- `src/GA/`: the ungated strategy classes.
- `src/ga/strategy_manager/` and `src/ga/mutation_strategy.py`: the gated
  strategy classes.

Two strategy managers combine them.

## How the model is organised

Modules follow the source files:

| module | file | source |
|---|---|---|
| `Outcomes` | `outcomes.dfy` | Python exceptions as `Result`, plus `Option` |
| `Draws` | `draws.dfy` | `random` / `numpy.random` as explicit draws in [0, 1) |
| `Variables` | `variable.dfy` | `diffusiophoresis/variable.py` |
| `Equations` | `equation.dfy` | `diffusiophoresis/equation.py`, storage part |
| `Formulas` | `formulas.dfy` | `diffusiophoresis/diffusiophoresis_formulas.py` |
| `Quantities` | `quantities.dfy` | the getters of `equation.py` |
| `Operators` | `operators.dfy` | the crossover and mutation kernels of all three revisions |
| `Selection` | `selection.dfy` | tournament and roulette (`ga/selection.py`, `ga/selection_strategy.py`) |
| `EngineCrossover` | `engine_crossover.dfy` | `ga/crossover.py` |
| `EngineMutation` | `engine_mutation.dfy` | `ga/mutation.py` |
| `Strategies` | `strategies.dfy` | strategy picks and the selection strategy classes |
| `PlainStrategies` | `plain_strategies.dfy` | `GA/crossover_strategy.py`, `GA/mutation_strategy.py` |
| `GatedStrategies` | `gated_strategies.dfy` | `ga/strategy_manager/crossover_strategy.py`, `ga/mutation_strategy.py` |
| `PickingManager` | `picking_manager.dfy` | `GA/strategy_manager.py` |
| `AdaptiveManager` | `adaptive_manager.dfy` | `ga/strategy_manager/strategy_manager.py` |
| `Rates` | `rates.dfy` | mutation-rate adaptation |
| `Ranking` | `ranking.dfy` | `sort_population_by_fitness` and the distinct-score count |
| `Engine` | `engine.dfy` | `genetic_algorithm.py` |

### Modelling choices

**Values instead of objects**

- Variables and equations are immutable values. Every mutator returns the
  updated value.
- An equation is an ordered list of variables with distinct names. This is
  the insertion order of a Python dict, which the positional crossovers
  depend on.

**Random draws**

- Every random draw is an explicit real in [0, 1).
- `random.choice(xs)` picks index `floor(u * |xs|)`.
- `uniform(a, b)` is `a + (b - a) * u`.
- A loop's draws are a stream `nat -> real`.

**Objects in the engine**

- The engine's individuals are objects: the fitness cache is keyed by
  identity, because `Equation` defines neither `__eq__` nor `__hash__`.
- The model keeps the objects in a `World`, a map from references to
  equations.
- A deep copy is a new reference, so a deep copy is never a cache hit.

**Fitness and exceptions**

- The engine receives its fitness as a function value. `Engine.Fitness`
  builds it from `Quantities.DiffusiophoreticVelocity`.
- The breeding loop (`Engine.FillPopulation`) likewise receives one pass of
  its body as a function value. `Engine.Reproduce` passes `Engine.Offspring`
  over the old population.
- Every exception the source can raise is an `Err` value naming it.
  Floating-point division by zero in numpy is not an exception; the two
  places where it can occur are listed under "Left out".

### Behaviour of the code the model keeps

- The fitness cache is keyed by object identity, so deep copies are always
  re-scored (`Engine.FreshRefsMiss`).
- Tournament selection draws with `random.sample`, which needs at least six
  individuals, and it compares the two parents by identity. With exactly six
  individuals and a strictly fittest one, the retry loop never ends
  (`Selection.SixWithUniqueBestNeverFinishes`).
- The velocity combines four getters: beta potential, both mobilities and
  the gradient (`Quantities.DiffusiophoreticVelocity`).
- The single-gene swap in `ga/crossover.py` keeps each parent's own pick and
  stores the other parent's pick beside it. When the two picks have
  different names, both children hold both picked variable objects. The
  engine then mutates the first child in place before the second, so a
  change to a shared variable shows in both. `Engine.Offspring` carries
  each mutation of a shared variable across to the other child
  (`Operators.SyncShared`, `Engine.OffspringAgreeOnShared`).
- The uniform crossover builds two new equations, so its children share no
  variable object with each other.

## Model

| member | source | states |
|---|---|---|
| Variables.SetValue | src/diffusiophoresis/variable.py:112-132 | a write to a constant fails with ConstantViolation exactly in safe mode and is otherwise ignored; a non-constant takes the new value; name, flag and range never change |
| Variables.Randomize | src/diffusiophoresis/variable.py:171-178 | a constant is untouched; a non-constant with a non-empty range gets a value inside it; only the value changes |
| Variables.IsWithinRange | src/diffusiophoresis/variable.py:180-194 | inside the closed range only when the range is non-empty, and then exactly when clipping to the range leaves the value unchanged |
| Variables.SetMinRange | src/diffusiophoresis/variable.py:135-144 | only the lower bound changes, to the given one |
| Variables.SetMaxRange | src/diffusiophoresis/variable.py:146-155 | only the upper bound changes, to the given one |
| Variables.SetConstant | src/diffusiophoresis/variable.py:157-166 | only the constancy flag changes, to the given one |
| Variables.RangeSettersDoNotRecheck | src/diffusiophoresis/variable.py:135-155 | for every variable, a lower bound above the value or an upper bound below it leaves the value outside the range, and a bound past the other one leaves the range empty |
| Variables.EqualityAndHash | src/diffusiophoresis/variable.py:199-204 | `__eq__` holds iff all five fields agree, and equal variables hash alike |
| Variables.Equals | src/diffusiophoresis/variable.py:202-204 | two variables are `__eq__` exactly when they are the same value |
| Variables.Hash | src/diffusiophoresis/variable.py:199-200 | `__hash__` hashes the five-field tuple; Variables.EqualityAndHash shows equal variables hash alike |
| Variables.OrdinaryOperationsKeepConstants | src/diffusiophoresis/variable.py:112-178 | any sequence of non-safe writes and redraws leaves a constant unchanged and never alters name, flag or range |
| Variables.ToDict | src/diffusiophoresis/variable.py:219-236 | the record has exactly the five public keys |
| Variables.FromDict | src/diffusiophoresis/variable.py:240-261 | a record missing any of the five keys is rejected; an accepted record has all five |
| Variables.DictRoundTrip | src/diffusiophoresis/variable.py:219-261 | `from_dict(to_dict(v)) == v`, and a five-key record that `from_dict` accepts is given back by `to_dict` |
| Variables.FromDictAsWritten | src/diffusiophoresis/variable.py:255-261 | as written, `from_dict` never produces a variable |
| Variables.FromDictAsWrittenBreaksRoundTrip | src/diffusiophoresis/variable.py:255-261 | as written, the round trip of every variable fails on the `_variable_name` keyword, unlike the corrected one |
| Equations.Empty | src/diffusiophoresis/equation.py:5-7 | a new equation holds no variables |
| Equations.Has | src/diffusiophoresis/equation.py:9-10 | `has_variable` holds iff the name is stored |
| Equations.Get | src/diffusiophoresis/equation.py:15-18 | the lookup succeeds iff the name is stored, with a stored variable of that name; otherwise KeyError for that name |
| Equations.GetFindsEntry | src/diffusiophoresis/equation.py:12-18 | in a well-formed equation the lookup by `v`'s name gives `v` iff `v` is stored |
| Equations.GetValue | src/diffusiophoresis/equation.py:20-21 | the value lookup succeeds iff the name is stored, with that variable's value; otherwise KeyError |
| Equations.GetValueAsWritten | src/diffusiophoresis/equation.py:20-21 | as written, the value lookup never succeeds: a found variable has no attribute `value` |
| Equations.GetValueAsWrittenNeverSucceeds | src/diffusiophoresis/equation.py:20-21 | for every stored variable the corrected lookup gives its value and the one as written fails |
| Equations.Add | src/diffusiophoresis/equation.py:12-13 | one entry per name is kept; a known name keeps its position, a new one is appended |
| Equations.AddLookup | src/diffusiophoresis/equation.py:12-13 | after `add_variable(v)` the lookup of `v`'s name gives `v`, every other lookup is unchanged, and `v`'s name is added to the names |
| Equations.AddDrawsFrom | src/diffusiophoresis/equation.py:12-13 | every entry after `add_variable(v)` is `v` or was already there |
| Equations.SetValue | src/diffusiophoresis/equation.py:23-26 | KeyError iff the name is absent; otherwise only that variable may change, a constant silently keeps its value and a non-constant takes the new one |
| Equations.VariableList | src/diffusiophoresis/equation.py:28-32 | a variable is listed iff it is stored and, when filtering, not constant; unfiltered, the list is every entry in order |
| Equations.VariableListAsWritten | src/diffusiophoresis/equation.py:28-32 | as written, an empty equation raises and any other returns only its last variable |
| Equations.VariableListAsWrittenLosesEntries | src/diffusiophoresis/equation.py:28-32 | with two or more entries the value as written is one variable where the list holds them all |
| Equations.RandomizeEquation | src/diffusiophoresis/equation.py:34-36 | each variable is redrawn with its own draw: constants unchanged, non-constants inside their ranges, names and order kept |
| Equations.FromList | src/GA/crossover_strategy.py:47-48 | `set_variable_list` gives a well-formed equation that stores variables with distinct names exactly as given |
| Equations.FromListDrawsFrom | src/GA/crossover_strategy.py:47-48 | `set_variable_list` stores only variables it was given |
| Formulas.BoltzmannConstantValue | src/diffusiophoresis/diffusiophoresis_formulas.py:61 | the Boltzmann constant is 1.380649e-23 exactly |
| Formulas.BetaPotential | src/diffusiophoresis/diffusiophoresis_formulas.py:104-116 | undefined iff `cation + anion = 0`; otherwise the result times the sum is the difference |
| Formulas.BetaPotentialBounds | src/diffusiophoresis/diffusiophoresis_formulas.py:104-116 | for positive concentrations the potential is strictly between -1 and 1, zero for equal ones, and changes sign when they swap |
| Formulas.BetaPotentialExample | src/diffusiophoresis/diffusiophoresis_formulas.py:115 | cation 2 and anion 1 give 1/3 |
| Formulas.ReynoldsNumber | src/diffusiophoresis/diffusiophoresis_formulas.py:119-133 | undefined iff the viscosity is zero; otherwise the result times the viscosity is density times velocity times length |
| Formulas.ReynoldsNumberExample | src/diffusiophoresis/diffusiophoresis_formulas.py:132 | water-like values at 1 m/s over 1 cm give 10000 |
| Formulas.ElectrophoreticMobility | src/diffusiophoresis/diffusiophoresis_formulas.py:48-64 | undefined iff the temperature is zero; otherwise the result times `k_B T` is `z e zeta` |
| Formulas.ChemiphoreticMobility | src/diffusiophoresis/diffusiophoresis_formulas.py:67-85 | undefined iff the temperature is zero |
| Formulas.ChemiphoreticMobilityUsesQuarterMobility | src/diffusiophoresis/diffusiophoresis_formulas.py:61-85 | the chemiphoretic mobility is `8 log cosh` of a quarter of the electrophoretic mobility |
| Formulas.ChemiphoreticGradient | src/diffusiophoresis/diffusiophoresis_formulas.py:88-101 | undefined iff the channel length is zero; otherwise the log of the concentration difference per unit length |
| Formulas.ChemiphoreticGradientIsUnitFree | src/diffusiophoresis/diffusiophoresis_formulas.py:88-101 | scaling both concentrations and the length by one non-zero factor leaves the gradient unchanged; equal concentrations give the log of zero |
| Formulas.DiffusiophoreticVelocityIsLinearInGradient | src/diffusiophoresis/diffusiophoresis_formulas.py:31-45 | the velocity is zero at zero gradient, additive in the gradient, and the chemiphoretic term alone when beta is zero |
| Formulas.DiffusiophoreticVelocity | src/diffusiophoresis/diffusiophoresis_formulas.py:31-45 | no gradient gives no velocity, and with a zero beta or a zero electrophoretic mobility only the chemiphoretic term drives the particles |
| Formulas.ConvertVariables | src/diffusiophoresis/diffusiophoresis_formulas.py:137-156 | micrometres and micrometres per second are scaled by 1e-6, mm/s by 1e-3, and the length is unchanged |
| Formulas.ParticlePosition | src/diffusiophoresis/diffusiophoresis_formulas.py:181-199 | the height in micrometres rises by `u t` from the start height |
| Formulas.ParticleStartsAtEntrance | src/diffusiophoresis/diffusiophoresis_formulas.py:181-199 | at time 0 the particle is at the entrance, at its start height |
| Formulas.TimeGrid | src/diffusiophoresis/diffusiophoresis_formulas.py:167-169 | 200 evenly spaced times from 0 to 200 |
| Formulas.StartHeights | src/diffusiophoresis/diffusiophoresis_formulas.py:166-168 | one particle, starting at height 0 |
| Formulas.Trajectory | src/diffusiophoresis/diffusiophoresis_formulas.py:159-178 | 200 points starting at the origin, each height percentage proportional to its time; undefined for a zero height or length |
| Formulas.ArcLength | src/diffusiophoresis/diffusiophoresis_formulas.py:202-216 | fewer than two points give 0, and the length is never negative when `sqrt` is not |
| Formulas.ExclusionZoneArea | src/diffusiophoresis/diffusiophoresis_formulas.py:10-28 | undefined iff the height or length is zero, and otherwise never negative |
| Quantities.BetaPotential | src/diffusiophoresis/equation.py:59-66 | a stored override wins; otherwise `cation` then `anion` are read (KeyError for the first missing) and the formula applied |
| Quantities.MobilityInputs | src/diffusiophoresis/equation.py:72-75 | the four mobility inputs are read in order: the read succeeds iff all four are present, with their values, and otherwise the first missing one is reported |
| Quantities.ElectrophoreticMobility | src/diffusiophoresis/equation.py:68-76 | a stored override wins; otherwise the inputs' failure or the formula |
| Quantities.ChemiphoreticMobility | src/diffusiophoresis/equation.py:78-86 | a stored override wins; otherwise the inputs' failure or the formula |
| Quantities.ChemiphoreticGradient | src/diffusiophoresis/equation.py:88-95 | a stored override wins; otherwise `ci`, `cb` and `length` are read in order and the formula applied |
| Quantities.DiffusiophoreticVelocity | src/diffusiophoresis/equation.py:49-57 | a stored override wins; otherwise the four getters run in order, the first failure propagates, and the formula combines their results |
| Quantities.AreaFormula | src/diffusiophoresis/equation.py:97-103 | the channel area is non-negative for non-negative sides and zero when either is zero |
| Quantities.LengthFormula | src/diffusiophoresis/equation.py:105-112 | the hydraulic diameter is undefined iff `h + w = 0`, else `4hw / (2(h + w))` |
| Quantities.SquareChannelLength | src/diffusiophoresis/equation.py:105-112 | the hydraulic diameter of a square channel is its side |
| Quantities.ChannelAreaAsWritten | src/diffusiophoresis/equation.py:97-103 | as written, a channel area without override always fails, on the missing `channel_area` formula once both inputs are read |
| Quantities.ChannelArea | src/diffusiophoresis/equation.py:97-103 | a stored override wins; otherwise the area succeeds iff both inputs are present |
| Quantities.CharacteristicLengthAsWritten | src/diffusiophoresis/equation.py:105-112 | as written, a characteristic length without override always fails, on the missing formula once both inputs are read |
| Quantities.CharacteristicLength | src/diffusiophoresis/equation.py:105-112 | a stored override wins; otherwise the hydraulic diameter of the two inputs, failing when either is missing |
| Quantities.GeometryAsWrittenAlwaysFails | src/diffusiophoresis/equation.py:97-112 | wherever the corrected geometry getters read both inputs, the ones as written fail |
| Quantities.IsLaminar | src/diffusiophoresis/equation.py:114-121 | defined iff density, velocity, characteristic length and a non-zero viscosity are available, and then true iff the Reynolds number is below 500 |
| Quantities.IsLaminarExamples | src/diffusiophoresis/equation.py:114-121 | Reynolds number 10000 is not laminar and 100 is |
| Quantities.ExclusionZoneAreaAsWritten | src/diffusiophoresis/equation.py:39-47 | as written, an override is read under the misspelled key; without one, the area is computed |
| Quantities.ExclusionZoneArea | src/diffusiophoresis/equation.py:39-47 | a stored override always succeeds with its value; otherwise the area is computed |
| Quantities.ComputedExclusionZoneArea | src/diffusiophoresis/equation.py:43-47 | the height and then the length are read first; a success needs a velocity and non-zero height and length, and is never negative when `sqrt` is not |
| Quantities.ExclusionOverrideLostAsWritten | src/diffusiophoresis/equation.py:39-41 | with only the correctly spelled override present, the getter as written fails and the corrected one succeeds |
| Quantities.OverridesIgnoreOtherVariables | src/diffusiophoresis/equation.py:49-112 | adding or replacing a variable of another name never changes a getter that has an override |
| Quantities.ComputedBetaIsBounded | src/diffusiophoresis/equation.py:59-66 | a beta potential computed from positive concentrations lies strictly between -1 and 1 |
| Quantities.ZeroGradientStopsParticles | src/diffusiophoresis/equation.py:49-57 | a zero gradient, stored or computed, gives a zero computed velocity whatever the mobilities |
| Draws.ChoiceIndex | src/ga/crossover.py:27-28 | `random.choice` picks a valid index, the one whose slot of [0, 1) holds the draw |
| Draws.UniformBetween | src/ga/mutation.py:58 | `random.uniform(a, b)` lies between `a` and `b` in either order |
| Draws.Clip | src/ga/mutation.py:61-63 | `np.clip` lands in a non-empty range and leaves a value already inside it alone |
| Draws.ClipIsNonExpanding | src/ga/mutation.py:61-63 | clipping never moves a value further from a point of the range |
| Draws.Sample | src/ga/selection.py:64 | `random.sample(range(n), k)` gives `k` distinct indices below `n` |
| Operators.UniformPicks | src/ga/crossover.py:58-64 | position `i` keeps the parents' order on a draw below 0.5 and swaps them otherwise |
| Operators.UniformCrossover | src/ga/crossover.py:38-66 | IndexError iff the second parent is shorter; the children are well-formed |
| Operators.UniformCrossoverSharesGenes | src/ga/crossover.py:58-64 | for aligned parents each position's two variables go to the two children, one each, and names stay in place |
| Operators.UniformCrossoverInherits | src/ga/crossover.py:58-64 | the uniform children hold only the parents' variables |
| Operators.PickNonConstant | src/ga/crossover.py:70-71 | the pick is a stored non-constant variable; IndexError iff there is none |
| Operators.SwapOneGene | src/ga/crossover.py:68-80 | fails iff either parent has no non-constant variable; each child is its parent with one of the other's non-constants stored, nothing else changed |
| Operators.SwapKeepsNamesWhenAligned | src/ga/crossover.py:68-80 | for aligned parents the swap keeps both name sets |
| Operators.SwapOneGeneInherits | src/ga/crossover.py:70-78 | the swapped children hold only the parents' variables |
| Operators.SwapShared | src/ga/crossover.py:74-78 | the names the two swap children share are none, or the two distinct names of the picks of a swap that succeeds |
| Operators.SwapSharesPicks | src/ga/crossover.py:74-78 | after the swap both children hold one and the same variable under every shared name |
| Operators.SyncShared | src/genetic_algorithm.py:95-96 | a change made through one child shows in the other under every shared name the two hold, in place; every other entry, the names and the ranges stay as they were |
| Operators.CrossoverPoint | src/GA/crossover_strategy.py:43 | `randint(1, n - 1)` lies in `[1, n - 1]` |
| Operators.Tail | src/GA/crossover_strategy.py:44-45 | `s[k:]`, empty past the end |
| Operators.Head | src/GA/crossover_strategy.py:44-45 | `s[:k]`, the whole list past the end |
| Operators.SliceCrossover | src/GA/crossover_strategy.py:32-50 | ValueError iff the first parent has fewer than two variables; the children are well-formed |
| Operators.SliceCrossoverExchangesTails | src/GA/crossover_strategy.py:43-48 | for aligned parents each child takes one parent's head and the other's tail, so each mixes both |
| Operators.SliceCrossoverRearranges | src/GA/crossover_strategy.py:43-48 | for aligned parents the children together hold exactly the parents' variables |
| Operators.SliceCrossoverInherits | src/GA/crossover_strategy.py:44-48 | the slice children hold only the parents' variables |
| Operators.SliceCrossoverAsWritten | src/GA/crossover_strategy.py:47-48 | as written, the slice crossover never produces children |
| Operators.SliceCrossoverAsWrittenFails | src/GA/crossover_strategy.py:47-48 | wherever the corrected slice crossover produces children, the one as written fails on `set_variable_list` |
| Operators.Nudge | src/ga/mutation.py:56-65 | the stepped value lands in a non-empty range, moving towards the step and by no more than it |
| Operators.StepMutation | src/ga/mutation.py:44-68 | IndexError iff there is no non-constant variable; otherwise exactly one non-constant's value moves, by at most the step width |
| Operators.StoreNudged | src/ga/mutation.py:65-66 | storing the stepped variable back changes its value and nothing else |
| Operators.StepMutationKeepsInvariants | src/ga/mutation.py:44-68 | a step keeps every constant and keeps an equation in range |
| Operators.RandomizeKeepsInvariants | src/diffusiophoresis/equation.py:34-36 | randomizing keeps every constant and puts an equation in range back in range |
| EngineCrossover.Crossover | src/ga/crossover.py:8-36 | a gate draw above the rate returns the parents; otherwise the drawn method runs |
| EngineCrossover.CrossoverFailsOnlyInMethods | src/ga/crossover.py:27-36 | the NotImplementedError branch is dead; a failure is exactly one of the drawn method's own failures |
| EngineCrossover.CrossoverKeepsInvariants | src/ga/crossover.py:24-80 | the children hold only the parents' variables, stay in range, and for aligned parents keep their names |
| EngineCrossover.SharedNames | src/ga/crossover.py:38-80 | a skipped crossover and the uniform method share nothing; a swap shares what the single-gene swap shares |
| EngineCrossover.CrossoverSharesPicks | src/ga/crossover.py:68-80 | the crossover's children hold the same variable under every shared name |
| EngineMutation.MethodWeights | src/ga/mutation.py:29-30 | one draw in four randomizes, three in four step |
| EngineMutation.Mutate | src/ga/mutation.py:8-39 | a gate draw above the rate returns the child; otherwise a randomization or a tenth-of-range step, with names kept |
| EngineMutation.MutateKeepsInvariants | src/ga/mutation.py:26-68 | fails iff a step finds no non-constant variable; keeps constants and keeps an equation in range |
| EngineMutation.MutateAsWritten | src/ga/mutation.py:41-42 | as written, a randomizing mutation hands back None |
| EngineMutation.RandomizeAsWrittenLosesChild | src/ga/mutation.py:34-42 | every randomizing draw loses the child as written, while the corrected mutation returns one with the child's names |
| Selection.FirstBest | src/ga/selection.py:65 | `max` with a key returns the first index of greatest fitness |
| Selection.TournamentIndex | src/ga/selection.py:63-66 | ValueError iff fewer than six individuals; otherwise the winner is at least as fit as five distinct rivals |
| Selection.SecondParent | src/ga/selection.py:68-71 | the first attempt whose winner is not the first parent; every earlier winner was the first parent |
| Selection.TournamentSelection | src/ga/selection.py:54-73 | ValueError below six individuals; otherwise two different individuals, the first the first tournament's winner |
| Selection.SixWinnerIsBest | src/ga/selection.py:63-66 | with six individuals every tournament is won by the strict best |
| Selection.SixWithUniqueBestNeverFinishes | src/ga/selection.py:63-71 | with six individuals and a strictly fittest one, no number of retries finds a second parent |
| Selection.Ladder | src/ga/selection.py:34-40 | rung `i` is the running total of the normalised scores up to `i` |
| Selection.ClimbIsShare | src/ga/selection.py:36-40 | the running total after `k` scores is the first `k` scores' share of the total |
| Selection.FirstRung | src/ga/selection.py:45-47 | the first rung at or above the draw, or none |
| Selection.RouletteIndex | src/ga/selection.py:43-47 | empty population gives nothing; zero total divides by zero; otherwise the first rung at or above the draw |
| Selection.RouletteAlwaysFinds | src/ga/selection.py:43-47 | with a non-zero total every draw in [0, 1) finds an individual |
| Selection.RoulettePicksSlice | src/ga/selection.py:30-47 | with non-negative scores, index `i` is picked iff the draw falls in `i`'s slice of the total, so each chance is its share |
| Selection.RouletteSelection | src/ga/selection.py:30-52 | two independent spins, failing iff either fails |
| Selection.SelectParents | src/ga/selection.py:5-28 | the draw chooses tournament or roulette, which then runs |
| Selection.SelectedAreMembers | src/ga/selection.py:5-28 | both parents are members of the population |
| Strategies.PickMutation | src/GA/strategy_manager.py:31-36 | one draw in four picks the randomizing strategy, three in four the step |
| Strategies.PickCrossover | src/GA/strategy_manager.py:38-40 | the two crossover strategies are picked with equal weight, in dict order |
| Strategies.PickSelection | src/GA/strategy_manager.py:42-44 | the two selection strategies are picked with equal weight, in dict order |
| Strategies.Select | src/ga/selection_strategy.py:11-61 | each strategy class runs its own algorithm; a tournament's parents differ |
| Strategies.SelectAgreesWithDispatch | src/ga/selection_strategy.py:11-61 | the strategy classes choose exactly as the dispatching selection does on the same algorithm |
| PlainStrategies.Crossover | src/GA/crossover_strategy.py:11-50 | the uniform class runs the uniform loop and the single-point class the slice crossover |
| PlainStrategies.CrossoverRearranges | src/GA/crossover_strategy.py:11-50 | on aligned parents either class fails only for a slice of fewer than two variables, and the children keep the names and together hold exactly the parents' variables |
| PlainStrategies.UniformRearranges | src/GA/crossover_strategy.py:22-28 | the uniform children of aligned parents together hold exactly the parents' variables |
| PlainStrategies.SliceRearranges | src/GA/crossover_strategy.py:43-48 | the slice children of aligned parents together hold exactly the parents' variables |
| PlainStrategies.Mutate | src/GA/mutation_strategy.py:12-42 | the randomizing class returns the randomized equation, the step class a tenth-of-range step, with names kept |
| PlainStrategies.MutateKeepsInvariants | src/GA/mutation_strategy.py:16-42 | either class keeps constants and keeps an equation in range; a step moves one variable by at most a tenth of its range |
| PlainStrategies.MutateAsWritten | src/GA/mutation_strategy.py:12-14 | as written, the randomizing class hands back None; the step class is unaffected |
| PlainStrategies.RandomizeAsWrittenLosesChild | src/GA/mutation_strategy.py:12-14 | as written the randomizing class loses the child, where the corrected one returns an equation with its names and constants |
| GatedStrategies.Crossover | src/ga/strategy_manager/crossover_strategy.py:11-52 | a gate draw above the rate returns the parents; otherwise the class's method runs |
| GatedStrategies.CrossoverKeepsNames | src/ga/strategy_manager/crossover_strategy.py:11-52 | either class keeps the parents' genes and, for aligned parents, each child's names |
| GatedStrategies.Mutate | src/ga/mutation_strategy.py:12-37 | the randomization is gated by the rate; the step is not, and moves by at most 0.001 |
| GatedStrategies.StepIsSmallAndUngated | src/ga/mutation_strategy.py:18-37 | the step does not depend on the rate, moves one non-constant by at most 0.001, and keeps constants |
| GatedStrategies.MutateAsWritten | src/ga/mutation_strategy.py:12-16 | as written, a randomization that passes the gate hands back None; a skip returns the child; the step is unaffected |
| GatedStrategies.RandomizeAsWrittenLosesChild | src/ga/mutation_strategy.py:12-16 | as written a randomization through the gate loses the child, where the corrected one returns an equation with its names and constants |
| PickingManager.New | src/GA/strategy_manager.py:10-29 | the rates are stored and no strategy is picked yet |
| PickingManager.Mutate | src/GA/strategy_manager.py:46-50 | the strategy is picked and remembered even when the gate then skips |
| PickingManager.MutateKeepsInvariants | src/GA/strategy_manager.py:46-50 | a mutation changes neither rate, keeps constants and keeps an equation in range |
| PickingManager.MutateAsWritten | src/GA/strategy_manager.py:46-50 | as written, the manager remembers the same pick and hands back the strategy's None when a randomization passes the gate |
| PickingManager.RandomizeAsWrittenLosesChild | src/GA/strategy_manager.py:46-50 | as written a picked randomization that passes the gate loses the child, where the corrected manager returns an equation with its names and constants |
| PickingManager.Crossover | src/GA/strategy_manager.py:52-56 | the strategy is picked and remembered; a gate draw above the rate returns the parents |
| PickingManager.CrossoverRearranges | src/GA/strategy_manager.py:52-56 | on aligned parents of two or more variables the crossover succeeds, keeps names and rearranges the parents' variables |
| PickingManager.SelectParents | src/GA/strategy_manager.py:58-60 | a selection strategy is picked, remembered and run |
| PickingManager.UpdateByFitness | src/GA/strategy_manager.py:62-73 | no previous best, or a previous best of zero, leaves the rate alone; otherwise below 10 percent raises it by 1.2, else lowers it by 0.8 |
| PickingManager.FitnessRuleMatchesEngine | src/GA/strategy_manager.py:62-73 | the manager's fitness rule equals the engine's wherever the engine's is defined, and keeps the rate where the engine divides by zero |
| PickingManager.UpdateByDiversity | src/GA/strategy_manager.py:75-81 | a diversity below 0.5 raises the rate by 1.1, otherwise it is lowered by 0.9 |
| PickingManager.DiversityIgnoresSize | src/GA/strategy_manager.py:75-81 | the population size plays no part in the diversity rule |
| PickingManager.UpdatesKeepBand | src/GA/strategy_manager.py:62-81 | both rules keep a rate in [0.01, 0.5], and raise or lower it as their branch says |
| AdaptiveManager.UpdateStrategies | src/ga/strategy_manager/strategy_manager.py:33-44 | diversity below 15 percent of the size raises the rate by 1.1, else it is lowered by 0.9; all three strategies are re-picked |
| AdaptiveManager.New | src/ga/strategy_manager/strategy_manager.py:10-31 | a new manager is the result of `update_strategies(0, [], 0)` |
| AdaptiveManager.ConstructorLowersRate | src/ga/strategy_manager/strategy_manager.py:31-40 | a new manager has already lowered its rate by 0.9, floored at 0.01 |
| AdaptiveManager.UpdateKeepsBand | src/ga/strategy_manager/strategy_manager.py:33-40 | the update keeps a rate in [0.01, 0.5], raising it exactly when diversity is low |
| AdaptiveManager.Mutate | src/ga/strategy_manager/strategy_manager.py:61-64 | the manager's gate, then the current strategy with the rate; no strategy yet is an AttributeError, a state no constructed manager is in because `New` picks all three |
| AdaptiveManager.RandomizeIsDoublyGated | src/ga/strategy_manager/strategy_manager.py:61-64 | randomization happens only when both the manager's and the strategy's draws pass the rate |
| AdaptiveManager.MutateAsWritten | src/ga/strategy_manager/strategy_manager.py:61-64 | as written, a step that passes the gate is a TypeError and a randomization that passes both gates hands back None |
| AdaptiveManager.RandomizeAsWrittenLosesChild | src/ga/strategy_manager/strategy_manager.py:61-64 | as written a randomization through both gates loses the child, where the corrected manager returns an equation with its names and constants |
| AdaptiveManager.StepCallFailsAsWritten | src/ga/strategy_manager/strategy_manager.py:61-64 | wherever a step passes the gate, the call as written fails and the corrected call succeeds |
| AdaptiveManager.Crossover | src/ga/strategy_manager/strategy_manager.py:66-69 | the manager's gate, then the current strategy with the rate; no strategy yet is an AttributeError, a state no constructed manager is in because `New` picks all three |
| AdaptiveManager.CrossoverIsDoublyGated | src/ga/strategy_manager/strategy_manager.py:66-69 | crossover happens only when two independent draws both pass the rate |
| AdaptiveManager.SelectParents | src/ga/strategy_manager/strategy_manager.py:71-72 | the current selection strategy runs; none yet is an AttributeError, a state no constructed manager is in because `New` picks all three |
| Rates.Raise | src/genetic_algorithm.py:128-129 | the raised rate is the smaller of the scaled rate and 0.5: never above either, and equal to one of them |
| Rates.Lower | src/genetic_algorithm.py:131-132 | the lowered rate is the larger of the scaled rate and 0.01: never below either, and equal to one of them |
| Rates.AdjustmentsKeepBand | src/genetic_algorithm.py:116-133 | raising keeps a rate in the band and never lowers it; lowering keeps it there and never raises it |
| Rates.Improvement | src/genetic_algorithm.py:112-114 | the percentage improvement is undefined iff the previous best is zero |
| Rates.ImprovementThreshold | src/genetic_algorithm.py:112-116 | below 10 percent iff the gain is under a tenth of the previous best's magnitude |
| Rates.UpdateByFitness | src/genetic_algorithm.py:110-119 | no previous best leaves the rate; below 10 percent raises by 1.2, otherwise lowers by 0.8; a previous best of zero fails |
| Rates.UpdateByUniqueCount | src/genetic_algorithm.py:127-133 | fewer distinct scores than half the size raises by 1.1, otherwise lowers by 0.9 |
| Rates.GenerationRulesKeepBand | src/genetic_algorithm.py:109-133 | both rules in sequence keep a rate of the band in the band |
| Rates.RaiseDoesNotEnforceFloor | src/genetic_algorithm.py:128-132 | for every rate and factor, a raise whose product is below 0.01 and a lowering whose product is above 0.5 return the product, outside the band |
| Ranking.Pair | src/genetic_algorithm.py:187 | `zip` stops at the shorter list and pairs each score with its individual |
| Ranking.Sort | src/genetic_algorithm.py:188 | the sort is a permutation, ranked when the entries come in population order |
| Ranking.Individuals | src/genetic_algorithm.py:189 | the individuals of the ranking, in order |
| Ranking.SortIsStableDescending | src/genetic_algorithm.py:183-189 | the ranking rearranges the pairs, by non-increasing fitness, keeping population order among equal scores |
| Ranking.SortByFitness | src/genetic_algorithm.py:183-189 | the ranking holds exactly the zipped (score, individual) pairs, rearranged |
| Ranking.HeadIsBest | src/genetic_algorithm.py:106-107 | the head of the ranking is a member at least as fit as every other |
| Ranking.UniqueCountBound | src/genetic_algorithm.py:127 | there are never more distinct scores than scores, and at least one when there are any |
| Ranking.UniqueCount | src/genetic_algorithm.py:127 | the number of distinct scores is zero exactly when there are no scores |
| Engine.Fitness | src/genetic_algorithm.py:178 | the engine's fitness is the equation's diffusiophoretic velocity |
| Engine.FreshRefsMiss | src/genetic_algorithm.py:173-174 | an object made after the cache was filled, such as a deep copy, is never a hit |
| Engine.EvaluateFitness | src/genetic_algorithm.py:156-181 | a hit returns the cached score; against a sound cache the result is the fitness, it fails iff the fitness does, and the cache stays sound |
| Engine.EvaluateIsIdempotent | src/genetic_algorithm.py:173-181 | asking twice gives the same score and the second call leaves the cache alone |
| Engine.EvaluatePopulation | src/genetic_algorithm.py:139-154 | the scores are the population's fitnesses in order, and the call fails iff one of them fails |
| Engine.Offspring | src/genetic_algorithm.py:93-96 | one pass of the breeding loop yields two well-formed children |
| Engine.OffspringAgreeOnShared | src/genetic_algorithm.py:94-96 | after both in-place mutations the two children still hold the same variable under every name the crossover made them share |
| Engine.OffspringInRange | src/genetic_algorithm.py:93-96 | parents drawn from a world in range give children in range |
| Engine.Breed | src/genetic_algorithm.py:93-97 | one pass fails exactly when its breeding fails, with that error; otherwise the next two new objects hold the two children it bred, and nothing existing changes |
| Engine.StorePair | src/genetic_algorithm.py:97 | the two children become the next two objects of a grown world, which stays in range when they are |
| Engine.FillPopulation | src/genetic_algorithm.py:89-99 | the new population is the next `FillSize(size)` new objects, one more than an odd size; pair `k` holds the children of pass `k`, and the loop fails with the error of the first pass that fails |
| Engine.CopyBest | src/genetic_algorithm.py:88 | the copy of the best is a new object with the best's contents, or None before the first generation |
| Engine.AdaptRate | src/genetic_algorithm.py:109-133 | the fitness rule uses the copy's freshly computed score, then the diversity rule applies; it fails iff that score fails or is zero |
| Engine.AdaptRateKeepsBand | src/genetic_algorithm.py:109-133 | a generation's rate rules keep a rate of the band in the band |
| Engine.BestOf | src/genetic_algorithm.py:106-107 | IndexError iff the population is empty; otherwise a member no score beats |
| Engine.Reproduce | src/genetic_algorithm.py:88-103 | the new population is fresh, distinct objects scored with their own fitness, pair `k` holding the `Engine.Offspring` of the old population for pass `k`'s draws; a failing pass fails the generation; the previous best's copy keeps its contents |
| Engine.ReproduceWith | src/genetic_algorithm.py:88-103 | the same for any breeding pass that yields well-formed children |
| Engine.Generation | src/genetic_algorithm.py:86-135 | a non-positive size fails; the new population holds, pair by pair, the `Engine.Offspring` of the old one, and a failing pass fails the generation; the new best is a member no score beats; the rate follows both rules with the previous best's score; the report numbers generations from one |
| Engine.InitializePopulation | src/genetic_algorithm.py:62-70 | succeeds iff every randomized copy of the template has a fitness; the population is those copies, scored, with no best yet |
| Engine.ScoreAsWritten | src/genetic_algorithm.py:173-178 | scoring None is an AttributeError |
| Engine.ScoreAllAsWritten | src/genetic_algorithm.py:139-154 | the scores of a possibly-None population, failing iff one fails |
| Engine.InitializeAsWritten | src/genetic_algorithm.py:62-70 | as written, a successful initialization scores one individual per slot |
| Engine.InitializeAsWrittenFails | src/genetic_algorithm.py:69-70 | as written, every positive population size fails whatever the fitness |
| Engine.EmptyEquationHasNoVelocity | src/genetic_algorithm.py:69 | an empty `Equation()` has no velocity, so a template is needed |
| Engine.Evolve | src/genetic_algorithm.py:72-137 | one report per generation, numbered from one; the last describes the final best; the band and the ranges are kept |
| Engine.Run | src/genetic_algorithm.py:48-60 | the best is returned iff a generation ran, with the last report's fitness, in range when the template is |
| Engine.RunScored | src/genetic_algorithm.py:48-60 | for any fitness function, the best is returned iff a generation ran, scored at the last report's fitness, in range when the template is, with every reported rate in the band |
| Engine.ReportedBestIsScored | src/genetic_algorithm.py:106-107 | the reported best is an object of the population's world whose score is the reported best fitness |

## Left out

- Python floats are exact reals: no rounding, overflow, `inf` or `nan`.
- Formulas.Trajectory: a zero height or length is a DomainError, where numpy's array division would give `inf` or `nan` values with only a warning.
- Formulas.ExclusionZoneArea: inherits the DomainError of Formulas.Trajectory for a zero height or length, where numpy would give an `inf` or `nan` area.
- Quantities.ComputedExclusionZoneArea: fails with that DomainError for a stored zero height or length, where the source returns numpy's `inf` or `nan` area.
- `log`, `log . cosh` and `sqrt` are parameters. Nothing is assumed about them beyond a non-negative `sqrt` where stated.
- The thread pool of `evaluate_population_fitness` is a sequential loop. `executor.map` returns results in order and re-raises the first failure, and fitness evaluation has no side effect other than the cache.
- `print`, the broadcaster and the GUI are left out. `Engine.Generation` returns the broadcast record instead of sending it.
- Randomness is left out: draws are parameters in [0, 1). `random.sample` is modelled by the outcomes it can produce, not by CPython's algorithm.
- Selection.SecondParent: the source's retry loop is unbounded. The model takes a finite list of attempts, and running out is DrawsExhausted.
- Selection.RouletteIndex: the source returns None when no rung is reached. The model reports NoIndividual, which can only happen for an empty population, because over exact reals the top rung is 1. A zero total is a DomainError here, but for numpy float64 scores the division gives `inf` or `nan` rungs with a RuntimeWarning instead of raising. The loop then returns the first individual whose rung is `+inf`, or None when there is none.
- The engine imports `GA.crossover`, `GA.mutation` and `GA.selection`, which exist only as `src/ga/...`. The model uses `src/ga/` for the engine.
- The adaptive manager imports the `GA` strategy classes, whose signatures do not take a rate. The model pairs it with the rate-taking `src/ga/` classes it calls.
- Sharing of variable objects is modelled only where the source mutates a shared object: between the engine's two children (`Engine.Offspring`). The swap's children are the parent objects themselves, changed in place. The parents are deep copies that nothing else reads, so the model returns the children as new values. The strategy classes' swaps share variables between their children in the same way, but no modelled caller mutates those children.
- Rates.Improvement: a zero previous best is a DomainError here. A computed velocity is a numpy float64 (it passes through `np.log`), and for such scores numpy gives `inf` or `nan` with a RuntimeWarning instead of raising. The comparison with 10 then raises the rate for a negative best and lowers it otherwise, since neither `inf` nor `nan` is below 10. Only scores that are plain Python floats raise ZeroDivisionError.
- Engine.AdaptRate: inherits the DomainError of Rates.Improvement, so a generation stops where the source, with numpy scores, adjusts the rate and goes on.
- PlainStrategies.Mutate: the randomizing class is modelled as returning the randomized equation. As written it returns the None of `randomize_equation` (PlainStrategies.MutateAsWritten, PlainStrategies.RandomizeAsWrittenLosesChild).
- PlainStrategies.MutateKeepsInvariants: states the invariants of the corrected randomizing class. As written a randomization returns None (PlainStrategies.MutateAsWritten).
- GatedStrategies.Mutate: a randomization that passes the gate is modelled as returning the randomized equation. As written it returns None (GatedStrategies.MutateAsWritten, GatedStrategies.RandomizeAsWrittenLosesChild).
- PickingManager.Mutate: runs the corrected randomizing class. As written a randomization that passes the gate hands back None (PickingManager.MutateAsWritten, PickingManager.RandomizeAsWrittenLosesChild).
- PickingManager.MutateKeepsInvariants: states the invariants of the corrected randomizing class. As written a randomization that passes the gate hands back None (PickingManager.MutateAsWritten).
- AdaptiveManager.Mutate: runs the corrected strategies. As written a randomization that passes both gates hands back None, and a step that passes the gate is a TypeError (AdaptiveManager.MutateAsWritten, AdaptiveManager.RandomizeAsWrittenLosesChild).
- AdaptiveManager.RandomizeIsDoublyGated: describes the corrected randomizing class. As written the randomization through both gates hands back None (AdaptiveManager.RandomizeAsWrittenLosesChild).
- Engine.InitializePopulation: the corrected initialization randomizes a configured template, because `Equation()` is empty.
- Engine.Evolve: states the reports, the band and the ranges over all generations. That each generation's population is bred from the previous one by `Engine.Offspring` is stated one generation at a time, by Engine.Generation.
- The unit tests under `src/unit_tests` exercise an older API and are not modelled.
- `__str__`, the getters of `Variable` and the manager's rate getters are left out. They only return fields.
- Variables.FromDict: a field of the wrong kind is rejected here, where Python would accept any value.

## Findings

| source | as written | input that shows it | evidently intended | confidence | as-written member | corrected member |
|---|---|---|---|---|---|---|
| src/diffusiophoresis/variable.py:255-261 | `from_dict` passes `_variable_name=` and similar keywords, which the constructor does not accept | any `to_dict()` output | the constructor's own parameter names | high; not executed | Variables.FromDictAsWrittenBreaksRoundTrip | Variables.DictRoundTrip |
| src/diffusiophoresis/equation.py:20-21 | `get_value` reads `.value`; `Variable` stores `_value` | any stored name | `get_value()` of the variable | high; not executed | Equations.GetValueAsWrittenNeverSucceeds | Equations.GetValue |
| src/diffusiophoresis/equation.py:28-32 | `get_variable_list` returns the loop variable and takes no `filter_constants` | an equation with two variables | the built list, optionally without constants | high; not executed | Equations.VariableListAsWrittenLosesEntries | Equations.VariableList |
| src/diffusiophoresis/equation.py:39-41 | the override is read under `exlcusion_zone_area` | an equation holding only `exclusion_zone_area` | read the key whose presence was checked | high; not executed | Quantities.ExclusionOverrideLostAsWritten | Quantities.ExclusionZoneArea |
| src/diffusiophoresis/equation.py:97-112 | `channel_area` and `characteristic_length` are not defined by the formula library | an equation with `channel_height` and `channel_length` and no override | the area and the hydraulic diameter | medium; not executed | Quantities.GeometryAsWrittenAlwaysFails | Quantities.CharacteristicLength |
| src/GA/crossover_strategy.py:47-48 | `set_variable_list` is not defined by `Equation` | parents with two variables | add the listed variables in order | high; not executed | Operators.SliceCrossoverAsWrittenFails | Operators.SliceCrossover |
| src/ga/mutation.py:41-42 | `randomize_equation` returns None, so the randomizing mutation returns None | any child and a gate draw at most the rate with choice index 0 | return the randomized child | high; not executed | EngineMutation.RandomizeAsWrittenLosesChild | EngineMutation.Mutate |
| src/GA/mutation_strategy.py:12-14 | `RandomizeMutation.mutate` returns `randomize_equation()`, which is None | any child | return the randomized child | high; not executed | PlainStrategies.RandomizeAsWrittenLosesChild | PlainStrategies.Mutate |
| src/ga/mutation_strategy.py:12-16 | past its gate, `RandomizeMutation.mutate` returns `randomize_equation()`, which is None | any child and a gate draw at most the rate | return the randomized child | high; not executed | GatedStrategies.RandomizeAsWrittenLosesChild | GatedStrategies.Mutate |
| src/genetic_algorithm.py:69 | each individual is `Equation().randomize_equation()`, which is None | any positive population size | randomized copies of a configured equation | high; not executed | Engine.InitializeAsWrittenFails | Engine.InitializePopulation |
| src/ga/strategy_manager/strategy_manager.py:64 | the manager passes the rate to `StepMutation.mutate(child)` | a step strategy and a gate draw at most the rate | call the step with the child only | high; not executed | AdaptiveManager.StepCallFailsAsWritten | AdaptiveManager.Mutate |

=== FILE: adaptive_manager.dfy ===
/** The strategy manager of src/ga/strategy_manager/strategy_manager.py: it
    re-picks all three strategies and adapts the mutation rate in one
    `update_strategies` call, which the constructor already makes once, and
    then forwards the rate to gated strategies (a second gate inside).

    Its imports name modules that hold ungated strategies, but its calls pass
    the rate first, which only the gated strategies accept; the model pairs it
    with those (`GatedStrategies`).
 */
module AdaptiveManager {
  import opened Outcomes
  import opened Draws
  import opened Equations
  import opened Operators
  import opened Selection
  import opened Strategies
  import Rates
  import GatedStrategies

  /** The two rates and the three current strategies (None before the
      first `update_strategies`). */
  datatype Manager = Manager(
    mutationRate: real,
    crossoverRate: real,
    crossover: Option<CrossoverKind>,
    selection: Option<SelectionKind>,
    mutation: Option<MutationKind>)

  /** The three picks `update_strategies` draws, in the order it draws them. */
  datatype PickDraws = PickDraws(crossover: real, selection: real, mutation: real)

  ghost predicate PickDrawsWellFormed(d: PickDraws) {
    IsUnit(d.crossover) && IsUnit(d.selection) && IsUnit(d.mutation)
  }

  /** `update_strategies(diversity_score, fitness_scores, population_size)`:
      a diversity below 15 percent of the population size raises the rate by
      1.1, anything else lowers it by 0.9; then all three strategies are
      re-picked.  The fitness scores are not read. */
  function UpdateStrategies(m: Manager, diversity: real, populationSize: int, d: PickDraws): (r: Manager)
    requires PickDrawsWellFormed(d)
    ensures r.crossoverRate == m.crossoverRate
    ensures diversity < (populationSize as real) * 0.15 ==> r.mutationRate == Rates.Raise(m.mutationRate, 1.1)
    ensures diversity >= (populationSize as real) * 0.15 ==> r.mutationRate == Rates.Lower(m.mutationRate, 0.9)
    ensures r.crossover == Some(PickCrossover(d.crossover))
    ensures r.selection == Some(PickSelection(d.selection))
    ensures r.mutation == Some(PickMutation(d.mutation))
  {
    var rate := if diversity < (populationSize as real) * 0.15 then Rates.Raise(m.mutationRate, 1.1)
                else Rates.Lower(m.mutationRate, 0.9);
    Manager(rate, m.crossoverRate, Some(PickCrossover(d.crossover)), Some(PickSelection(d.selection)),
            Some(PickMutation(d.mutation)))
  }

  /** `StrategyManager(mutation_rate, crossover_rate)`, which ends by calling
      `update_strategies(0, [], 0)`. */
  function New(mutationRate: real, crossoverRate: real, d: PickDraws): (m: Manager)
    requires PickDrawsWellFormed(d)
    ensures m == UpdateStrategies(Manager(mutationRate, crossoverRate, None, None, None), 0.0, 0, d)
  {
    UpdateStrategies(Manager(mutationRate, crossoverRate, None, None, None), 0.0, 0, d)
  }

  /** Since `0 < 0 * 0.15` is false, a new manager has already lowered the
      rate it was given: by 0.9, floored at 0.01.  A rate in the band never
      comes out higher than it went in. */
  lemma ConstructorLowersRate(mutationRate: real, crossoverRate: real, d: PickDraws)
    requires PickDrawsWellFormed(d)
    ensures New(mutationRate, crossoverRate, d).mutationRate == Max(mutationRate * 0.9, Rates.MinRate)
    ensures Rates.InBand(mutationRate) ==> New(mutationRate, crossoverRate, d).mutationRate <= mutationRate
    ensures New(mutationRate, crossoverRate, d).crossover.Some? && New(mutationRate, crossoverRate, d).selection.Some?
            && New(mutationRate, crossoverRate, d).mutation.Some?
  {
    if Rates.InBand(mutationRate) {
      Rates.AdjustmentsKeepBand(mutationRate, 1.1, 0.9);
    }
  }

  /** The adaptation keeps a rate in [0.01, 0.5], moving it up exactly when
      diversity is low. */
  lemma UpdateKeepsBand(m: Manager, diversity: real, populationSize: int, d: PickDraws)
    requires PickDrawsWellFormed(d) && Rates.InBand(m.mutationRate)
    ensures Rates.InBand(UpdateStrategies(m, diversity, populationSize, d).mutationRate)
    ensures diversity < (populationSize as real) * 0.15 ==> UpdateStrategies(m, diversity, populationSize, d).mutationRate >= m.mutationRate
    ensures diversity >= (populationSize as real) * 0.15 ==> UpdateStrategies(m, diversity, populationSize, d).mutationRate <= m.mutationRate
  {
    Rates.AdjustmentsKeepBand(m.mutationRate, 1.1, 0.9);
  }

  /** `mutate(child)`: the manager's gate, then the current strategy with the
      rate.  A manager with no strategy yet fails on `None.mutate`. */
  function Mutate(m: Manager, child: Equation, gate: real, d: GatedStrategies.MutationDraws): (r: Result<Equation>)
    requires Valid(child) && IsUnit(gate) && GatedStrategies.MutationDrawsWellFormed(d)
    ensures Skips(gate, m.mutationRate) ==> r == Ok(child)
    ensures !Skips(gate, m.mutationRate) && m.mutation.None? ==> r == Err(MissingAttribute("mutate"))
    ensures !Skips(gate, m.mutationRate) && m.mutation.Some? ==>
              r == GatedStrategies.Mutate(m.mutation.value, m.mutationRate, child, d)
  {
    if Skips(gate, m.mutationRate) then Ok(child)
    else match m.mutation
      case None => Err(MissingAttribute("mutate"))
      case Some(kind) => GatedStrategies.Mutate(kind, m.mutationRate, child, d)
  }

  /** A randomizing mutation happens only when both the manager's draw and
      the strategy's draw are at most the rate. */
  lemma RandomizeIsDoublyGated(m: Manager, child: Equation, gate: real, d: GatedStrategies.MutationDraws)
    requires Valid(child) && IsUnit(gate) && GatedStrategies.MutationDrawsWellFormed(d)
    requires m.mutation == Some(Randomize)
    ensures Skips(gate, m.mutationRate) || Skips(d.gate, m.mutationRate) ==> Mutate(m, child, gate, d) == Ok(child)
    ensures !Skips(gate, m.mutationRate) && !Skips(d.gate, m.mutationRate) ==>
              Mutate(m, child, gate, d) == Ok(RandomizeEquation(child, d.stream))
  {
  }

  /** `mutate(child)` as written.  The step strategy's `mutate` takes only
      the child, so the manager's call with the rate is a TypeError whenever
      the gate lets a step through; the randomizing strategy returns None
      whenever its own gate lets it through. */
  function MutateAsWritten(m: Manager, child: Equation, gate: real, d: GatedStrategies.MutationDraws)
    : (r: Result<Option<Equation>>)
    requires Valid(child) && IsUnit(gate) && GatedStrategies.MutationDrawsWellFormed(d)
    ensures Skips(gate, m.mutationRate) ==> r == Ok(Some(child))
    ensures !Skips(gate, m.mutationRate) && m.mutation.None? ==> r == Err(MissingAttribute("mutate"))
    ensures !Skips(gate, m.mutationRate) && m.mutation == Some(Step) ==> r == Err(WrongArity("StepMutation.mutate"))
    ensures !Skips(gate, m.mutationRate) && m.mutation == Some(Randomize) ==>
              r == GatedStrategies.MutateAsWritten(Randomize, m.mutationRate, child, d)
  {
    if Skips(gate, m.mutationRate) then Ok(Some(child))
    else match m.mutation
      case None => Err(MissingAttribute("mutate"))
      case Some(Step) => Err(WrongArity("StepMutation.mutate"))
      case Some(Randomize) => GatedStrategies.MutateAsWritten(Randomize, m.mutationRate, child, d)
  }

  /** When both gates let a randomization through, the manager as written
      hands back None, while the corrected manager returns an equation with
      the child's names and constants. */
  lemma RandomizeAsWrittenLosesChild(m: Manager, child: Equation, gate: real, d: GatedStrategies.MutationDraws)
    requires Valid(child) && IsUnit(gate) && GatedStrategies.MutationDrawsWellFormed(d)
    requires m.mutation == Some(Randomize) && !Skips(gate, m.mutationRate) && !Skips(d.gate, m.mutationRate)
    ensures MutateAsWritten(m, child, gate, d) == Ok(None)
    ensures Mutate(m, child, gate, d).Ok? && Names(Mutate(m, child, gate, d).value) == Names(child)
    ensures KeepsConstants(Mutate(m, child, gate, d).value, child)
  {
    GatedStrategies.RandomizeAsWrittenLosesChild(m.mutationRate, child, d);
  }

  /** Wherever a step gets through the gate the call as written fails, while
      the corrected call succeeds on any equation with a non-constant
      variable. */
  lemma StepCallFailsAsWritten(m: Manager, child: Equation, gate: real, d: GatedStrategies.MutationDraws)
    requires Valid(child) && IsUnit(gate) && GatedStrategies.MutationDrawsWellFormed(d)
    requires m.mutation == Some(Step) && !Skips(gate, m.mutationRate)
    requires |NonConstants(child.entries)| > 0
    ensures MutateAsWritten(m, child, gate, d).Err?
    ensures Mutate(m, child, gate, d).Ok?
  {
  }

  /** `crossover(parent1, parent2)`: the manager's gate, then the current
      strategy with the rate. */
  function Crossover(m: Manager, p1: Equation, p2: Equation, gate: real, d: GatedStrategies.CrossoverDraws): (r: Result<(Equation, Equation)>)
    requires Valid(p1) && Valid(p2) && IsUnit(gate) && GatedStrategies.CrossoverDrawsWellFormed(d)
    ensures Skips(gate, m.crossoverRate) ==> r == Ok((p1, p2))
    ensures !Skips(gate, m.crossoverRate) && m.crossover.None? ==> r == Err(MissingAttribute("crossover"))
    ensures !Skips(gate, m.crossoverRate) && m.crossover.Some? ==>
              r == GatedStrategies.Crossover(m.crossover.value, m.crossoverRate, p1, p2, d)
  {
    if Skips(gate, m.crossoverRate) then Ok((p1, p2))
    else match m.crossover
      case None => Err(MissingAttribute("crossover"))
      case Some(kind) => GatedStrategies.Crossover(kind, m.crossoverRate, p1, p2, d)
  }

  /** Crossover happens only when two independent draws are both at most the
      crossover rate; if either exceeds it the parents come back untouched. */
  lemma CrossoverIsDoublyGated(m: Manager, p1: Equation, p2: Equation, gate: real, d: GatedStrategies.CrossoverDraws)
    requires Valid(p1) && Valid(p2) && IsUnit(gate) && GatedStrategies.CrossoverDrawsWellFormed(d)
    requires m.crossover.Some?
    ensures Skips(gate, m.crossoverRate) || Skips(d.gate, m.crossoverRate) ==> Crossover(m, p1, p2, gate, d) == Ok((p1, p2))
    ensures !Skips(gate, m.crossoverRate) && !Skips(d.gate, m.crossoverRate) ==>
              Crossover(m, p1, p2, gate, d)
              == (if m.crossover.value == Uniform then UniformCrossover(p1, p2, d.coins)
                  else SwapOneGene(p1, p2, d.pick1, d.pick2))
  {
  }

  /** `select_parents(population, fitness_scores)` with the current strategy;
      None fails on `None.select_parents`. */
  function SelectParents<T(==)>(m: Manager, population: seq<T>, fitness: seq<real>, d: SelectionDraws): (r: Result<(T, T)>)
    requires |fitness| == |population| && DrawsWellFormed(d)
    ensures m.selection.None? ==> r == Err(MissingAttribute("select_parents"))
    ensures m.selection.Some? ==> r == Select(m.selection.value, population, fitness, d)
  {
    match m.selection
    case None => Err(MissingAttribute("select_parents"))
    case Some(kind) => Select(kind, population, fitness, d)
  }
}

=== FILE: draws.dfy ===
/** Random draws made explicit.

    Every call into Python's `random` or numpy's `np.random` becomes an argument
    `u` in [0, 1) (the range of `np.random.rand()` and `random.random()`); the
    helpers here turn such a draw into what the library call returns.
 */
module Draws {

  /** The range of `np.random.rand()` and `random.random()`. */
  predicate IsUnit(u: real) {
    0.0 <= u < 1.0
  }

  /** A stream of draws, one per position, as consumed by a loop. */
  ghost predicate IsUnitStream(s: nat -> real) {
    forall i: nat :: IsUnit(s(i))
  }

  /** `random.choice(xs)` with `|xs| == n` picks index `floor(u * n)`. */
  function ChoiceIndex(u: real, n: nat): (k: nat)
    requires IsUnit(u) && n > 0
    ensures k < n
    ensures k as real <= u * n as real < k as real + 1.0
  {
    var f := (u * n as real).Floor;
    assert 0.0 <= u * n as real < n as real by {
      assert u * n as real < 1.0 * n as real;
    }
    f as nat
  }

  /** `random.uniform(a, b)` and `np.random.uniform(a, b)`: `a + (b - a) * u`. */
  function UniformBetween(a: real, b: real, u: real): (x: real)
    requires IsUnit(u)
    ensures a <= b ==> a <= x <= b
    ensures b <= a ==> b <= x <= a
  {
    var d := b - a;
    ScaleByUnit(d, u);
    var p := d * u;
    assert a <= b ==> 0.0 <= p <= d;
    assert b <= a ==> d <= p <= 0.0;
    a + p
  }

  /** Scaling by a unit draw keeps a quantity between zero and itself. */
  lemma ScaleByUnit(d: real, u: real)
    requires IsUnit(u)
    ensures d >= 0.0 ==> 0.0 <= d * u <= d
    ensures d <= 0.0 ==> d <= d * u <= 0.0
  {
    var w := 1.0 - u;
    assert d * u + d * w == d;
    if d >= 0.0 {
      ProductNonNegative(d, u);
      ProductNonNegative(d, w);
    } else {
      ProductNonNegative(-d, u);
      ProductNonNegative(-d, w);
    }
  }

  lemma ProductNonNegative(x: real, y: real)
    requires x >= 0.0 && y >= 0.0
    ensures x * y >= 0.0
  {
  }

  function Max(a: real, b: real): real {
    if a >= b then a else b
  }

  function Min(a: real, b: real): real {
    if a <= b then a else b
  }

  /** `np.clip(x, lo, hi)`, which numpy computes as `minimum(maximum(x, lo), hi)`. */
  function Clip(x: real, lo: real, hi: real): (c: real)
    ensures lo <= hi ==> lo <= c <= hi
    ensures lo <= x <= hi ==> c == x
  {
    Min(Max(x, lo), hi)
  }

  /** Clipping into a range never moves a value further from a point of that range. */
  lemma ClipIsNonExpanding(x: real, y: real, lo: real, hi: real)
    requires lo <= y <= hi
    ensures -(x - y) <= Clip(x, lo, hi) - y <= x - y || x - y <= Clip(x, lo, hi) - y <= -(x - y)
    ensures x >= y ==> y <= Clip(x, lo, hi) <= x
    ensures x <= y ==> x <= Clip(x, lo, hi) <= y
  {
  }

  /** `random.sample(range(n), |us|)`: distinct indices drawn one at a time from
      the indices not drawn yet.  The source library draws differently, but
      the outcomes it can produce are the same: sequences of distinct indices
      below `n`. */
  function Sample(n: nat, us: seq<real>): (s: seq<nat>)
    requires |us| <= n
    requires forall i :: 0 <= i < |us| ==> IsUnit(us[i])
    ensures |s| == |us|
    ensures forall i :: 0 <= i < |s| ==> s[i] < n
    ensures forall i, j :: 0 <= i < j < |s| ==> s[i] != s[j]
  {
    SampleFrom(Range(n), us)
  }

  /** The list `[0, 1, ..., n - 1]`. */
  function Range(n: nat): (r: seq<nat>)
    ensures |r| == n
    ensures forall i :: 0 <= i < n ==> r[i] == i
  {
    seq(n, i => i)
  }

  function SampleFrom(pool: seq<nat>, us: seq<real>): (s: seq<nat>)
    requires |us| <= |pool|
    requires forall i :: 0 <= i < |us| ==> IsUnit(us[i])
    requires forall i, j :: 0 <= i < j < |pool| ==> pool[i] != pool[j]
    ensures |s| == |us|
    ensures forall i :: 0 <= i < |s| ==> s[i] in pool
    ensures forall i, j :: 0 <= i < j < |s| ==> s[i] != s[j]
    decreases |us|
  {
    if |us| == 0 then []
    else
      var k := ChoiceIndex(us[0], |pool|);
      var rest := pool[..k] + pool[k + 1..];
      assert forall x :: x in rest ==> x in pool && x != pool[k];
      [pool[k]] + SampleFrom(rest, us[1..])
  }
}

=== FILE: engine.dfy ===
/** The engine (src/genetic_algorithm.py): a population of equations evolved
    generation by generation, the fitness of an equation being its
    diffusiophoretic velocity, cached per individual.

    Individuals are objects in the source: the cache is a dictionary keyed by
    the objects themselves, which compare by identity, and every deep copy is
    a new object.  The model keeps the objects in a `World`, a map from
    references to equations with a counter for the next fresh reference; a
    population is a sequence of references and the cache is keyed by them.
 */
module Engine {
  import opened Outcomes
  import opened Draws
  import opened Equations
  import opened Operators
  import Quantities
  import Selection
  import EngineCrossover
  import EngineMutation
  import Rates
  import Ranking

  type Ref = nat

  datatype World = World(heap: map<Ref, Equation>, next: Ref)

  /** Every allocated reference is below the counter and holds a well-formed
      equation. */
  ghost predicate WorldOk(w: World) {
    forall r :: r in w.heap ==> r < w.next && Valid(w.heap[r])
  }

  /** Every equation of the run has each variable in its range. */
  ghost predicate AllInRange(w: World) {
    forall r :: r in w.heap ==> InRange(w.heap[r])
  }

  ghost predicate InHeap(population: seq<Ref>, w: World) {
    forall i :: 0 <= i < |population| ==> population[i] in w.heap
  }

  /** `w2` only adds objects to `w`: nothing allocated is changed or freed. */
  ghost predicate Grows(w: World, w2: World) {
    w.next <= w2.next && forall r :: r in w.heap ==> r in w2.heap && w2.heap[r] == w.heap[r]
  }

  /** A new object holding `e`. */
  function Alloc(w: World, e: Equation): (r: (World, Ref))
    ensures r.1 == w.next && r.0.next == w.next + 1
    ensures r.0.heap == w.heap[w.next := e]
  {
    (World(w.heap[w.next := e], w.next + 1), w.next)
  }

  /** `equation.get_diffusiophoretic_velocity()`, the engine's fitness.  The
      rest of the engine takes the scoring function as a value, so that its
      proofs do not depend on how a velocity is computed. */
  function Fitness(fns: Quantities.Transcendentals): (score: Equation -> Result<real>)
    ensures forall e :: score(e) == Quantities.DiffusiophoreticVelocity(e, fns)
  {
    e => Quantities.DiffusiophoreticVelocity(e, fns)
  }

  // ---------------------------------------------------------------------
  // The fitness cache

  /** Every cached score is the fitness of the object it is keyed by. */
  ghost predicate CacheSound(cache: map<Ref, real>, w: World, score: Equation -> Result<real>) {
    forall r :: r in cache ==> r in w.heap && score(w.heap[r]) == Ok(cache[r])
  }

  /** `c2` keeps every entry of `c`. */
  ghost predicate Extends(c2: map<Ref, real>, c: map<Ref, real>) {
    forall r :: r in c ==> r in c2 && c2[r] == c[r]
  }

  /** A sound cache stays sound while the world only grows. */
  lemma SoundAsWorldGrows(cache: map<Ref, real>, w: World, w2: World, score: Equation -> Result<real>)
    requires CacheSound(cache, w, score) && Grows(w, w2)
    ensures CacheSound(cache, w2, score)
  {
  }

  /** An object allocated after the cache was filled is never a hit: a deep
      copy is scored afresh. */
  lemma FreshRefsMiss(cache: map<Ref, real>, w: World, score: Equation -> Result<real>, r: Ref)
    requires WorldOk(w) && CacheSound(cache, w, score) && r >= w.next
    ensures r !in cache
  {
    assert r !in w.heap;
  }

  /** `evaluate_fitness(equation)`: a hit returns the cached score untouched,
      a miss computes the fitness and stores it.  Against a sound cache the
      answer is the fitness itself and the cache stays sound. */
  function EvaluateFitness(cache: map<Ref, real>, w: World, r: Ref, score: Equation -> Result<real>)
    : (res: Result<(real, map<Ref, real>)>)
    requires r in w.heap
    ensures r in cache ==> res == Ok((cache[r], cache))
    ensures res.Ok? ==> Extends(res.value.1, cache) && res.value.1.Keys == cache.Keys + {r}
    ensures res.Ok? ==> res.value.1[r] == res.value.0
    ensures CacheSound(cache, w, score) ==>
              (res.Ok? <==> score(w.heap[r]).Ok?)
              && (res.Ok? ==> score(w.heap[r]) == Ok(res.value.0) && CacheSound(res.value.1, w, score))
  {
    if r in cache then Ok((cache[r], cache))
    else
      var f :- score(w.heap[r]);
      Ok((f, cache[r := f]))
  }

  /** Asking twice gives the same score, and the second time is a hit that
      leaves the cache as the first left it. */
  lemma EvaluateIsIdempotent(cache: map<Ref, real>, w: World, r: Ref, score: Equation -> Result<real>)
    requires r in w.heap
    requires EvaluateFitness(cache, w, r, score).Ok?
    ensures var first := EvaluateFitness(cache, w, r, score).value;
            EvaluateFitness(first.1, w, r, score) == Ok(first)
  {
  }

  /** `evaluate_population_fitness(population)`: the scores in population
      order.  The thread pool's `map` yields them in order and re-raises the
      first failure, so a sequential loop computes the same list. */
  method EvaluatePopulation(cache: map<Ref, real>, w: World, population: seq<Ref>, score: Equation -> Result<real>)
    returns (res: Result<(seq<real>, map<Ref, real>)>)
    requires InHeap(population, w)
    ensures res.Ok? ==> |res.value.0| == |population| && Extends(res.value.1, cache)
    ensures res.Ok? ==> forall i :: 0 <= i < |population| ==>
                          population[i] in res.value.1 && res.value.1[population[i]] == res.value.0[i]
    ensures CacheSound(cache, w, score) ==>
              (res.Ok? <==> forall i :: 0 <= i < |population| ==> score(w.heap[population[i]]).Ok?)
    ensures CacheSound(cache, w, score) && res.Ok? ==>
              CacheSound(res.value.1, w, score)
              && forall i :: 0 <= i < |population| ==> score(w.heap[population[i]]) == Ok(res.value.0[i])
  {
    var c := cache;
    var scores: seq<real> := [];
    var i := 0;
    while i < |population|
      invariant 0 <= i <= |population| && |scores| == i
      invariant Extends(c, cache)
      invariant forall k :: 0 <= k < i ==> population[k] in c && c[population[k]] == scores[k]
      invariant CacheSound(cache, w, score) ==> CacheSound(c, w, score)
      invariant CacheSound(cache, w, score) ==>
                  forall k :: 0 <= k < i ==> score(w.heap[population[k]]) == Ok(scores[k])
    {
      var e := EvaluateFitness(c, w, population[i], score);
      if e.Err? {
        return Err(e.error);
      }
      c := e.value.1;
      scores := scores + [e.value.0];
      i := i + 1;
    }
    return Ok((scores, c));
  }

  // ---------------------------------------------------------------------
  // Breeding

  /** The draws of one pass of the breeding loop: the parents, the crossover
      and one mutation per child. */
  datatype BreedDraws = BreedDraws(
    selection: Selection.SelectionDraws,
    crossover: EngineCrossover.CrossoverDraws,
    mutation1: EngineMutation.MutationDraws,
    mutation2: EngineMutation.MutationDraws)

  ghost predicate BreedDrawsWellFormed(d: BreedDraws) {
    Selection.DrawsWellFormed(d.selection) && EngineCrossover.DrawsWellFormed(d.crossover)
    && EngineMutation.DrawsWellFormed(d.mutation1) && EngineMutation.DrawsWellFormed(d.mutation2)
  }

  /** The names under which the children of one pass share variable objects
      (see `EngineCrossover.SharedNames`); none when selection fails. */
  function OffspringShared(w: World, population: seq<Ref>, fitness: seq<real>, crossoverRate: real,
                           d: BreedDraws): seq<string>
    requires WorldOk(w) && InHeap(population, w) && |fitness| == |population| && BreedDrawsWellFormed(d)
  {
    var parents := Selection.SelectParents(population, fitness, d.selection);
    if parents.Err? then []
    else
      Selection.SelectedAreMembers(population, fitness, d.selection);
      EngineCrossover.SharedNames(crossoverRate, w.heap[parents.value.0], w.heap[parents.value.1], d.crossover)
  }

  /** The two children of one pass of the `while len(new_population) <
      population_size` loop: select two parents (deep copies), cross them and
      mutate each child in place.  After a swap of differently named picks
      the children hold the same two variable objects, so the first child's
      mutation is seen by the second before it is mutated, and the second's
      is seen by the first. */
  function Offspring(w: World, population: seq<Ref>, fitness: seq<real>, mutationRate: real, crossoverRate: real,
                     d: BreedDraws): (r: Result<(Equation, Equation)>)
    requires WorldOk(w) && InHeap(population, w) && |fitness| == |population| && BreedDrawsWellFormed(d)
    ensures r.Ok? ==> Valid(r.value.0) && Valid(r.value.1)
  {
    var parents :- Selection.SelectParents(population, fitness, d.selection);
    Selection.SelectedAreMembers(population, fitness, d.selection);
    var children :- EngineCrossover.Crossover(crossoverRate, w.heap[parents.0], w.heap[parents.1], d.crossover);
    var shared := EngineCrossover.SharedNames(crossoverRate, w.heap[parents.0], w.heap[parents.1], d.crossover);
    var m1 :- EngineMutation.Mutate(mutationRate, children.0, d.mutation1);
    var seen := SyncShared(children.1, m1, shared);
    var m2 :- EngineMutation.Mutate(mutationRate, seen, d.mutation2);
    Ok((SyncShared(m1, m2, shared), m2))
  }

  /** Whatever the mutations did, the two children agree on every variable
      they share. */
  lemma OffspringAgreeOnShared(w: World, population: seq<Ref>, fitness: seq<real>, mutationRate: real,
                               crossoverRate: real, d: BreedDraws)
    requires WorldOk(w) && InHeap(population, w) && |fitness| == |population| && BreedDrawsWellFormed(d)
    requires Offspring(w, population, fitness, mutationRate, crossoverRate, d).Ok?
    ensures var r := Offspring(w, population, fitness, mutationRate, crossoverRate, d).value;
            forall n :: n in OffspringShared(w, population, fitness, crossoverRate, d) ==>
              Has(r.0, n) && Get(r.0, n) == Get(r.1, n)
  {
    var parents := Selection.SelectParents(population, fitness, d.selection).value;
    Selection.SelectedAreMembers(population, fitness, d.selection);
    var p1 := w.heap[parents.0];
    var p2 := w.heap[parents.1];
    var children := EngineCrossover.Crossover(crossoverRate, p1, p2, d.crossover).value;
    var shared := EngineCrossover.SharedNames(crossoverRate, p1, p2, d.crossover);
    EngineCrossover.CrossoverSharesPicks(crossoverRate, p1, p2, d.crossover);
    var m1 := EngineMutation.Mutate(mutationRate, children.0, d.mutation1).value;
    var seen := SyncShared(children.1, m1, shared);
    var m2 := EngineMutation.Mutate(mutationRate, seen, d.mutation2).value;
    assert shared == OffspringShared(w, population, fitness, crossoverRate, d);
    forall n | n in shared ensures Has(SyncShared(m1, m2, shared), n) && Get(SyncShared(m1, m2, shared), n) == Get(m2, n) {
      assert Has(m1, n) && Has(seen, n) && Has(m2, n);
    }
  }

  /** Breeding from a world whose equations are all in range gives children
      in range: crossover only moves variables and mutation keeps them in
      their ranges. */
  lemma OffspringInRange(w: World, population: seq<Ref>, fitness: seq<real>, mutationRate: real,
                         crossoverRate: real, d: BreedDraws)
    requires WorldOk(w) && InHeap(population, w) && |fitness| == |population| && BreedDrawsWellFormed(d)
    requires AllInRange(w)
    requires Offspring(w, population, fitness, mutationRate, crossoverRate, d).Ok?
    ensures InRange(Offspring(w, population, fitness, mutationRate, crossoverRate, d).value.0)
    ensures InRange(Offspring(w, population, fitness, mutationRate, crossoverRate, d).value.1)
  {
    var parents := Selection.SelectParents(population, fitness, d.selection).value;
    Selection.SelectedAreMembers(population, fitness, d.selection);
    var p1 := w.heap[parents.0];
    var p2 := w.heap[parents.1];
    EngineCrossover.CrossoverKeepsInvariants(crossoverRate, p1, p2, d.crossover);
    var children := EngineCrossover.Crossover(crossoverRate, p1, p2, d.crossover).value;
    var shared := EngineCrossover.SharedNames(crossoverRate, p1, p2, d.crossover);
    EngineMutation.MutateKeepsInvariants(mutationRate, children.0, d.mutation1);
    var m1 := EngineMutation.Mutate(mutationRate, children.0, d.mutation1).value;
    var seen := SyncShared(children.1, m1, shared);
    EngineMutation.MutateKeepsInvariants(mutationRate, seen, d.mutation2);
  }

  /** One pass of the breeding loop, given the pass's draws: the two children,
      or the error that ends the loop.  The engine's pass is `Offspring` over
      the old population (see `Reproduce`); the loop itself only needs the
      children to be well-formed. */
  type Breeder = BreedDraws --> Result<(Equation, Equation)>

  /** The children of one pass become two new objects: breeding fails exactly
      when the pass does, with its error, and otherwise the next two
      references hold its two children. */
  method Breed(w: World, breed: Breeder, d: BreedDraws) returns (r: Result<(World, Ref, Ref)>)
    requires WorldOk(w) && breed.requires(d)
    requires breed(d).Ok? ==> Valid(breed(d).value.0) && Valid(breed(d).value.1)
    ensures r.Ok? <==> breed(d).Ok?
    ensures r.Err? ==> r.error == breed(d).error
    ensures r.Ok? ==> r.value.1 == w.next && r.value.2 == w.next + 1 && r.value.0.next == w.next + 2
    ensures r.Ok? ==> Grows(w, r.value.0) && WorldOk(r.value.0)
    ensures r.Ok? ==> r.value.0.heap.Keys == w.heap.Keys + {w.next, w.next + 1}
    ensures r.Ok? ==> breed(d) == Ok((r.value.0.heap[w.next], r.value.0.heap[w.next + 1]))
    ensures r.Ok? && AllInRange(w) && InRange(breed(d).value.0) && InRange(breed(d).value.1) ==>
              AllInRange(r.value.0)
  {
    var children := breed(d);
    if children.Err? {
      return Err(children.error);
    }
    r := StorePair(w, children.value.0, children.value.1);
  }

  /** Two new objects, allocated in order. */
  function StorePair(w: World, e1: Equation, e2: Equation): (r: Result<(World, Ref, Ref)>)
    requires WorldOk(w) && Valid(e1) && Valid(e2)
    ensures r.Ok? && r.value.1 == w.next && r.value.2 == w.next + 1 && r.value.0.next == w.next + 2
    ensures r.value.0.heap.Keys == w.heap.Keys + {w.next, w.next + 1}
    ensures r.value.0.heap[r.value.1] == e1 && r.value.0.heap[r.value.2] == e2
    ensures Grows(w, r.value.0) && WorldOk(r.value.0)
    ensures AllInRange(w) && InRange(e1) && InRange(e2) ==> AllInRange(r.value.0)
  {
    var a := Alloc(w, e1);
    var b := Alloc(a.0, e2);
    Ok((b.0, a.1, b.1))
  }

  /** The size of the new population: pairs are added until the target is
      reached, so an odd target is overshot by one. */
  function FillSize(size: int): nat {
    if size <= 0 then 0 else if size % 2 == 0 then size else size + 1
  }

  /** Adding a pair below the target never passes `FillSize`, and an even
      count that has reached the target is `FillSize`. */
  lemma FillSizeBounds(size: int, k: nat)
    ensures 2 * k < size ==> 2 * k + 2 <= FillSize(size)
    ensures 2 * k >= size && 2 * k <= FillSize(size) ==> 2 * k == FillSize(size)
  {
  }

  lemma GrowsTransitive(w1: World, w2: World, w3: World)
    requires Grows(w1, w2) && Grows(w2, w3)
    ensures Grows(w1, w3)
  {
  }

  /** One pass of the breeding loop keeps its bookkeeping: the two new
      objects are the next two references, held by the grown world. */
  lemma AppendPair(w: World, cur: World, w2: World, children: seq<Ref>, size: int, k: nat,
                    breed: Breeder, draws: nat -> BreedDraws)
    requires |children| == 2 * k && |children| < size && |children| <= FillSize(size)
    requires cur.next == w.next + |children|
    requires forall i :: 0 <= i < |children| ==> children[i] == w.next + i
    requires WorldOk(cur) && Grows(w, cur) && InHeap(children, cur)
    requires w2.next == cur.next + 2 && Grows(cur, w2) && WorldOk(w2)
    requires w2.heap.Keys == cur.heap.Keys + {cur.next, cur.next + 1}
    requires forall j :: 0 <= j <= k ==> breed.requires(draws(j))
    requires forall j :: 0 <= j < k ==> breed(draws(j)) == Ok((cur.heap[children[2 * j]], cur.heap[children[2 * j + 1]]))
    requires breed(draws(k)) == Ok((w2.heap[cur.next], w2.heap[cur.next + 1]))
    ensures var next: seq<Ref> := children + [cur.next, cur.next + 1];
            |next| == 2 * (k + 1) && |next| <= FillSize(size) && w2.next == w.next + |next|
            && (forall i :: 0 <= i < |next| ==> next[i] == w.next + i)
            && Grows(w, w2) && InHeap(next, w2)
            && (forall j :: 0 <= j < k + 1 ==> breed(draws(j)) == Ok((w2.heap[next[2 * j]], w2.heap[next[2 * j + 1]])))
  {
    FillSizeBounds(size, k);
    GrowsTransitive(w, cur, w2);
    var next: seq<Ref> := children + [cur.next, cur.next + 1];
    assert forall i :: 0 <= i < |children| ==> next[i] == children[i];
    forall j | 0 <= j < k + 1
      ensures breed(draws(j)) == Ok((w2.heap[next[2 * j]], w2.heap[next[2 * j + 1]]))
    {
      if j < k {
        assert next[2 * j] == children[2 * j] && next[2 * j + 1] == children[2 * j + 1];
      }
    }
  }

  /** The breeding loop.  The children are new objects, allocated in order,
      pass `k` storing the pair `breed(draws(k))`; the loop stops with the
      error of the first pass that fails. */
  method FillPopulation(w: World, size: int, draws: nat -> BreedDraws, breed: Breeder)
    returns (res: Result<(World, seq<Ref>)>)
    requires WorldOk(w)
    requires forall k :: breed.requires(draws(k))
    requires forall k :: breed(draws(k)).Ok? ==> Valid(breed(draws(k)).value.0) && Valid(breed(draws(k)).value.1)
    ensures res.Ok? ==> |res.value.1| == FillSize(size)
    ensures res.Ok? ==> forall i :: 0 <= i < |res.value.1| ==> res.value.1[i] == w.next + i
    ensures res.Ok? ==> WorldOk(res.value.0) && Grows(w, res.value.0) && InHeap(res.value.1, res.value.0)
    ensures res.Ok? ==> forall k :: 0 <= k && 2 * k + 1 < |res.value.1| ==>
              breed(draws(k)) == Ok((res.value.0.heap[res.value.1[2 * k]], res.value.0.heap[res.value.1[2 * k + 1]]))
    ensures res.Err? ==> exists k :: 0 <= k && 2 * k < FillSize(size) && breed(draws(k)) == Err(res.error)
                                     && forall j :: 0 <= j < k ==> breed(draws(j)).Ok?
    ensures res.Ok? && AllInRange(w)
            && (forall k :: breed(draws(k)).Ok? ==> InRange(breed(draws(k)).value.0) && InRange(breed(draws(k)).value.1))
            ==> AllInRange(res.value.0)
  {
    var cur := w;
    var children: seq<Ref> := [];
    var k: nat := 0;
    ghost var inRange := AllInRange(w)
      && forall j :: breed(draws(j)).Ok? ==> InRange(breed(draws(j)).value.0) && InRange(breed(draws(j)).value.1);
    while |children| < size
      invariant |children| == 2 * k && |children| <= FillSize(size)
      invariant cur.next == w.next + |children|
      invariant forall i :: 0 <= i < |children| ==> children[i] == w.next + i
      invariant WorldOk(cur) && Grows(w, cur) && InHeap(children, cur)
      invariant forall j :: 0 <= j < k ==> breed(draws(j)) == Ok((cur.heap[children[2 * j]], cur.heap[children[2 * j + 1]]))
      invariant inRange ==> AllInRange(cur)
      decreases size - |children|
    {
      var bred := Breed(cur, breed, draws(k));
      if bred.Err? {
        FillSizeBounds(size, k);
        return Err(bred.error);
      }
      var next := children + [bred.value.1, bred.value.2];
      AppendPair(w, cur, bred.value.0, children, size, k, breed, draws);
      cur := bred.value.0;
      children := next;
      k := k + 1;
    }
    FillSizeBounds(size, k);
    return Ok((cur, children));
  }

  // ---------------------------------------------------------------------
  // One generation

  /** The engine's attributes between generations. */
  datatype State = State(
    world: World,
    population: seq<Ref>,
    fitness: seq<real>,
    cache: map<Ref, real>,
    best: Option<Ref>,
    mutationRate: real)

  /** What `broadcast_data` sends after a generation. */
  datatype Progress = Progress(generation: nat, bestFitness: real, mutationRate: real, uniqueFitnessScores: nat)

  /** The scores are the population's, in order, the cache is sound, and
      the best individual, once there is one, has been scored. */
  ghost predicate StateOk(s: State, score: Equation -> Result<real>) {
    WorldOk(s.world) && InHeap(s.population, s.world) && |s.fitness| == |s.population|
    && CacheSound(s.cache, s.world, score)
    && (forall i :: 0 <= i < |s.population| ==> score(s.world.heap[s.population[i]]) == Ok(s.fitness[i]))
    && (s.best.Some? ==> s.best.value in s.cache)
  }

  /** `copy.deepcopy(self.best_equation)`: a new object with the best's
      contents, or None before the first generation. */
  function CopyBest(s: State): (r: (World, Option<Ref>))
    requires WorldOk(s.world) && (s.best.Some? ==> s.best.value in s.world.heap)
    ensures Grows(s.world, r.0) && WorldOk(r.0)
    ensures r.1.Some? <==> s.best.Some?
    ensures r.1.Some? ==> r.1.value == s.world.next && r.1.value in r.0.heap
                          && r.0.heap[r.1.value] == s.world.heap[s.best.value]
    ensures s.best.None? ==> r.0 == s.world
    ensures AllInRange(s.world) ==> AllInRange(r.0)
  {
    match s.best
    case None => (s.world, None)
    case Some(b) =>
      var a := Alloc(s.world, s.world.heap[b]);
      (a.0, Some(a.1))
  }

  /** The two mutation-rate rules of a generation.  With a previous best the
      improvement is measured against the copy, which is scored afresh; then
      the diversity rule applies. */
  function AdaptRate(cache: map<Ref, real>, w: World, best: Ref, prev: Option<Ref>, rate: real, unique: nat,
                     size: int, score: Equation -> Result<real>): (r: Result<(real, map<Ref, real>)>)
    requires best in cache && best in w.heap && (prev.Some? ==> prev.value in w.heap)
    ensures prev.None? ==> r == Ok((Rates.UpdateByUniqueCount(rate, unique, size), cache))
    ensures r.Ok? ==> Extends(r.value.1, cache)
    ensures CacheSound(cache, w, score) && r.Ok? ==> CacheSound(r.value.1, w, score)
    ensures CacheSound(cache, w, score) && prev.Some? ==>
              (r.Ok? <==> score(w.heap[prev.value]).Ok? && score(w.heap[prev.value]).value != 0.0)
    ensures CacheSound(cache, w, score) && prev.Some? && r.Ok? ==>
              r.value.0 == Rates.UpdateByUniqueCount(
                             Rates.UpdateByFitness(rate, cache[best], Some(score(w.heap[prev.value]).value)).value,
                             unique, size)
  {
    match prev
    case None => Ok((Rates.UpdateByUniqueCount(rate, unique, size), cache))
    case Some(p) =>
      // the best was scored with its generation: its evaluation is a hit
      var q :- EvaluateFitness(cache, w, p, score);
      var r1 :- Rates.UpdateByFitness(rate, cache[best], Some(q.0));
      Ok((Rates.UpdateByUniqueCount(r1, unique, size), q.1))
  }

  /** Both rules keep a rate of the band in the band. */
  lemma AdaptRateKeepsBand(cache: map<Ref, real>, w: World, best: Ref, prev: Option<Ref>, rate: real, unique: nat,
                           size: int, score: Equation -> Result<real>)
    requires best in cache && best in w.heap && (prev.Some? ==> prev.value in w.heap)
    requires Rates.InBand(rate) && AdaptRate(cache, w, best, prev, rate, unique, size, score).Ok?
    ensures Rates.InBand(AdaptRate(cache, w, best, prev, rate, unique, size, score).value.0)
  {
    match prev
    case None =>
      Rates.GenerationRulesKeepBand(rate, cache[best], None, unique, size);
    case Some(p) =>
      var q := EvaluateFitness(cache, w, p, score).value;
      Rates.GenerationRulesKeepBand(rate, cache[best], Some(q.0), unique, size);
  }

  /** `sort_population_by_fitness(...)[0]`: the head of the ranking, an
      IndexError for an empty population. */
  method BestOf(population: seq<Ref>, fitness: seq<real>) returns (r: Result<Ref>)
    requires |fitness| == |population|
    ensures r.Err? <==> |population| == 0
    ensures r.Err? ==> r.error == IndexOutOfRange
    ensures r.Ok? ==> exists i :: 0 <= i < |population| && population[i] == r.value
                        && forall j :: 0 <= j < |fitness| ==> fitness[j] <= fitness[i]
  {
    var ranked := Ranking.SortByFitness(population, fitness);
    if |ranked| == 0 {
      return Err(IndexOutOfRange);
    }
    Ranking.HeadIsBest(population, fitness);
    Ranking.SortIsStableDescending(population, fitness);
    assert ranked[0].individual == population[ranked[0].index];
    return Ok(ranked[0].individual);
  }

  /** What the breeding half of a generation leaves: the world, the copy of
      the previous best, the new population with its scores, and the
      cache. */
  datatype Brood = Brood(world: World, prev: Option<Ref>, population: seq<Ref>, fitness: seq<real>,
                         cache: map<Ref, real>)

  /** The new population consists of `FillSize(size)` new objects, pairwise
      distinct and never cache hits, each scored with its own fitness; the
      copy of the previous best holds the previous best's contents. */
  ghost predicate Bred(s: State, b: Brood, size: int, score: Equation -> Result<real>) {
    WorldOk(b.world) && Grows(s.world, b.world) && InHeap(b.population, b.world)
    && |b.population| == FillSize(size) && |b.fitness| == |b.population|
    && (forall i :: 0 <= i < |b.population| ==> b.population[i] !in s.world.heap && b.population[i] !in s.cache)
    && (forall i, j :: 0 <= i < j < |b.population| ==> b.population[i] != b.population[j])
    && CacheSound(b.cache, b.world, score) && Extends(b.cache, s.cache)
    && (forall i :: 0 <= i < |b.population| ==>
          b.population[i] in b.cache && b.cache[b.population[i]] == b.fitness[i]
          && score(b.world.heap[b.population[i]]) == Ok(b.fitness[i]))
    && (b.prev.Some? <==> s.best.Some?)
    && (b.prev.Some? ==> b.prev.value in b.world.heap && s.best.value in s.world.heap
                         && b.world.heap[b.prev.value] == s.world.heap[s.best.value])
  }

  /** The breeding half of a generation: copy the best, fill the new
      population and score it.  Pass `k` of the loop breeds with
      `draws(k)` from the old population, so the new population holds, pair
      by pair, the children `Offspring` gives for those draws, and any pass
      that fails makes the generation fail. */
  method Reproduce(s: State, size: int, crossoverRate: real, draws: nat -> BreedDraws,
                   score: Equation -> Result<real>) returns (res: Result<Brood>)
    requires StateOk(s, score) && forall k :: BreedDrawsWellFormed(draws(k))
    ensures res.Ok? ==> Bred(s, res.value, size, score)
    ensures res.Ok? && AllInRange(s.world) ==> AllInRange(res.value.world)
    ensures res.Ok? ==> forall k :: 0 <= k && 2 * k + 1 < |res.value.population| ==>
              Offspring(s.world, s.population, s.fitness, s.mutationRate, crossoverRate, draws(k))
              == Ok((res.value.world.heap[res.value.population[2 * k]],
                     res.value.world.heap[res.value.population[2 * k + 1]]))
    ensures (exists k :: 0 <= k && 2 * k < FillSize(size)
               && Offspring(s.world, s.population, s.fitness, s.mutationRate, crossoverRate, draws(k)).Err?)
            ==> res.Err?
  {
    var breed: Breeder := d requires BreedDrawsWellFormed(d) =>
      Offspring(s.world, s.population, s.fitness, s.mutationRate, crossoverRate, d);
    if AllInRange(s.world) {
      forall k ensures breed(draws(k)).Ok? ==> InRange(breed(draws(k)).value.0) && InRange(breed(draws(k)).value.1) {
        if breed(draws(k)).Ok? {
          OffspringInRange(s.world, s.population, s.fitness, s.mutationRate, crossoverRate, draws(k));
        }
      }
    }
    res := ReproduceWith(s, size, draws, breed, score);
  }

  /** `Reproduce` for any breeding pass that yields well-formed children. */
  method ReproduceWith(s: State, size: int, draws: nat -> BreedDraws, breed: Breeder,
                       score: Equation -> Result<real>) returns (res: Result<Brood>)
    requires StateOk(s, score)
    requires forall k :: breed.requires(draws(k))
    requires forall k :: breed(draws(k)).Ok? ==> Valid(breed(draws(k)).value.0) && Valid(breed(draws(k)).value.1)
    requires AllInRange(s.world) ==>
               forall k :: breed(draws(k)).Ok? ==> InRange(breed(draws(k)).value.0) && InRange(breed(draws(k)).value.1)
    ensures res.Ok? ==> Bred(s, res.value, size, score)
    ensures res.Ok? && AllInRange(s.world) ==> AllInRange(res.value.world)
    ensures res.Ok? ==> forall k :: 0 <= k && 2 * k + 1 < |res.value.population| ==>
              breed(draws(k)) == Ok((res.value.world.heap[res.value.population[2 * k]],
                                     res.value.world.heap[res.value.population[2 * k + 1]]))
    ensures (exists k :: 0 <= k && 2 * k < FillSize(size) && breed(draws(k)).Err?) ==> res.Err?
  {
    var copied := CopyBest(s);
    var w1 := copied.0;
    SoundAsWorldGrows(s.cache, s.world, w1, score);
    var filled :- FillPopulation(w1, size, draws, breed);
    var w2 := filled.0;
    var population := filled.1;
    GrowsTransitive(s.world, w1, w2);
    SoundAsWorldGrows(s.cache, s.world, w2, score);
    var evaluated :- EvaluatePopulation(s.cache, w2, population, score);
    forall i | 0 <= i < |population| ensures population[i] !in s.cache {
      FreshRefsMiss(s.cache, s.world, score, population[i]);
    }
    return Ok(Brood(w2, copied.1, population, evaluated.0, evaluated.1));
  }

  /** One pass of `evolve`'s loop, numbered `g` from zero. */
  method Generation(s: State, g: nat, size: int, crossoverRate: real, draws: nat -> BreedDraws,
                    score: Equation -> Result<real>) returns (res: Result<(State, Progress)>)
    requires StateOk(s, score) && forall k :: BreedDrawsWellFormed(draws(k))
    ensures size <= 0 ==> res.Err?
    ensures res.Ok? ==> StateOk(res.value.0, score)
    ensures res.Ok? ==> Grows(s.world, res.value.0.world) && Extends(res.value.0.cache, s.cache)
    ensures res.Ok? && AllInRange(s.world) ==> AllInRange(res.value.0.world)
    ensures res.Ok? ==> NewGeneration(s, res.value.0, size)
    ensures res.Ok? ==> forall k :: 0 <= k && 2 * k + 1 < |res.value.0.population| ==>
              Offspring(s.world, s.population, s.fitness, s.mutationRate, crossoverRate, draws(k))
              == Ok((res.value.0.world.heap[res.value.0.population[2 * k]],
                     res.value.0.world.heap[res.value.0.population[2 * k + 1]]))
    ensures (exists k :: 0 <= k && 2 * k < FillSize(size)
               && Offspring(s.world, s.population, s.fitness, s.mutationRate, crossoverRate, draws(k)).Err?)
            ==> res.Err?
    ensures res.Ok? ==> Reported(res.value.0, res.value.1, g)
    ensures res.Ok? && Rates.InBand(s.mutationRate) ==> Rates.InBand(res.value.0.mutationRate)
    ensures res.Ok? && s.best.None? ==>
              res.value.0.mutationRate == Rates.UpdateByUniqueCount(s.mutationRate, res.value.1.uniqueFitnessScores, size)
    ensures res.Ok? && s.best.Some? ==>
              var raised := Rates.UpdateByFitness(s.mutationRate, res.value.1.bestFitness, Some(s.cache[s.best.value]));
              raised.Ok?
              && res.value.0.mutationRate == Rates.UpdateByUniqueCount(raised.value, res.value.1.uniqueFitnessScores, size)
  {
    var b :- Reproduce(s, size, crossoverRate, draws, score);
    var best :- BestOf(b.population, b.fitness);
    var unique := Ranking.UniqueCount(b.fitness);
    Ranking.UniqueCountBound(b.fitness);
    var adapted :- AdaptRate(b.cache, b.world, best, b.prev, s.mutationRate, unique, size, score);
    if Rates.InBand(s.mutationRate) {
      AdaptRateKeepsBand(b.cache, b.world, best, b.prev, s.mutationRate, unique, size, score);
    }
    var s2 := State(b.world, b.population, b.fitness, adapted.1, Some(best), adapted.0);
    return Ok((s2, Progress(g + 1, adapted.1[best], adapted.0, unique)));
  }

  /** The new population: `FillSize(size)` new objects, pairwise distinct,
      none of them a cache hit; the best is one of them and no score beats
      it. */
  ghost predicate NewGeneration(s: State, s2: State, size: int) {
    |s2.population| == FillSize(size)
    && (forall i :: 0 <= i < |s2.population| ==> s2.population[i] !in s.world.heap && s2.population[i] !in s.cache)
    && (forall i, j :: 0 <= i < j < |s2.population| ==> s2.population[i] != s2.population[j])
    && s2.best.Some? && s2.best.value in s2.population && s2.best.value in s2.cache
    && (forall i :: 0 <= i < |s2.fitness| ==> s2.fitness[i] <= s2.cache[s2.best.value])
  }

  /** The broadcast numbers generations from one and reports the best's
      cached score, the adapted rate and the number of distinct scores. */
  ghost predicate Reported(s2: State, p: Progress, g: nat) {
    s2.best.Some? && s2.best.value in s2.cache
    && p.generation == g + 1 && p.bestFitness == s2.cache[s2.best.value]
    && p.mutationRate == s2.mutationRate
    && p.uniqueFitnessScores == Ranking.UniqueCount(s2.fitness) <= |s2.population|
  }

  // ---------------------------------------------------------------------
  // Initialization and the run

  /** `population_size` when positive: `range` of a non-positive size is
      empty. */
  function Count(size: int): nat {
    if size <= 0 then 0 else size
  }

  /** `initialize_population`, corrected: each individual is a new object
      holding a randomization of `template`, drawn with `draws(i)`.  The run
      starts from an empty world and an empty cache. */
  method InitializePopulation(template: Equation, size: int, mutationRate: real, draws: nat -> nat -> real,
                              score: Equation -> Result<real>) returns (res: Result<State>)
    requires Valid(template) && forall k :: IsUnitStream(draws(k))
    ensures res.Ok? <==> forall i :: 0 <= i < Count(size) ==> score(RandomizeEquation(template, draws(i))).Ok?
    ensures res.Ok? ==> StateOk(res.value, score) && res.value.best.None? && res.value.mutationRate == mutationRate
    ensures res.Ok? ==> |res.value.population| == Count(size)
                        && forall i :: 0 <= i < Count(size) ==>
                             res.value.world.heap[res.value.population[i]] == RandomizeEquation(template, draws(i))
    ensures res.Ok? && InRange(template) ==> AllInRange(res.value.world)
  {
    var n := Count(size);
    var w := World(map i: Ref | i < n :: RandomizeEquation(template, draws(i)), n);
    var population := Range(n);
    assert InHeap(population, w);
    assert InRange(template) ==> AllInRange(w) by {
      if InRange(template) {
        forall i: Ref | i < n ensures InRange(RandomizeEquation(template, draws(i))) {
          RandomizeKeepsInvariants(template, draws(i));
        }
      }
    }
    var evaluated :- EvaluatePopulation(map[], w, population, score);
    forall i | 0 <= i < n ensures score(RandomizeEquation(template, draws(i))).Ok? {
      assert score(w.heap[population[i]]) == Ok(evaluated.0[i]);
    }
    return Ok(State(w, population, evaluated.0, evaluated.1, None, mutationRate));
  }

  /** How the source scores an individual that may be None: None has no
      `get_diffusiophoretic_velocity`. */
  function ScoreAsWritten(individual: Option<Equation>, score: Equation -> Result<real>): (r: Result<real>)
    ensures individual.None? ==> r == Err(MissingAttribute("get_diffusiophoretic_velocity"))
    ensures individual.Some? ==> r == score(individual.value)
  {
    match individual
    case None => Err(MissingAttribute("get_diffusiophoretic_velocity"))
    case Some(e) => score(e)
  }

  function ScoreAllAsWritten(population: seq<Option<Equation>>, score: Equation -> Result<real>)
    : (r: Result<seq<real>>)
    ensures r.Ok? ==> |r.value| == |population|
    ensures r.Ok? <==> forall i :: 0 <= i < |population| ==> ScoreAsWritten(population[i], score).Ok?
    decreases |population|
  {
    if |population| == 0 then Ok([])
    else
      var head :- ScoreAsWritten(population[0], score);
      var tail :- ScoreAllAsWritten(population[1..], score);
      assert forall i :: 1 <= i < |population| ==> population[i] == population[1..][i - 1];
      Ok([head] + tail)
  }

  /** `initialize_population` as written: every individual is
      `Equation().randomize_equation()`, which returns None, and the scores
      are then computed. */
  function InitializeAsWritten(size: int, score: Equation -> Result<real>): (r: Result<seq<real>>)
    ensures r.Ok? ==> |r.value| == Count(size)
  {
    ScoreAllAsWritten(seq(Count(size), i => None), score)
  }

  /** Any positive population size makes the written initialization fail,
      whatever the fitness; the corrected one succeeds whenever the
      randomized copies of the template have a velocity. */
  lemma InitializeAsWrittenFails(size: int, score: Equation -> Result<real>)
    requires size > 0
    ensures InitializeAsWritten(size, score).Err?
  {
    var population: seq<Option<Equation>> := seq(Count(size), i => None);
    assert !ScoreAsWritten(population[0], score).Ok?;
  }

  /** Even returning the randomized equation would not do: `Equation()` has
      no variables, so its velocity is undefined.  The corrected
      initialization therefore randomizes a configured template. */
  lemma EmptyEquationHasNoVelocity(fns: Quantities.Transcendentals)
    ensures Fitness(fns)(Empty()).Err?
  {
    assert !Has(Empty(), Quantities.VelocityKey);
    assert Quantities.BetaPotential(Empty()) == Err(NotFound("cation"));
  }

  /** Appending the next generation's report keeps the reports numbered
      from one, and keeps them in the band when the new one is. */
  lemma AppendReport(records: seq<Progress>, p: Progress)
    requires forall g :: 0 <= g < |records| ==> records[g].generation == g + 1
    requires p.generation == |records| + 1
    ensures forall g :: 0 <= g < |records + [p]| ==> (records + [p])[g].generation == g + 1
    ensures (forall g :: 0 <= g < |records| ==> Rates.InBand(records[g].mutationRate)) && Rates.InBand(p.mutationRate) ==>
              forall g :: 0 <= g < |records + [p]| ==> Rates.InBand((records + [p])[g].mutationRate)
  {
  }

  /** `evolve`: `generations` passes of the loop, generation `g` drawing
      with `draws(g)`. */
  method Evolve(s0: State, generations: int, size: int, crossoverRate: real, draws: nat -> nat -> BreedDraws,
                score: Equation -> Result<real>) returns (res: Result<(State, seq<Progress>)>)
    requires StateOk(s0, score) && forall g, k :: BreedDrawsWellFormed(draws(g)(k))
    ensures res.Ok? ==> StateOk(res.value.0, score) && |res.value.1| == Count(generations)
    ensures res.Ok? ==> forall g :: 0 <= g < |res.value.1| ==> res.value.1[g].generation == g + 1
    ensures res.Ok? && generations > 0 ==> Reported(res.value.0, res.value.1[|res.value.1| - 1], |res.value.1| - 1)
    ensures res.Ok? && generations <= 0 ==> res.value.0 == s0
    ensures res.Ok? && Rates.InBand(s0.mutationRate) ==>
              Rates.InBand(res.value.0.mutationRate)
              && forall g :: 0 <= g < |res.value.1| ==> Rates.InBand(res.value.1[g].mutationRate)
    ensures res.Ok? && AllInRange(s0.world) ==> AllInRange(res.value.0.world)
  {
    var s := s0;
    var records: seq<Progress> := [];
    while |records| < generations
      invariant StateOk(s, score) && |records| <= Count(generations)
      invariant forall g :: 0 <= g < |records| ==> records[g].generation == g + 1
      invariant |records| > 0 ==> Reported(s, records[|records| - 1], |records| - 1)
      invariant |records| == 0 ==> s == s0
      invariant Rates.InBand(s0.mutationRate) ==>
                  Rates.InBand(s.mutationRate) && forall g :: 0 <= g < |records| ==> Rates.InBand(records[g].mutationRate)
      invariant AllInRange(s0.world) ==> AllInRange(s.world)
      decreases generations - |records|
    {
      var g := |records|;
      assert forall k :: BreedDrawsWellFormed(draws(g)(k));
      var step :- Advance(s, g, size, crossoverRate, draws(g), score);
      AppendReport(records, step.1);
      s := step.0;
      records := records + [step.1];
    }
    return Ok((s, records));
  }

  /** One pass of `Evolve`'s loop: `Generation`, with only what the loop
      keeps track of. */
  method Advance(s: State, g: nat, size: int, crossoverRate: real, draws: nat -> BreedDraws,
                 score: Equation -> Result<real>) returns (res: Result<(State, Progress)>)
    requires StateOk(s, score) && forall k :: BreedDrawsWellFormed(draws(k))
    ensures res.Ok? ==> StateOk(res.value.0, score) && Reported(res.value.0, res.value.1, g)
    ensures res.Ok? && Rates.InBand(s.mutationRate) ==> Rates.InBand(res.value.0.mutationRate)
    ensures res.Ok? && AllInRange(s.world) ==> AllInRange(res.value.0.world)
  {
    res := Generation(s, g, size, crossoverRate, draws, score);
  }

  /** `run()`: initialize, evolve, and hand back the best equation, which is
      None when no generation ran.  The fitness is the equation's
      diffusiophoretic velocity. */
  method Run(template: Equation, generations: int, size: int, crossoverRate: real, mutationRate: real,
             initial: nat -> nat -> real, draws: nat -> nat -> BreedDraws, fns: Quantities.Transcendentals)
    returns (res: Result<(Option<Equation>, seq<Progress>)>)
    requires Valid(template) && forall k :: IsUnitStream(initial(k))
    requires forall g, k :: BreedDrawsWellFormed(draws(g)(k))
    ensures res.Ok? ==> |res.value.1| == Count(generations)
    ensures res.Ok? ==> (res.value.0.Some? <==> generations > 0)
    ensures res.Ok? && generations > 0 ==>
              Valid(res.value.0.value) && Fitness(fns)(res.value.0.value) == Ok(res.value.1[|res.value.1| - 1].bestFitness)
    ensures res.Ok? && generations > 0 && InRange(template) ==> InRange(res.value.0.value)
    ensures res.Ok? && Rates.InBand(mutationRate) ==>
              forall g :: 0 <= g < |res.value.1| ==> Rates.InBand(res.value.1[g].mutationRate)
  {
    res := RunScored(template, generations, size, crossoverRate, mutationRate, initial, draws, Fitness(fns));
  }

  /** `run()` for any fitness function. */
  method RunScored(template: Equation, generations: int, size: int, crossoverRate: real, mutationRate: real,
                   initial: nat -> nat -> real, draws: nat -> nat -> BreedDraws, score: Equation -> Result<real>)
    returns (res: Result<(Option<Equation>, seq<Progress>)>)
    requires Valid(template) && forall k :: IsUnitStream(initial(k))
    requires forall g, k :: BreedDrawsWellFormed(draws(g)(k))
    ensures res.Ok? ==> |res.value.1| == Count(generations)
    ensures res.Ok? ==> (res.value.0.Some? <==> generations > 0)
    ensures res.Ok? && generations > 0 ==>
              Valid(res.value.0.value) && score(res.value.0.value) == Ok(res.value.1[|res.value.1| - 1].bestFitness)
    ensures res.Ok? && generations > 0 && InRange(template) ==> InRange(res.value.0.value)
    ensures res.Ok? && Rates.InBand(mutationRate) ==>
              forall g :: 0 <= g < |res.value.1| ==> Rates.InBand(res.value.1[g].mutationRate)
  {
    var init := InitializePopulation(template, size, mutationRate, initial, score);
    if init.Err? {
      return Err(init.error);
    }
    var s0 := init.value;
    var evolved := Evolve(s0, generations, size, crossoverRate, draws, score);
    if evolved.Err? {
      return Err(evolved.error);
    }
    var s := evolved.value.0;
    var records := evolved.value.1;
    if generations <= 0 {
      assert s.best.None?;
      return Ok((None, records));
    }
    var last := |records| - 1;
    ReportedBestIsScored(s, records[last], last, score);
    var best := s.world.heap[s.best.value];
    assert InRange(template) ==> InRange(best);
    return Ok((Some(best), records));
  }

  /** The best a generation reports is an object of the world whose score is
      the reported best fitness. */
  lemma ReportedBestIsScored(s: State, p: Progress, g: nat, score: Equation -> Result<real>)
    requires StateOk(s, score) && Reported(s, p, g)
    ensures s.best.value in s.world.heap && score(s.world.heap[s.best.value]) == Ok(p.bestFitness)
  {
  }
}

=== FILE: engine_crossover.dfy ===
/** The crossover the engine uses (src/ga/crossover.py): a probability gate,
    then a draw between the uniform crossover and the single-gene swap.
 */
module EngineCrossover {
  import opened Outcomes
  import opened Draws
  import opened Equations
  import opened Operators

  /** The tags `random.choice` draws from. */
  const Methods: seq<string> := ["uniform", "single_point"]

  /** The draws one call consumes: the gate, the method, one coin per position
      for the uniform loop and one pick per parent for the swap. */
  datatype CrossoverDraws = CrossoverDraws(gate: real, choice: real, coins: nat -> real, pick1: real, pick2: real)

  ghost predicate DrawsWellFormed(d: CrossoverDraws) {
    IsUnit(d.gate) && IsUnit(d.choice) && IsUnit(d.pick1) && IsUnit(d.pick2)
  }

  function Method(d: CrossoverDraws): string
    requires DrawsWellFormed(d)
  {
    Methods[ChoiceIndex(d.choice, |Methods|)]
  }

  /** `Crossover.crossover(crossover_rate, parent1, parent2)`.  The parents
      come back untouched when the gate draw exceeds the rate; otherwise the
      drawn method runs, and it fails only as that method fails. */
  function Crossover(rate: real, p1: Equation, p2: Equation, d: CrossoverDraws): (r: Result<(Equation, Equation)>)
    requires Valid(p1) && Valid(p2) && DrawsWellFormed(d)
    ensures Skips(d.gate, rate) ==> r == Ok((p1, p2))
    ensures !Skips(d.gate, rate) && Method(d) == "uniform" ==> r == UniformCrossover(p1, p2, d.coins)
    ensures !Skips(d.gate, rate) && Method(d) == "single_point" ==> r == SwapOneGene(p1, p2, d.pick1, d.pick2)
    ensures r.Ok? ==> Valid(r.value.0) && Valid(r.value.1)
  {
    if Skips(d.gate, rate) then Ok((p1, p2))
    else
      var tag := Method(d);
      if tag == "uniform" then UniformCrossover(p1, p2, d.coins)
      else if tag == "single_point" then SwapOneGene(p1, p2, d.pick1, d.pick2)
      else Err(Unsupported(tag))
  }

  /** The NotImplementedError branch is dead: every drawn tag is handled, so
      a failure is one of the two methods' own failures. */
  lemma CrossoverFailsOnlyInMethods(rate: real, p1: Equation, p2: Equation, d: CrossoverDraws)
    requires Valid(p1) && Valid(p2) && DrawsWellFormed(d)
    ensures Crossover(rate, p1, p2, d).Err? <==>
              !Skips(d.gate, rate)
              && (if Method(d) == "uniform" then |p2.entries| < |p1.entries|
                  else |NonConstants(p1.entries)| == 0 || |NonConstants(p2.entries)| == 0)
    ensures Crossover(rate, p1, p2, d).Err? ==> Crossover(rate, p1, p2, d).error != Unsupported(Method(d))
  {
    var k := ChoiceIndex(d.choice, |Methods|);
    assert Method(d) == "uniform" || Method(d) == "single_point" by {
      assert k == 0 || k == 1;
    }
  }

  /** Whatever the draws, the children are made of the parents' variables,
      so parents in range give children in range; for name-aligned parents
      each child keeps its parent's names. */
  lemma CrossoverKeepsInvariants(rate: real, p1: Equation, p2: Equation, d: CrossoverDraws)
    requires Valid(p1) && Valid(p2) && DrawsWellFormed(d)
    requires Crossover(rate, p1, p2, d).Ok?
    ensures var c := Crossover(rate, p1, p2, d).value;
            Inherits(c.0, p1, p2) && Inherits(c.1, p1, p2)
    ensures var c := Crossover(rate, p1, p2, d).value;
            InRange(p1) && InRange(p2) ==> InRange(c.0) && InRange(c.1)
    ensures var c := Crossover(rate, p1, p2, d).value;
            Aligned(p1, p2) ==> Names(c.0) == Names(p1) && Names(c.1) == Names(p2)
  {
    if !Skips(d.gate, rate) {
      var k := ChoiceIndex(d.choice, |Methods|);
      if k == 0 {
        UniformKeepsInvariants(p1, p2, d.coins);
      } else {
        SwapKeepsInvariants(p1, p2, d.pick1, d.pick2);
      }
    }
  }

  lemma UniformKeepsInvariants(p1: Equation, p2: Equation, coins: nat -> real)
    requires Valid(p1) && Valid(p2) && UniformCrossover(p1, p2, coins).Ok?
    ensures var c := UniformCrossover(p1, p2, coins).value;
            Inherits(c.0, p1, p2) && Inherits(c.1, p1, p2)
            && (InRange(p1) && InRange(p2) ==> InRange(c.0) && InRange(c.1))
            && (Aligned(p1, p2) ==> Names(c.0) == Names(p1) && Names(c.1) == Names(p2))
  {
    UniformCrossoverInherits(p1, p2, coins);
    if Aligned(p1, p2) {
      UniformCrossoverSharesGenes(p1, p2, coins);
      SameNamesPointwise(p1, p2);
    }
  }

  lemma SwapKeepsInvariants(p1: Equation, p2: Equation, pick1: real, pick2: real)
    requires Valid(p1) && Valid(p2) && IsUnit(pick1) && IsUnit(pick2) && SwapOneGene(p1, p2, pick1, pick2).Ok?
    ensures var c := SwapOneGene(p1, p2, pick1, pick2).value;
            Inherits(c.0, p1, p2) && Inherits(c.1, p1, p2)
            && (InRange(p1) && InRange(p2) ==> InRange(c.0) && InRange(c.1))
            && (Aligned(p1, p2) ==> Names(c.0) == Names(p1) && Names(c.1) == Names(p2))
  {
    SwapOneGeneInherits(p1, p2, pick1, pick2);
    if Aligned(p1, p2) {
      SwapKeepsNamesWhenAligned(p1, p2, pick1, pick2);
    }
  }

  /** The names under which the two children hold one shared variable object:
      the swapped picks when the swap ran with picks of different names, and
      none otherwise (the gate returns the two separate parents and the
      uniform crossover hands each parent's object to one child only). */
  function SharedNames(rate: real, p1: Equation, p2: Equation, d: CrossoverDraws): (names: seq<string>)
    requires Valid(p1) && Valid(p2) && DrawsWellFormed(d)
    ensures Skips(d.gate, rate) || Method(d) == "uniform" ==> names == []
    ensures !Skips(d.gate, rate) && Method(d) == "single_point" ==> names == SwapShared(p1, p2, d.pick1, d.pick2)
  {
    if !Skips(d.gate, rate) && Method(d) == "single_point" then SwapShared(p1, p2, d.pick1, d.pick2) else []
  }

  /** Both children read the same variable under every shared name. */
  lemma CrossoverSharesPicks(rate: real, p1: Equation, p2: Equation, d: CrossoverDraws)
    requires Valid(p1) && Valid(p2) && DrawsWellFormed(d)
    requires Crossover(rate, p1, p2, d).Ok?
    ensures var c := Crossover(rate, p1, p2, d).value;
            forall n :: n in SharedNames(rate, p1, p2, d) ==> Has(c.0, n) && Has(c.1, n) && Get(c.0, n) == Get(c.1, n)
  {
    if !Skips(d.gate, rate) && Method(d) == "single_point" {
      SwapSharesPicks(p1, p2, d.pick1, d.pick2);
    }
  }
}

=== FILE: engine_mutation.dfy ===
/** The mutation the engine uses (src/ga/mutation.py): a probability gate,
    then a draw from `["randomize", "step", "step", "step"]`, so a step is
    three times as likely as a full re-randomization.  The step is a tenth
    of the chosen variable's range.
 */
module EngineMutation {
  import opened Outcomes
  import opened Draws
  import opened Equations
  import opened Operators

  /** The tags `random.choice` draws from. */
  const Methods: seq<string> := ["randomize", "step", "step", "step"]

  /** The draws one call consumes: the gate, the method, one draw per variable
      for a randomization, and the pick and the step for a step. */
  datatype MutationDraws = MutationDraws(gate: real, choice: real, stream: nat -> real, pick: real, step: real)

  ghost predicate DrawsWellFormed(d: MutationDraws) {
    IsUnit(d.gate) && IsUnit(d.choice) && IsUnitStream(d.stream) && IsUnit(d.pick) && IsUnit(d.step)
  }

  function Method(d: MutationDraws): string
    requires DrawsWellFormed(d)
  {
    Methods[ChoiceIndex(d.choice, |Methods|)]
  }

  /** Only the first of the four equally likely indices randomizes. */
  lemma MethodWeights(d: MutationDraws)
    requires DrawsWellFormed(d)
    ensures Method(d) == "randomize" <==> ChoiceIndex(d.choice, 4) == 0
    ensures Method(d) == "step" <==> 1 <= ChoiceIndex(d.choice, 4) <= 3
  {
  }

  /** `Mutation.mutate(mutation_rate, child)` with `randomize_mutation`
      returning the randomized equation, as its callers expect.  The child
      comes back untouched when the gate draw exceeds the rate. */
  function Mutate(rate: real, child: Equation, d: MutationDraws): (r: Result<Equation>)
    requires Valid(child) && DrawsWellFormed(d)
    ensures Skips(d.gate, rate) ==> r == Ok(child)
    ensures !Skips(d.gate, rate) && Method(d) == "randomize" ==> r == Ok(RandomizeEquation(child, d.stream))
    ensures !Skips(d.gate, rate) && Method(d) == "step" ==> r == StepMutation(child, TenthOfRange, d.pick, d.step)
    ensures r.Ok? ==> Valid(r.value) && Names(r.value) == Names(child)
  {
    if Skips(d.gate, rate) then Ok(child)
    else
      var tag := Method(d);
      if tag == "randomize" then Ok(RandomizeEquation(child, d.stream))
      else if tag == "step" then StepMutation(child, TenthOfRange, d.pick, d.step)
      else Err(Unsupported(tag))
  }

  /** A mutation fails only in a step on an equation with no non-constant
      variable; it keeps every constant, and an equation in range stays in
      range. */
  lemma MutateKeepsInvariants(rate: real, child: Equation, d: MutationDraws)
    requires Valid(child) && DrawsWellFormed(d)
    ensures Mutate(rate, child, d).Err? <==>
              !Skips(d.gate, rate) && Method(d) == "step" && |NonConstants(child.entries)| == 0
    ensures Mutate(rate, child, d).Ok? ==> KeepsConstants(Mutate(rate, child, d).value, child)
    ensures Mutate(rate, child, d).Ok? && InRange(child) ==> InRange(Mutate(rate, child, d).value)
  {
    MethodWeights(d);
    if !Skips(d.gate, rate) {
      if Method(d) == "randomize" {
        RandomizeKeepsInvariants(child, d.stream);
      } else if StepMutation(child, TenthOfRange, d.pick, d.step).Ok? {
        StepMutationKeepsInvariants(child, TenthOfRange, d.pick, d.step);
      }
    }
  }

  /** As written `randomize_mutation` returns what `randomize_equation`
      returns, which is None: the child is randomized in place and the caller
      receives nothing. */
  function MutateAsWritten(rate: real, child: Equation, d: MutationDraws): (r: Result<Option<Equation>>)
    requires Valid(child) && DrawsWellFormed(d)
    ensures !Skips(d.gate, rate) && Method(d) == "randomize" ==> r == Ok(None)
    ensures Skips(d.gate, rate) ==> r == Ok(Some(child))
  {
    if Skips(d.gate, rate) then Ok(Some(child))
    else
      var tag := Method(d);
      if tag == "randomize" then Ok(None)
      else if tag == "step" then
        var c :- StepMutation(child, TenthOfRange, d.pick, d.step);
        Ok(Some(c))
      else Err(Unsupported(tag))
  }

  /** Every randomizing draw loses the child as written, while the corrected
      mutation returns an equation with the child's names. */
  lemma RandomizeAsWrittenLosesChild(rate: real, child: Equation, d: MutationDraws)
    requires Valid(child) && DrawsWellFormed(d)
    requires !Skips(d.gate, rate) && ChoiceIndex(d.choice, 4) == 0
    ensures MutateAsWritten(rate, child, d) == Ok(None)
    ensures Mutate(rate, child, d).Ok? && Names(Mutate(rate, child, d).value) == Names(child)
  {
    MethodWeights(d);
  }
}

=== FILE: equation.dfy ===
/** The parameter set of one candidate solution (src/diffusiophoresis/equation.py).

    The Python class keeps a dict from a variable's name to the variable.  A
    dict remembers insertion order, and the crossover operators walk the
    variables by position, so the model keeps the entries as a sequence in
    insertion order with pairwise distinct names; `Get` is the dict view.
 */
module Equations {
  import opened Outcomes
  import opened Draws
  import opened Variables

  datatype Equation = Equation(entries: seq<Variable>)

  predicate DistinctNames(s: seq<Variable>) {
    forall i, j :: 0 <= i < j < |s| ==> s[i].name != s[j].name
  }

  /** The dict invariant: one entry per name. */
  predicate Valid(e: Equation) {
    DistinctNames(e.entries)
  }

  function Names(e: Equation): set<string> {
    set v | v in e.entries :: v.name
  }

  /** The position of the entry called `name`, if there is one. */
  function Find(s: seq<Variable>, name: string): (r: Option<nat>)
    ensures r.Some? ==> r.value < |s| && s[r.value].name == name
    ensures r.Some? ==> forall j :: 0 <= j < r.value ==> s[j].name != name
    ensures r.None? ==> forall j :: 0 <= j < |s| ==> s[j].name != name
  {
    if |s| == 0 then None
    else if s[0].name == name then Some(0)
    else match Find(s[1..], name)
      case None => None
      case Some(k) => Some(k + 1)
  }

  /** `Equation()`: a fresh equation holds no variables. */
  function Empty(): (e: Equation)
    ensures Valid(e)
    ensures Names(e) == {}
    ensures forall name :: !Has(e, name)
  {
    Equation([])
  }

  /** `has_variable`. */
  function Has(e: Equation, name: string): (b: bool)
    ensures b <==> name in Names(e)
  {
    var r := Find(e.entries, name);
    assert r.Some? ==> e.entries[r.value] in e.entries;
    r.Some?
  }

  /** `get_variable`: the stored variable, or a KeyError. */
  function Get(e: Equation, name: string): (r: Result<Variable>)
    ensures r.Ok? <==> Has(e, name)
    ensures r.Ok? ==> r.value in e.entries && r.value.name == name
    ensures r.Err? ==> r.error == NotFound(name)
  {
    match Find(e.entries, name)
    case Some(i) => Ok(e.entries[i])
    case None => Err(NotFound(name))
  }

  /** In a valid equation the lookup finds exactly the entry with that name. */
  lemma GetFindsEntry(e: Equation, v: Variable)
    requires Valid(e)
    ensures Get(e, v.name) == Ok(v) <==> v in e.entries
  {
    if v in e.entries {
      var i :| 0 <= i < |e.entries| && e.entries[i] == v;
      var k := Find(e.entries, v.name);
      assert k.Some?;
      assert k.value == i;
    }
  }

  /** `get_value`, as the callers use it: the named variable's value. */
  function GetValue(e: Equation, name: string): (r: Result<real>)
    ensures r.Ok? <==> Has(e, name)
    ensures r.Ok? ==> Get(e, name).Ok? && r.value == Get(e, name).value.value
    ensures r.Err? ==> r.error == NotFound(name)
  {
    var v :- Get(e, name);
    Ok(v.value)
  }

  /** `get_value` as written reads `.value`, an attribute `Variable` does not
      have (it stores `_value`), so every lookup that finds its variable
      raises an AttributeError. */
  function GetValueAsWritten(e: Equation, name: string): (r: Result<real>)
    ensures r.Err?
    ensures Has(e, name) ==> r.error == MissingAttribute("value")
  {
    var _ :- Get(e, name);
    Err(MissingAttribute("value"))
  }

  /** Whenever the corrected lookup succeeds, the one as written fails. */
  lemma GetValueAsWrittenNeverSucceeds(e: Equation, v: Variable)
    requires Valid(e) && v in e.entries
    ensures GetValue(e, v.name) == Ok(v.value)
    ensures GetValueAsWritten(e, v.name) == Err(MissingAttribute("value"))
  {
    GetFindsEntry(e, v);
  }

  /** `add_variable`: an upsert under the variable's own name.  A new name is
      appended (dict insertion order); an existing name keeps its position. */
  function Add(e: Equation, v: Variable): (r: Equation)
    requires Valid(e)
    ensures Valid(r)
    ensures Has(e, v.name) ==> |r.entries| == |e.entries|
    ensures Has(e, v.name) ==> forall i :: 0 <= i < |e.entries| ==> r.entries[i].name == e.entries[i].name
    ensures !Has(e, v.name) ==> r.entries == e.entries + [v]
  {
    match Find(e.entries, v.name)
    case Some(i) =>
      var r := Equation(e.entries[i := v]);
      AddKeepsOthers(e, r, v, i);
      r
    case None =>
      var r := Equation(e.entries + [v]);
      AddKeepsOthers(e, r, v, |e.entries|);
      r
  }

  /** After `add_variable(v)` the lookup of `v`'s name finds `v`, every
      other lookup is unchanged, and the names gain `v`'s. */
  lemma AddLookup(e: Equation, v: Variable)
    requires Valid(e)
    ensures Get(Add(e, v), v.name) == Ok(v)
    ensures forall name :: name != v.name ==> Get(Add(e, v), name) == Get(e, name)
    ensures Names(Add(e, v)) == Names(e) + {v.name}
  {
    match Find(e.entries, v.name)
    case Some(i) =>
      AddKeepsOthers(e, Add(e, v), v, i);
    case None =>
      AddKeepsOthers(e, Add(e, v), v, |e.entries|);
  }

  /** Every entry of `Add(e, v)` is `v` or an entry of `e`. */
  lemma AddDrawsFrom(e: Equation, v: Variable)
    requires Valid(e)
    ensures forall w :: w in Add(e, v).entries ==> w == v || w in e.entries
  {
    match Find(e.entries, v.name)
    case Some(i) =>
      forall w | w in e.entries[i := v] ensures w == v || w in e.entries {
        var k :| 0 <= k < |e.entries| && e.entries[i := v][k] == w;
        if k != i {
          assert e.entries[k] == w;
        }
      }
    case None =>
  }

  /** Helper for `Add`: replacing or appending at position `i` leaves every
      other name's lookup alone. */
  lemma AddKeepsOthers(e: Equation, r: Equation, v: Variable, i: nat)
    requires Valid(e)
    requires i <= |e.entries|
    requires i < |e.entries| ==> e.entries[i].name == v.name && r.entries == e.entries[i := v]
    requires i == |e.entries| ==> !Has(e, v.name) && r.entries == e.entries + [v]
    ensures Valid(r)
    ensures Get(r, v.name) == Ok(v)
    ensures forall name :: name != v.name ==> Get(r, name) == Get(e, name)
    ensures Names(r) == Names(e) + {v.name}
  {
    assert r.entries[i] == v;
    forall name | name != v.name
      ensures Get(r, name) == Get(e, name)
    {
      var a := Find(r.entries, name);
      var b := Find(e.entries, name);
      if b.Some? {
        assert r.entries[b.value] == e.entries[b.value];
        assert a.Some?;
        assert a.value == b.value;
      }
    }
    GetFindsEntry(r, v);
    forall n | n in Names(r)
      ensures n in Names(e) + {v.name}
    {
      var w :| w in r.entries && w.name == n;
      var k :| 0 <= k < |r.entries| && r.entries[k] == w;
      if k != i {
        assert e.entries[k] == w;
      }
    }
    forall n | n in Names(e)
      ensures n in Names(r)
    {
      var w :| w in e.entries && w.name == n;
      var k :| 0 <= k < |e.entries| && e.entries[k] == w;
      if k != i {
        assert r.entries[k] == w;
      } else {
        assert r.entries[i].name == n;
      }
    }
  }

  /** `set_value(name, value)`: the variable is updated through
      `Variable.set_value` without safe mode, so a constant silently keeps its
      value; an absent name is a KeyError. */
  function SetValue(e: Equation, name: string, x: real): (r: Result<Equation>)
    requires Valid(e)
    ensures r.Err? <==> !Has(e, name)
    ensures r.Err? ==> r.error == NotFound(name)
    ensures r.Ok? ==> Valid(r.value) && Names(r.value) == Names(e)
    ensures r.Ok? ==> |r.value.entries| == |e.entries|
    ensures r.Ok? ==> forall n :: n != name ==> Get(r.value, n) == Get(e, n)
    ensures r.Ok? ==> Get(r.value, name).Ok? && SameExceptValue(Get(r.value, name).value, Get(e, name).value)
    ensures r.Ok? && Get(e, name).value.isConstant ==> r.value == e
    ensures r.Ok? && !Get(e, name).value.isConstant ==> GetValue(r.value, name) == Ok(x)
  {
    var v :- Get(e, name);
    var w := Variables.SetValue(v, x, false).value;
    if v.isConstant then
      assert Add(e, w) == e by {
        GetFindsEntry(e, v);
        var i := Find(e.entries, name).value;
        assert e.entries[i := v] == e.entries;
      }
      Ok(Add(e, w))
    else
      Ok(Add(e, w))
  }

  /** `get_variable_list(filter_constants)` as its callers use it: the entries in
      order, or only the non-constant ones. */
  function VariableList(e: Equation, filterConstants: bool): (r: seq<Variable>)
    ensures forall v :: v in r <==> v in e.entries && (filterConstants ==> !v.isConstant)
    ensures |r| <= |e.entries|
    ensures !filterConstants ==> r == e.entries
    ensures DistinctNames(e.entries) ==> DistinctNames(r)
  {
    if filterConstants then NonConstants(e.entries) else e.entries
  }

  /** The non-constant entries, in order. */
  function NonConstants(s: seq<Variable>): (r: seq<Variable>)
    ensures forall v :: v in r <==> v in s && !v.isConstant
    ensures |r| <= |s|
    ensures DistinctNames(s) ==> DistinctNames(r)
    decreases |s|
  {
    if |s| == 0 then []
    else
      var rest := NonConstants(s[1..]);
      assert forall v :: v in s[1..] ==> v in s;
      if s[0].isConstant then rest
      else
        assert DistinctNames(s) ==> forall v :: v in rest ==> v.name != s[0].name;
        [s[0]] + rest
  }

  /** `get_variable_list` as written: it builds the list but returns the loop
      variable, i.e. the last variable, and raises UnboundLocalError on an empty
      equation.  (It also has no `filter_constants` parameter.) */
  function VariableListAsWritten(e: Equation): (r: Result<Variable>)
    ensures |e.entries| == 0 ==> r.Err?
    ensures |e.entries| > 0 ==> r == Ok(e.entries[|e.entries| - 1])
  {
    if |e.entries| == 0 then Err(Unbound("variable"))
    else Ok(e.entries[|e.entries| - 1])
  }

  /** With two or more entries the value returned as written is a single
      variable, whereas the list the callers index holds every entry. */
  lemma VariableListAsWrittenLosesEntries(e: Equation)
    requires |e.entries| >= 2
    ensures VariableListAsWritten(e).Ok?
    ensures |VariableList(e, false)| == |e.entries| >= 2
    ensures VariableList(e, false)[0] == e.entries[0]
  {
  }

  /** `randomize_equation`: every entry is randomized with its own draw.  As
      written the method returns None although its callers use the result;
      the model returns the randomized equation. */
  function RandomizeEquation(e: Equation, draws: nat -> real): (r: Equation)
    requires IsUnitStream(draws)
    ensures |r.entries| == |e.entries|
    ensures forall i :: 0 <= i < |e.entries| ==> SameExceptValue(r.entries[i], e.entries[i])
    ensures forall i :: 0 <= i < |e.entries| && e.entries[i].isConstant ==> r.entries[i] == e.entries[i]
    ensures forall i :: (0 <= i < |e.entries| && !e.entries[i].isConstant
              && e.entries[i].minRange <= e.entries[i].maxRange) ==> WellRanged(r.entries[i])
    ensures Valid(e) ==> Valid(r) && Names(r) == Names(e)
  {
    var r := Equation(seq(|e.entries|, i requires 0 <= i < |e.entries| => Randomize(e.entries[i], draws(i))));
    SameNamesPointwise(e, r);
    r
  }

  /** Two equations whose entries carry the same names position by position. */
  lemma SameNamesPointwise(e: Equation, r: Equation)
    requires |r.entries| == |e.entries|
    requires forall i :: 0 <= i < |e.entries| ==> r.entries[i].name == e.entries[i].name
    ensures Valid(e) ==> Valid(r)
    ensures Names(r) == Names(e)
  {
    forall n | n in Names(r) ensures n in Names(e) {
      var w :| w in r.entries && w.name == n;
      var k :| 0 <= k < |r.entries| && r.entries[k] == w;
      assert e.entries[k].name == n;
    }
    forall n | n in Names(e) ensures n in Names(r) {
      var w :| w in e.entries && w.name == n;
      var k :| 0 <= k < |e.entries| && e.entries[k] == w;
      assert r.entries[k].name == n;
    }
  }

  /** `set_variable_list` is called by one crossover revision but defined
      nowhere; its evident meaning is to add the given variables in order.
      Variables with distinct names are then stored exactly as given. */
  function FromList(vs: seq<Variable>): (r: Equation)
    ensures Valid(r)
    ensures DistinctNames(vs) ==> r.entries == vs
    decreases |vs|
  {
    if |vs| == 0 then Empty()
    else
      var init := vs[..|vs| - 1];
      var last := vs[|vs| - 1];
      var front := FromList(init);
      assert DistinctNames(vs) ==> Add(front, last).entries == vs by {
        if DistinctNames(vs) {
          DistinctSplit(vs);
          AddUnseen(front, last);
          assert front.entries + [last] == vs;
        }
      }
      Add(front, last)
  }

  /** `FromList` stores only variables it was given. */
  lemma {:induction false} FromListDrawsFrom(vs: seq<Variable>)
    ensures forall w :: w in FromList(vs).entries ==> w in vs
    decreases |vs|
  {
    if |vs| > 0 {
      var init := vs[..|vs| - 1];
      FromListDrawsFrom(init);
      AddDrawsFrom(FromList(init), vs[|vs| - 1]);
      assert forall w :: w in init ==> w in vs;
    }
  }

  /** Distinct names stay distinct without the last variable, which is
      named unlike all the others. */
  lemma DistinctSplit(vs: seq<Variable>)
    requires DistinctNames(vs) && |vs| > 0
    ensures DistinctNames(vs[..|vs| - 1])
    ensures forall k :: 0 <= k < |vs| - 1 ==> vs[k].name != vs[|vs| - 1].name
  {
  }

  /** A variable under a new name is appended. */
  lemma AddUnseen(e: Equation, v: Variable)
    requires Valid(e) && forall k :: 0 <= k < |e.entries| ==> e.entries[k].name != v.name
    ensures Add(e, v).entries == e.entries + [v]
  {
    NameNotIn(e, v.name);
  }

  lemma NameNotIn(e: Equation, name: string)
    requires forall k :: 0 <= k < |e.entries| ==> e.entries[k].name != name
    ensures !Has(e, name)
  {
    forall w | w in e.entries ensures w.name != name {
      var k :| 0 <= k < |e.entries| && e.entries[k] == w;
    }
  }
}

=== FILE: formulas.dfy ===
/** The rational part of the physical model (src/diffusiophoresis/diffusiophoresis_formulas.py).

    Python floats are modelled as exact reals.  A division by zero, which
    Python reports as ZeroDivisionError, is `Err(DomainError(..))`.  The
    transcendental pieces (log, cosh, the square roots of the arc-length sum)
    are function parameters.
 */
module Formulas {
  import opened Outcomes

  /** Boltzmann's constant in J/K, 1.380649e-23. */
  const BoltzmannConstant: real := 0.00000000000000000000001380649

  lemma BoltzmannConstantValue()
    ensures BoltzmannConstant * 100000000000000000000000000000.0 == 1380649.0
    ensures BoltzmannConstant > 0.0
  {
  }

  /** `beta_potential(cation, anion) = (cation - anion) / (cation + anion)`. */
  function BetaPotential(cation: real, anion: real): (r: Result<real>)
    ensures r.Err? <==> cation + anion == 0.0
    ensures r.Err? ==> r.error == DomainError("beta_potential")
    ensures r.Ok? ==> r.value * (cation + anion) == cation - anion
  {
    if cation + anion == 0.0 then Err(DomainError("beta_potential"))
    else Ok((cation - anion) / (cation + anion))
  }

  /** For positive concentrations the beta potential lies strictly between -1
      and 1, vanishes for equal concentrations and changes sign when the two
      are swapped. */
  lemma BetaPotentialBounds(cation: real, anion: real)
    requires cation > 0.0 && anion > 0.0
    ensures BetaPotential(cation, anion).Ok?
    ensures -1.0 < BetaPotential(cation, anion).value < 1.0
    ensures cation == anion ==> BetaPotential(cation, anion).value == 0.0
    ensures BetaPotential(anion, cation).value == -BetaPotential(cation, anion).value
  {
    var s := cation + anion;
    var b := BetaPotential(cation, anion).value;
    assert b * s == cation - anion;
    assert (1.0 - b) * s == 2.0 * anion;
    PositiveFactor(1.0 - b, s);
    assert (1.0 + b) * s == 2.0 * cation;
    PositiveFactor(1.0 + b, s);
    var b' := BetaPotential(anion, cation).value;
    assert b' * s == anion - cation;
    assert (b + b') * s == 0.0;
  }

  lemma PositiveFactor(x: real, s: real)
    requires s > 0.0 && x * s > 0.0
    ensures x > 0.0
  {
  }

  lemma BetaPotentialExample()
    ensures BetaPotential(2.0, 1.0) == Ok(1.0 / 3.0)
  {
  }

  /** `reynolds_number(density, velocity, length, viscosity) = density * velocity * length / viscosity`. */
  function ReynoldsNumber(density: real, velocity: real, length: real, viscosity: real): (r: Result<real>)
    ensures r.Err? <==> viscosity == 0.0
    ensures r.Err? ==> r.error == DomainError("reynolds_number")
    ensures r.Ok? ==> r.value * viscosity == density * velocity * length
  {
    if viscosity == 0.0 then Err(DomainError("reynolds_number"))
    else Ok((density * velocity * length) / viscosity)
  }

  lemma ReynoldsNumberExample()
    ensures ReynoldsNumber(1000.0, 1.0, 0.01, 0.001) == Ok(10000.0)
  {
  }

  /** `electrophoretic_mobility(z, e, zeta, T) = z * e * zeta / (k_B * T)`. */
  function ElectrophoreticMobility(valence: real, charge: real, zeta: real, temperature: real): (r: Result<real>)
    ensures r.Err? <==> temperature == 0.0
    ensures r.Err? ==> r.error == DomainError("electrophoretic_mobility")
    ensures r.Ok? ==> r.value * (BoltzmannConstant * temperature) == valence * charge * zeta
  {
    if BoltzmannConstant * temperature == 0.0 then Err(DomainError("electrophoretic_mobility"))
    else Ok((valence * charge * zeta) / (BoltzmannConstant * temperature))
  }

  /** `chemiphoretic_mobility(z, e, zeta, T) = 8 * log(cosh(z * e * zeta / (4 * T * k_B)))`,
      with `log . cosh` left as the parameter `logCosh`. */
  function ChemiphoreticMobility(valence: real, charge: real, zeta: real, temperature: real,
                                 logCosh: real -> real): (r: Result<real>)
    ensures r.Err? <==> temperature == 0.0
    ensures r.Err? ==> r.error == DomainError("chemiphoretic_mobility")
  {
    if 4.0 * temperature * BoltzmannConstant == 0.0 then Err(DomainError("chemiphoretic_mobility"))
    else Ok(8.0 * logCosh((valence * charge * zeta) / (4.0 * temperature * BoltzmannConstant)))
  }

  /** The argument of `log . cosh` is a quarter of the electrophoretic mobility. */
  lemma ChemiphoreticMobilityUsesQuarterMobility(valence: real, charge: real, zeta: real,
                                                 temperature: real, logCosh: real -> real)
    requires temperature != 0.0
    ensures ChemiphoreticMobility(valence, charge, zeta, temperature, logCosh)
            == Ok(8.0 * logCosh(ElectrophoreticMobility(valence, charge, zeta, temperature).value / 4.0))
  {
    var n := valence * charge * zeta;
    var d := BoltzmannConstant * temperature;
    assert 4.0 * temperature * BoltzmannConstant == 4.0 * d;
    var m := n / d;
    assert m * d == n;
    assert (m / 4.0) * (4.0 * d) == n;
    assert n / (4.0 * d) == m / 4.0;
  }

  /** `chemiphoretic_gradient(ci, cb, L) = log((ci - cb) / L)`, with numpy's
      `log` left as the parameter `ln`. */
  function ChemiphoreticGradient(ci: real, cb: real, length: real, ln: real -> real): (r: Result<real>)
    ensures r.Err? <==> length == 0.0
    ensures r.Err? ==> r.error == DomainError("chemiphoretic_gradient")
    ensures r.Ok? ==> r.value == ln((ci - cb) / length)
  {
    if length == 0.0 then Err(DomainError("chemiphoretic_gradient"))
    else Ok(ln((ci - cb) / length))
  }

  /** The gradient depends on the concentrations and the length only through
      the ratio of their difference to the length: changing all three units
      by one factor leaves it unchanged, and equal concentrations give
      `ln(0)`. */
  lemma ChemiphoreticGradientIsUnitFree(ci: real, cb: real, length: real, k: real, ln: real -> real)
    requires length != 0.0 && k != 0.0
    ensures ChemiphoreticGradient(k * ci, k * cb, k * length, ln) == ChemiphoreticGradient(ci, cb, length, ln)
    ensures ChemiphoreticGradient(ci, ci, length, ln) == Ok(ln(0.0))
  {
    assert k * length != 0.0 by { ProductNonZero(k, length); }
    assert (k * ci - k * cb) / (k * length) == (ci - cb) / length by {
      assert k * ci - k * cb == k * (ci - cb);
      CancelCommonFactor(ci - cb, length, k);
    }
  }

  lemma ProductNonZero(a: real, b: real)
    requires a != 0.0 && b != 0.0
    ensures a * b != 0.0
  {
  }

  /** A common non-zero factor cancels from a quotient. */
  lemma CancelCommonFactor(x: real, y: real, k: real)
    requires y != 0.0 && k != 0.0
    ensures (k * x) / (k * y) == x / y
  {
    ProductNonZero(k, y);
    assert (x / y) * (k * y) == k * x;
  }

  /** `diffusiophoretic_velocity(beta, mu_e, mu_c, grad) = (2 * beta * mu_e + mu_c) * grad`. */
  function DiffusiophoreticVelocity(beta: real, electroMobility: real, chemiMobility: real, gradient: real): (r: real)
    ensures gradient == 0.0 ==> r == 0.0
    ensures beta == 0.0 || electroMobility == 0.0 ==> r == chemiMobility * gradient
  {
    ((2.0 * beta * electroMobility) + chemiMobility) * gradient
  }

  /** The velocity is the gradient times the mobility `2 * beta * mu_e + mu_c`:
      it vanishes with the gradient, is additive in the gradient, and reduces to
      the chemiphoretic part when beta is zero. */
  lemma DiffusiophoreticVelocityIsLinearInGradient(beta: real, mu_e: real, mu_c: real, g1: real, g2: real)
    ensures DiffusiophoreticVelocity(beta, mu_e, mu_c, 0.0) == 0.0
    ensures DiffusiophoreticVelocity(beta, mu_e, mu_c, g1 + g2)
            == DiffusiophoreticVelocity(beta, mu_e, mu_c, g1) + DiffusiophoreticVelocity(beta, mu_e, mu_c, g2)
    ensures DiffusiophoreticVelocity(0.0, mu_e, mu_c, g1) == mu_c * g1
  {
  }

  // ---------------------------------------------------------------------
  // The trajectory behind the exclusion-zone area

  /** The inputs after `_convert_variables`. */
  datatype SiInputs = SiInputs(height: real, length: real, flowVelocity: real, phoreticVelocity: real)

  /** `_convert_variables`: micrometres to metres for the height, mm/s to m/s for
      the flow and um/s to m/s for the phoretic velocity.  The length is
      multiplied by 1 although its comment says centimetres to metres. */
  function ConvertVariables(height: real, length: real, flowVelocity: real, phoreticVelocity: real): (c: SiInputs)
    ensures c.height * 1000000.0 == height
    ensures c.length == length
    ensures c.flowVelocity * 1000.0 == flowVelocity
    ensures c.phoreticVelocity * 1000000.0 == phoreticVelocity
  {
    SiInputs(height * 0.000001, length * 1.0, flowVelocity * 0.001, phoreticVelocity * 0.000001)
  }

  /** `_calculate_particle_position(h, v, u, t, y)`: the closed-form position of
      a particle that starts at height `y`, in micrometres.  The source divides
      by `h` with numpy, which yields non-finite values for `h = 0`; the model
      leaves that case out. */
  function ParticlePosition(h: real, v: real, u: real, t: real, y: real): (p: (real, real))
    requires h != 0.0
    ensures p.1 - y * 1000000.0 == u * t * 1000000.0
  {
    NonZeroSquare(h);
    var x := (1000000.0 * 6.0 * v) * (((u * t * t) / (2.0 * h)) - (((u * u * t * t * t) / (h * h)) / 3.0)
             + ((y * t) / h) - ((u * y * t * t) / (h * h)) - ((y * y * t) / (h * h)));
    (x, (u * t + y) * 1000000.0)
  }

  /** At time 0 the particle is at the channel entrance, at its start height. */
  lemma ParticleStartsAtEntrance(h: real, v: real, u: real, y: real)
    requires h != 0.0
    ensures ParticlePosition(h, v, u, 0.0, y) == (0.0, y * 1000000.0)
  {
  }

  lemma NonZeroSquare(h: real)
    requires h != 0.0
    ensures h * h != 0.0
  {
    if h > 0.0 {
      ProductPositive(h, h);
    } else {
      ProductPositive(-h, -h);
    }
  }

  lemma ProductPositive(x: real, y: real)
    requires x > 0.0 && y > 0.0
    ensures x * y > 0.0
  {
  }

  /** Number of samples of `np.linspace(0, 200, 200)`. */
  const TimePoints: nat := 200

  /** `np.linspace(start=0, stop=200, num=200)`: 200 evenly spaced times from 0 to 200. */
  function TimeGrid(): (ts: seq<real>)
    ensures |ts| == TimePoints
    ensures ts[0] == 0.0 && ts[TimePoints - 1] == 200.0
    ensures forall k :: 0 <= k < TimePoints - 1 ==> ts[k + 1] - ts[k] == 200.0 / 199.0
  {
    seq(TimePoints, k => k as real * (200.0 / 199.0))
  }

  /** `np.linspace(start=0, stop=h, num=1)`: a single particle, starting at 0. */
  function StartHeights(h: real): (ys: seq<real>)
    ensures ys == [0.0]
  {
    [0.0]
  }

  /** `_calculate_particle_trajectory` on converted inputs: the particle's
      position over the time grid as percentages of the channel length and
      height.  A zero height or length gives numpy's non-finite values in the
      source and `DomainError` here. */
  function Trajectory(c: SiInputs): (r: Result<(seq<real>, seq<real>)>)
    ensures r.Err? <==> c.height == 0.0 || c.length == 0.0
    ensures r.Ok? ==> |r.value.0| == TimePoints && |r.value.1| == TimePoints
    ensures r.Ok? ==> r.value.0[0] == 0.0 && r.value.1[0] == 0.0
    ensures r.Ok? ==> forall k :: 0 <= k < TimePoints ==>
              r.value.1[k] * c.height == 100.0 * c.phoreticVelocity * TimeGrid()[k]
  {
    if c.height == 0.0 || c.length == 0.0 then Err(DomainError("exclusion_zone_area"))
    else
      var ts := TimeGrid();
      var y := StartHeights(c.height)[0];
      var xs := seq(TimePoints, k requires 0 <= k < TimePoints =>
        (100.0 * ParticlePosition(c.height, c.flowVelocity, c.phoreticVelocity, ts[k], y).0) / (c.length * 1000000.0));
      var ys := seq(TimePoints, k requires 0 <= k < TimePoints =>
        (100.0 * ParticlePosition(c.height, c.flowVelocity, c.phoreticVelocity, ts[k], y).1) / (c.height * 1000000.0));
      TrajectoryHeights(c, ts, ys);
      Ok((xs, ys))
  }

  /** Helper for `Trajectory`: with a start at 0 the height percentage is
      `100 * u * t / h`. */
  lemma TrajectoryHeights(c: SiInputs, ts: seq<real>, ys: seq<real>)
    requires c.height != 0.0 && |ts| == TimePoints && |ys| == TimePoints
    requires forall k :: 0 <= k < TimePoints ==>
               ys[k] == (100.0 * ParticlePosition(c.height, c.flowVelocity, c.phoreticVelocity, ts[k], 0.0).1)
                        / (c.height * 1000000.0)
    ensures forall k :: 0 <= k < TimePoints ==> ys[k] * c.height == 100.0 * c.phoreticVelocity * ts[k]
  {
    forall k | 0 <= k < TimePoints
      ensures ys[k] * c.height == 100.0 * c.phoreticVelocity * ts[k]
    {
      var p := ParticlePosition(c.height, c.flowVelocity, c.phoreticVelocity, ts[k], 0.0).1;
      assert p == c.phoreticVelocity * ts[k] * 1000000.0;
      var d := c.height * 1000000.0;
      assert ys[k] * d == 100.0 * p;
      assert ys[k] * c.height * 1000000.0 == 100.0 * c.phoreticVelocity * ts[k] * 1000000.0;
    }
  }

  /** `_integrate(x, y)`: the length of the polyline through the points, the sum
      of `sqrt(dx^2 + dy^2)` over consecutive points, with `sqrt` a parameter.
      Fewer than two points give numpy's empty sum, 0. */
  function ArcLength(xs: seq<real>, ys: seq<real>, sqrt: real -> real): (a: real)
    requires |xs| == |ys|
    ensures |xs| < 2 ==> a == 0.0
    ensures (forall z :: sqrt(z) >= 0.0) ==> a >= 0.0
    decreases |xs|
  {
    if |xs| < 2 then 0.0
    else
      var dx := xs[1] - xs[0];
      var dy := ys[1] - ys[0];
      sqrt(dx * dx + dy * dy) + ArcLength(xs[1..], ys[1..], sqrt)
  }

  /** `exclusion_zone_area(h, l, v, u)`: convert, trace the trajectory and
      measure its arc length. */
  function ExclusionZoneArea(height: real, length: real, flowVelocity: real, phoreticVelocity: real,
                             sqrt: real -> real): (r: Result<real>)
    ensures r.Err? <==> height == 0.0 || length == 0.0
    ensures r.Err? ==> r.error == DomainError("exclusion_zone_area")
    ensures r.Ok? && (forall z :: sqrt(z) >= 0.0) ==> r.value >= 0.0
  {
    var c := ConvertVariables(height, length, flowVelocity, phoreticVelocity);
    var path :- Trajectory(c);
    Ok(ArcLength(path.0, path.1, sqrt))
  }
}

=== FILE: gated_strategies.dfy ===
/** The gated strategy classes: src/ga/strategy_manager/crossover_strategy.py
    (uniform crossover and single-gene swap) and src/ga/mutation_strategy.py
    (randomization and a fixed step of at most 0.001).  Each strategy takes
    the rate and applies its own gate, except the step mutation, which takes
    no rate and is never gated.
 */
module GatedStrategies {
  import opened Outcomes
  import opened Draws
  import opened Equations
  import opened Operators
  import opened Strategies

  /** The gate draw, then one coin per position or one pick per parent. */
  datatype CrossoverDraws = CrossoverDraws(gate: real, coins: nat -> real, pick1: real, pick2: real)

  ghost predicate CrossoverDrawsWellFormed(d: CrossoverDraws) {
    IsUnit(d.gate) && IsUnit(d.pick1) && IsUnit(d.pick2)
  }

  /** `crossover(crossover_rate, parent1, parent2)` of either class. */
  function Crossover(kind: CrossoverKind, rate: real, p1: Equation, p2: Equation, d: CrossoverDraws): (r: Result<(Equation, Equation)>)
    requires Valid(p1) && Valid(p2) && CrossoverDrawsWellFormed(d)
    ensures Skips(d.gate, rate) ==> r == Ok((p1, p2))
    ensures !Skips(d.gate, rate) && kind == Uniform ==> r == UniformCrossover(p1, p2, d.coins)
    ensures !Skips(d.gate, rate) && kind == SinglePoint ==> r == SwapOneGene(p1, p2, d.pick1, d.pick2)
  {
    if Skips(d.gate, rate) then Ok((p1, p2))
    else match kind
      case Uniform => UniformCrossover(p1, p2, d.coins)
      case SinglePoint => SwapOneGene(p1, p2, d.pick1, d.pick2)
  }

  /** Either class keeps the parents' genes and, for aligned parents, each
      child's name set is its parent's. */
  lemma CrossoverKeepsNames(kind: CrossoverKind, rate: real, p1: Equation, p2: Equation, d: CrossoverDraws)
    requires Valid(p1) && Valid(p2) && CrossoverDrawsWellFormed(d)
    requires Crossover(kind, rate, p1, p2, d).Ok?
    ensures var c := Crossover(kind, rate, p1, p2, d).value;
            Inherits(c.0, p1, p2) && Inherits(c.1, p1, p2)
    ensures var c := Crossover(kind, rate, p1, p2, d).value;
            Aligned(p1, p2) ==> Names(c.0) == Names(p1) && Names(c.1) == Names(p2)
  {
    if !Skips(d.gate, rate) {
      match kind
      case Uniform =>
        UniformCrossoverInherits(p1, p2, d.coins);
        if Aligned(p1, p2) {
          UniformCrossoverSharesGenes(p1, p2, d.coins);
          SameNamesPointwise(p1, p2);
        }
      case SinglePoint =>
        SwapOneGeneInherits(p1, p2, d.pick1, d.pick2);
        if Aligned(p1, p2) {
          SwapKeepsNamesWhenAligned(p1, p2, d.pick1, d.pick2);
        }
    }
  }

  /** The gate draw (used by the randomization only), then one draw per
      variable, or the pick and the step. */
  datatype MutationDraws = MutationDraws(gate: real, stream: nat -> real, pick: real, step: real)

  ghost predicate MutationDrawsWellFormed(d: MutationDraws) {
    IsUnit(d.gate) && IsUnitStream(d.stream) && IsUnit(d.pick) && IsUnit(d.step)
  }

  /** `RandomizeMutation.mutate(mutation_rate, child)`, gated, returning the
      randomized equation as its callers expect (`MutateAsWritten` keeps the
      None it returns); `StepMutation.mutate(child)`, ungated, with the
      fixed step width.  The rate is ignored by the step: see
      `AdaptiveManager.MutateAsWritten` for the call that passes it. */
  function Mutate(kind: MutationKind, rate: real, child: Equation, d: MutationDraws): (r: Result<Equation>)
    requires Valid(child) && MutationDrawsWellFormed(d)
    ensures kind == Randomize && Skips(d.gate, rate) ==> r == Ok(child)
    ensures kind == Randomize && !Skips(d.gate, rate) ==> r == Ok(RandomizeEquation(child, d.stream))
    ensures kind == Step ==> r == StepMutation(child, Fixed(FixedStep), d.pick, d.step)
    ensures r.Ok? ==> Valid(r.value) && Names(r.value) == Names(child)
  {
    match kind
    case Randomize => if Skips(d.gate, rate) then Ok(child) else Ok(RandomizeEquation(child, d.stream))
    case Step => StepMutation(child, Fixed(FixedStep), d.pick, d.step)
  }

  /** The fixed step moves one non-constant variable by at most 0.001 (when
      it started in range) and keeps it in range; whatever the rate, the
      result does not depend on it. */
  lemma StepIsSmallAndUngated(rate1: real, rate2: real, child: Equation, d: MutationDraws)
    requires Valid(child) && MutationDrawsWellFormed(d)
    ensures Mutate(Step, rate1, child, d) == Mutate(Step, rate2, child, d)
    ensures Mutate(Step, rate1, child, d).Ok? ==>
              exists v :: v in child.entries && !v.isConstant
                && StepsOnly(Mutate(Step, rate1, child, d).value, child, v, 0.001)
    ensures Mutate(Step, rate1, child, d).Ok? ==> KeepsConstants(Mutate(Step, rate1, child, d).value, child)
  {
    if Mutate(Step, rate1, child, d).Ok? {
      StepMutationKeepsInvariants(child, Fixed(FixedStep), d.pick, d.step);
    }
  }

  /** As written a randomization that passes its gate returns what
      `randomize_equation` returns, which is None; the step returns the
      child. */
  function MutateAsWritten(kind: MutationKind, rate: real, child: Equation, d: MutationDraws): (r: Result<Option<Equation>>)
    requires Valid(child) && MutationDrawsWellFormed(d)
    ensures kind == Randomize && Skips(d.gate, rate) ==> r == Ok(Some(child))
    ensures kind == Randomize && !Skips(d.gate, rate) ==> r == Ok(None)
    ensures kind == Step ==> (r.Ok? <==> Mutate(kind, rate, child, d).Ok?)
    ensures kind == Step && r.Ok? ==> r.value == Some(Mutate(kind, rate, child, d).value)
  {
    match kind
    case Randomize => if Skips(d.gate, rate) then Ok(Some(child)) else Ok(None)
    case Step =>
      var c :- StepMutation(child, Fixed(FixedStep), d.pick, d.step);
      Ok(Some(c))
  }

  /** A randomization through the gate loses the child as written, while the
      corrected one returns an equation with the child's names and
      constants. */
  lemma RandomizeAsWrittenLosesChild(rate: real, child: Equation, d: MutationDraws)
    requires Valid(child) && MutationDrawsWellFormed(d) && !Skips(d.gate, rate)
    ensures MutateAsWritten(Randomize, rate, child, d) == Ok(None)
    ensures Mutate(Randomize, rate, child, d).Ok? && Names(Mutate(Randomize, rate, child, d).value) == Names(child)
    ensures KeepsConstants(Mutate(Randomize, rate, child, d).value, child)
  {
    RandomizeKeepsInvariants(child, d.stream);
  }
}

=== FILE: operators.dfy ===
/** The genetic operators on equations that the three operator revisions share
    (src/ga/crossover.py, src/ga/mutation.py, src/GA/crossover_strategy.py,
    src/GA/mutation_strategy.py, src/ga/strategy_manager/crossover_strategy.py,
    src/ga/mutation_strategy.py).

    The Python operators mutate their arguments in place; here each returns the
    new equations.  Draws are explicit: one unit draw per `random.choice`,
    `random.uniform` or `np.random.rand()` call, and a stream of draws for a
    loop that makes one call per position.
 */
module Operators {
  import opened Outcomes
  import opened Draws
  import opened Variables
  import opened Equations

  /** The probability gate every revision puts in front of an operator:
      `np.random.rand() > rate` skips the operator. */
  predicate Skips(u: real, rate: real) {
    u > rate
  }

  /** Two parents carry the same names in the same order. */
  predicate Aligned(p1: Equation, p2: Equation) {
    |p1.entries| == |p2.entries|
    && forall i :: 0 <= i < |p1.entries| ==> p1.entries[i].name == p2.entries[i].name
  }

  /** At every position the two children hold the two parents' variables, one
      each. */
  predicate SharesGenes(c1: seq<Variable>, c2: seq<Variable>, p1: seq<Variable>, p2: seq<Variable>) {
    |c1| == |c2| == |p1| == |p2|
    && forall i :: 0 <= i < |p1| ==>
         (c1[i] == p1[i] && c2[i] == p2[i]) || (c1[i] == p2[i] && c2[i] == p1[i])
  }

  // ---------------------------------------------------------------------
  // Uniform crossover

  /** The variables the uniform loop adds to each child, in order: position `i`
      keeps the parents' order when `draws(i) < 0.5` and swaps them otherwise. */
  function UniformPicks(a: seq<Variable>, b: seq<Variable>, draws: nat -> real): (r: (seq<Variable>, seq<Variable>))
    requires |a| <= |b|
    ensures |r.0| == |r.1| == |a|
    ensures forall i :: 0 <= i < |a| && draws(i) < 0.5 ==> r.0[i] == a[i] && r.1[i] == b[i]
    ensures forall i :: 0 <= i < |a| && draws(i) >= 0.5 ==> r.0[i] == b[i] && r.1[i] == a[i]
  {
    (seq(|a|, i requires 0 <= i < |a| => if draws(i) < 0.5 then a[i] else b[i]),
     seq(|a|, i requires 0 <= i < |a| => if draws(i) < 0.5 then b[i] else a[i]))
  }

  /** `uniform_crossover(parent1, parent2)`: two fresh equations filled by the
      per-position loop over the first parent's variables.  A second parent
      with fewer variables is an IndexError. */
  function UniformCrossover(p1: Equation, p2: Equation, draws: nat -> real): (r: Result<(Equation, Equation)>)
    ensures r.Err? <==> |p2.entries| < |p1.entries|
    ensures r.Err? ==> r.error == IndexOutOfRange
    ensures r.Ok? ==> Valid(r.value.0) && Valid(r.value.1)
  {
    if |p2.entries| < |p1.entries| then Err(IndexOutOfRange)
    else
      var picks := UniformPicks(p1.entries, p2.entries, draws);
      Ok((FromList(picks.0), FromList(picks.1)))
  }

  /** For aligned parents, uniform crossover keeps every name in place and
      hands each position's two variables to the two children, one each. */
  lemma UniformCrossoverSharesGenes(p1: Equation, p2: Equation, draws: nat -> real)
    requires Valid(p1) && Aligned(p1, p2)
    ensures UniformCrossover(p1, p2, draws).Ok?
    ensures var c := UniformCrossover(p1, p2, draws).value;
            SharesGenes(c.0.entries, c.1.entries, p1.entries, p2.entries)
            && Names(c.0) == Names(p1) && Names(c.1) == Names(p1)
  {
    var picks := UniformPicks(p1.entries, p2.entries, draws);
    PicksAreStored(p1, p2, draws);
    assert UniformCrossover(p1, p2, draws) == Ok((FromList(picks.0), FromList(picks.1)));
  }

  /** For aligned parents both pick lists carry the first parent's names
      position by position, so `FromList` stores them unchanged. */
  lemma PicksAreStored(p1: Equation, p2: Equation, draws: nat -> real)
    requires Valid(p1) && Aligned(p1, p2)
    ensures var picks := UniformPicks(p1.entries, p2.entries, draws);
            FromList(picks.0).entries == picks.0 && FromList(picks.1).entries == picks.1
            && Names(FromList(picks.0)) == Names(p1) && Names(FromList(picks.1)) == Names(p1)
            && SharesGenes(picks.0, picks.1, p1.entries, p2.entries)
  {
    var picks := UniformPicks(p1.entries, p2.entries, draws);
    forall i | 0 <= i < |picks.0|
      ensures picks.0[i].name == p1.entries[i].name && picks.1[i].name == p1.entries[i].name
      ensures (picks.0[i] == p1.entries[i] && picks.1[i] == p2.entries[i])
              || (picks.0[i] == p2.entries[i] && picks.1[i] == p1.entries[i])
    {
      assert p2.entries[i].name == p1.entries[i].name;
    }
    PositionalNames(p1, picks.0, p2.entries);
    PositionalNames(p1, picks.1, p2.entries);
  }

  /** A sequence that carries `e`'s names position by position is stored
      unchanged by `FromList` and has `e`'s names. */
  lemma PositionalNames(e: Equation, s: seq<Variable>, other: seq<Variable>)
    requires Valid(e) && |s| == |e.entries|
    requires forall i :: 0 <= i < |s| ==> s[i].name == e.entries[i].name
    ensures FromList(s).entries == s
    ensures Names(FromList(s)) == Names(e)
  {
    SameNamesPointwise(e, Equation(s));
  }

  // ---------------------------------------------------------------------
  // Single-gene swap

  /** `random.choice(get_variable_list(filter_constants=True))`: one
      non-constant variable, or an IndexError when there is none. */
  function PickNonConstant(e: Equation, u: real): (r: Result<Variable>)
    requires IsUnit(u)
    ensures r.Err? <==> |NonConstants(e.entries)| == 0
    ensures r.Err? ==> r.error == IndexOutOfRange
    ensures r.Ok? ==> r.value in e.entries && !r.value.isConstant
  {
    var candidates := NonConstants(e.entries);
    if |candidates| == 0 then Err(IndexOutOfRange)
    else Ok(candidates[ChoiceIndex(u, |candidates|)])
  }

  /** The single-gene swap: each parent receives one non-constant variable
      drawn from the other, stored under that variable's name.  The first
      parent's pick happens first, so its failure is the one reported. */
  function SwapOneGene(p1: Equation, p2: Equation, u1: real, u2: real): (r: Result<(Equation, Equation)>)
    requires Valid(p1) && Valid(p2) && IsUnit(u1) && IsUnit(u2)
    ensures r.Err? <==> |NonConstants(p1.entries)| == 0 || |NonConstants(p2.entries)| == 0
    ensures r.Ok? ==> Valid(r.value.0) && Valid(r.value.1)
    ensures r.Ok? ==> OneGeneFrom(r.value.0, p1, p2) && OneGeneFrom(r.value.1, p2, p1)
  {
    var v1 :- PickNonConstant(p1, u1);
    var v2 :- PickNonConstant(p2, u2);
    AddLookup(p1, v2);
    AddLookup(p2, v1);
    Ok((Add(p1, v2), Add(p2, v1)))
  }

  /** `c` is `p` with one non-constant variable of `donor` stored under its
      name, and nothing else changed. */
  ghost predicate OneGeneFrom(c: Equation, p: Equation, donor: Equation) {
    exists v :: v in donor.entries && !v.isConstant
      && Get(c, v.name) == Ok(v)
      && (forall n :: n != v.name ==> Get(c, n) == Get(p, n))
      && Names(c) == Names(p) + {v.name}
  }

  /** For aligned parents the swap keeps both name sets, and each child is its
      parent with at most one variable replaced. */
  lemma SwapKeepsNamesWhenAligned(p1: Equation, p2: Equation, u1: real, u2: real)
    requires Valid(p1) && Valid(p2) && IsUnit(u1) && IsUnit(u2) && Aligned(p1, p2)
    requires SwapOneGene(p1, p2, u1, u2).Ok?
    ensures Names(SwapOneGene(p1, p2, u1, u2).value.0) == Names(p1)
    ensures Names(SwapOneGene(p1, p2, u1, u2).value.1) == Names(p2)
  {
    SameNamesPointwise(p1, p2);
    var v1 := PickNonConstant(p1, u1).value;
    var v2 := PickNonConstant(p2, u2).value;
    StoreUnderKnownName(p1, v2);
    StoreUnderKnownName(p2, v1);
  }

  /** Storing a variable under a name the equation already has keeps its names. */
  lemma StoreUnderKnownName(e: Equation, v: Variable)
    requires Valid(e)
    requires v.name in Names(e)
    ensures Names(Add(e, v)) == Names(e)
  {
    AddLookup(e, v);
  }

  // ---------------------------------------------------------------------
  // Shared variable objects

  /** The names under which both children of the swap hold one and the same
      variable object.  Each pick stays in its own parent and is stored in
      the other as well, so picks of different names are held by both
      children; picks of one name replace each other and nothing is shared. */
  function SwapShared(p1: Equation, p2: Equation, u1: real, u2: real): (names: seq<string>)
    requires Valid(p1) && Valid(p2) && IsUnit(u1) && IsUnit(u2)
    ensures |names| == 0 || |names| == 2
    ensures |names| == 2 ==> SwapOneGene(p1, p2, u1, u2).Ok? && names[0] != names[1]
  {
    match (PickNonConstant(p1, u1), PickNonConstant(p2, u2))
    case (Ok(v1), Ok(v2)) => if v1.name != v2.name then [v1.name, v2.name] else []
    case _ => []
  }

  /** Both swap children hold the same variable under every shared name. */
  lemma SwapSharesPicks(p1: Equation, p2: Equation, u1: real, u2: real)
    requires Valid(p1) && Valid(p2) && IsUnit(u1) && IsUnit(u2)
    requires SwapOneGene(p1, p2, u1, u2).Ok?
    ensures var c := SwapOneGene(p1, p2, u1, u2).value;
            forall n :: n in SwapShared(p1, p2, u1, u2) ==> Has(c.0, n) && Get(c.0, n) == Get(c.1, n)
  {
    SwapStoresPicks(p1, p2, u1, u2);
    StoredPicksAgree(p1, p2, PickNonConstant(p1, u1).value, PickNonConstant(p2, u2).value);
  }

  /** Storing each parent's pick in the other leaves both results holding
      the same variable under both names, when the names differ. */
  lemma StoredPicksAgree(p1: Equation, p2: Equation, v1: Variable, v2: Variable)
    requires Valid(p1) && Valid(p2) && v1 in p1.entries && v2 in p2.entries
    ensures forall n :: n in (if v1.name != v2.name then [v1.name, v2.name] else []) ==>
              Has(Add(p1, v2), n) && Get(Add(p1, v2), n) == Get(Add(p2, v1), n)
  {
    if v1.name != v2.name {
      PickedIsHeld(p1, p2, v1, v2);
      PickedIsHeld(p2, p1, v2, v1);
    }
  }

  /** The swap's children are the parents with the other parent's pick
      stored, and the shared names are the two picks' names when they
      differ. */
  lemma SwapStoresPicks(p1: Equation, p2: Equation, u1: real, u2: real)
    requires Valid(p1) && Valid(p2) && IsUnit(u1) && IsUnit(u2)
    requires SwapOneGene(p1, p2, u1, u2).Ok?
    ensures PickNonConstant(p1, u1).Ok? && PickNonConstant(p2, u2).Ok?
    ensures var v1 := PickNonConstant(p1, u1).value;
            var v2 := PickNonConstant(p2, u2).value;
            SwapOneGene(p1, p2, u1, u2).value == (Add(p1, v2), Add(p2, v1))
            && SwapShared(p1, p2, u1, u2) == (if v1.name != v2.name then [v1.name, v2.name] else [])
  {
  }

  /** After the swap, the first parent's own pick is still held by its child
      and is now held by the other child too. */
  lemma PickedIsHeld(p1: Equation, p2: Equation, v1: Variable, v2: Variable)
    requires Valid(p1) && Valid(p2) && v1 in p1.entries && v1.name != v2.name
    ensures Get(Add(p1, v2), v1.name) == Ok(v1) && Get(Add(p2, v1), v1.name) == Ok(v1)
  {
    AddLookup(p1, v2);
    AddLookup(p2, v1);
    GetFindsEntry(p1, v1);
  }

  /** What `to` holds once the variable objects it shares with `from` under
      `names` have been changed through `from`: those entries read as
      `from`'s, in place, and every other entry is unchanged. */
  function SyncShared(to: Equation, from: Equation, names: seq<string>): (r: Equation)
    requires Valid(to)
    ensures Valid(r) && Names(r) == Names(to) && |r.entries| == |to.entries|
    ensures forall n :: n !in names ==> Get(r, n) == Get(to, n)
    ensures forall n :: n in names && Has(to, n) && Has(from, n) ==> Get(r, n) == Get(from, n)
    ensures forall n :: n in names && !(Has(to, n) && Has(from, n)) ==> Get(r, n) == Get(to, n)
    ensures InRange(to) && InRange(from) ==> InRange(r)
    decreases |names|
  {
    if |names| == 0 then to
    else
      var n := names[0];
      var next := if Has(to, n) && Has(from, n) then Add(to, Get(from, n).value) else to;
      assert Names(next) == Names(to) && |next.entries| == |to.entries|
             && (forall m :: m != n ==> Get(next, m) == Get(to, m))
             && (Has(to, n) && Has(from, n) ==> Get(next, n) == Get(from, n))
             && (InRange(to) && InRange(from) ==> InRange(next)) by {
        if Has(to, n) && Has(from, n) {
          AddLookup(to, Get(from, n).value);
          AddDrawsFrom(to, Get(from, n).value);
        }
      }
      assert forall m :: m in names && m != n ==> m in names[1..];
      SyncShared(next, from, names[1..])
  }

  // ---------------------------------------------------------------------
  // Slice crossover

  /** `random.randint(1, n - 1)` for `n >= 2`. */
  function CrossoverPoint(u: real, n: nat): (k: nat)
    requires IsUnit(u) && n >= 2
    ensures 1 <= k <= n - 1
  {
    1 + ChoiceIndex(u, n - 1)
  }

  /** Python's slice `s[k:]`, empty when `k` is past the end. */
  function Tail<T>(s: seq<T>, k: nat): (t: seq<T>)
    ensures k <= |s| ==> t == s[k..]
    ensures k > |s| ==> t == []
  {
    if k <= |s| then s[k..] else []
  }

  /** Python's slice `s[:k]`, the whole sequence when `k` is past the end. */
  function Head<T>(s: seq<T>, k: nat): (h: seq<T>)
    ensures k <= |s| ==> h == s[..k]
    ensures k > |s| ==> h == s
  {
    if k <= |s| then s[..k] else s
  }

  /** The slice crossover of src/GA/crossover_strategy.py: a point `k` in
      [1, n - 1] for `n` the first parent's length, then
      `parent1[:k] + parent2[k:]` and `parent2[:k] + parent1[k:]` stored with
      the intended `set_variable_list`.  Fewer than two variables makes
      `randint` fail with a ValueError. */
  function SliceCrossover(p1: Equation, p2: Equation, u: real): (r: Result<(Equation, Equation)>)
    requires IsUnit(u)
    ensures r.Err? <==> |p1.entries| < 2
    ensures r.Err? ==> r.error == EmptyRange
    ensures r.Ok? ==> Valid(r.value.0) && Valid(r.value.1)
  {
    var n := |p1.entries|;
    if n < 2 then Err(EmptyRange)
    else
      var k := CrossoverPoint(u, n);
      Ok((FromList(p1.entries[..k] + Tail(p2.entries, k)), FromList(Head(p2.entries, k) + p1.entries[k..])))
  }

  /** For aligned parents the children are exactly the two exchanged slices:
      each child mixes both parents, its first variable comes from one parent
      and its last from the other, and every position holds the parents'
      variables one each. */
  lemma SliceCrossoverExchangesTails(p1: Equation, p2: Equation, u: real)
    requires Valid(p1) && Aligned(p1, p2) && |p1.entries| >= 2 && IsUnit(u)
    ensures var n := |p1.entries|;
            var k := CrossoverPoint(u, n);
            var c := SliceCrossover(p1, p2, u).value;
            c.0.entries == p1.entries[..k] + p2.entries[k..]
            && c.1.entries == p2.entries[..k] + p1.entries[k..]
            && c.0.entries[0] == p1.entries[0] && c.0.entries[n - 1] == p2.entries[n - 1]
            && c.1.entries[0] == p2.entries[0] && c.1.entries[n - 1] == p1.entries[n - 1]
            && SharesGenes(c.0.entries, c.1.entries, p1.entries, p2.entries)
            && Names(c.0) == Names(p1) && Names(c.1) == Names(p1)
  {
    var n := |p1.entries|;
    var k := CrossoverPoint(u, n);
    var g1 := p1.entries[..k] + p2.entries[k..];
    var g2 := p2.entries[..k] + p1.entries[k..];
    SpliceAt(p1.entries, p2.entries, k);
    assert SliceCrossover(p1, p2, u).value == (FromList(g1), FromList(g2));
    PositionalNames(p1, g1, p2.entries);
    PositionalNames(p1, g2, p2.entries);
  }

  /** For parents of equal length the two children together hold exactly the
      parents' variables: `child1 + child2` rearranges `parent1 + parent2`. */
  lemma SliceCrossoverRearranges(p1: Equation, p2: Equation, u: real)
    requires Valid(p1) && Aligned(p1, p2) && |p1.entries| >= 2 && IsUnit(u)
    ensures var c := SliceCrossover(p1, p2, u).value;
            multiset(c.0.entries + c.1.entries) == multiset(p1.entries + p2.entries)
  {
    SliceCrossoverExchangesTails(p1, p2, u);
    SpliceMultiset(p1.entries, p2.entries, CrossoverPoint(u, |p1.entries|));
  }

  lemma SpliceMultiset<T>(a: seq<T>, b: seq<T>, k: nat)
    requires k <= |a| && k <= |b|
    ensures multiset((a[..k] + b[k..]) + (b[..k] + a[k..])) == multiset(a + b)
  {
    assert a == a[..k] + a[k..];
    assert b == b[..k] + b[k..];
    assert multiset(a + b) == multiset(a[..k]) + multiset(a[k..]) + multiset(b[..k]) + multiset(b[k..]);
  }

  /** The two splices of aligned sequences at `k`, position by position. */
  lemma SpliceAt(a: seq<Variable>, b: seq<Variable>, k: nat)
    requires |a| == |b| && 1 <= k < |a|
    requires forall i :: 0 <= i < |a| ==> a[i].name == b[i].name
    ensures var g1 := a[..k] + b[k..];
            var g2 := b[..k] + a[k..];
            |g1| == |g2| == |a|
            && (forall i :: 0 <= i < |a| ==> g1[i] == (if i < k then a[i] else b[i]))
            && (forall i :: 0 <= i < |a| ==> g2[i] == (if i < k then b[i] else a[i]))
            && (forall i :: 0 <= i < |a| ==> g1[i].name == a[i].name && g2[i].name == a[i].name)
            && SharesGenes(g1, g2, a, b)
  {
  }

  /** The slice crossover as written calls `set_variable_list`, which
      `Equation` does not define: every call that gets past `randint` raises
      an AttributeError. */
  function SliceCrossoverAsWritten(p1: Equation, p2: Equation, u: real): (r: Result<(Equation, Equation)>)
    requires IsUnit(u)
    ensures r.Err?
    ensures |p1.entries| >= 2 ==> r.error == MissingAttribute("set_variable_list")
  {
    if |p1.entries| < 2 then Err(EmptyRange)
    else Err(MissingAttribute("set_variable_list"))
  }

  /** Wherever the corrected slice crossover produces children, the one as
      written fails. */
  lemma SliceCrossoverAsWrittenFails(p1: Equation, p2: Equation, u: real)
    requires IsUnit(u)
    ensures SliceCrossover(p1, p2, u).Ok? ==>
              SliceCrossoverAsWritten(p1, p2, u) == Err(MissingAttribute("set_variable_list"))
  {
  }

  // ---------------------------------------------------------------------
  // Step mutation

  /** The two step widths in the source: a tenth of the variable's range
      (src/ga/mutation.py, src/GA/mutation_strategy.py) or a fixed width
      (0.001 in src/ga/mutation_strategy.py). */
  datatype StepRule = TenthOfRange | Fixed(width: real)

  const FixedStep: real := 0.001

  function StepWidth(rule: StepRule, v: Variable): real {
    match rule
    case TenthOfRange => 0.1 * (v.maxRange - v.minRange)
    case Fixed(w) => w
  }

  /** `v` with its value moved by the step `delta` and clipped into its range. */
  function Nudge(v: Variable, delta: real): (w: Variable)
    ensures SameExceptValue(w, v)
    ensures v.minRange <= v.maxRange ==> WellRanged(w)
    ensures WellRanged(v) && delta >= 0.0 ==> v.value <= w.value <= v.value + delta
    ensures WellRanged(v) && delta <= 0.0 ==> v.value + delta <= w.value <= v.value
  {
    var x := Clip(v.value + delta, v.minRange, v.maxRange);
    assert WellRanged(v) ==> (delta >= 0.0 ==> v.value <= x <= v.value + delta)
                             && (delta <= 0.0 ==> v.value + delta <= x <= v.value) by {
      if WellRanged(v) {
        ClipIsNonExpanding(v.value + delta, v.value, v.minRange, v.maxRange);
      }
    }
    v.(value := x)
  }

  /** The step mutation: pick a non-constant variable with `pick`, draw a step
      uniformly in `[-width, width]` with `step`, move the value by it, clip it
      into the range and store the variable back under its name.  An equation
      without non-constant variables is an IndexError. */
  function StepMutation(child: Equation, rule: StepRule, pick: real, step: real): (r: Result<Equation>)
    requires Valid(child) && IsUnit(pick) && IsUnit(step)
    ensures r.Err? <==> |NonConstants(child.entries)| == 0
    ensures r.Err? ==> r.error == IndexOutOfRange
    ensures r.Ok? ==> Valid(r.value) && Names(r.value) == Names(child) && |r.value.entries| == |child.entries|
    ensures r.Ok? ==> exists v :: v in child.entries && !v.isConstant && StepsOnly(r.value, child, v, StepWidth(rule, v))
  {
    var v :- PickNonConstant(child, pick);
    var width := StepWidth(rule, v);
    var delta := UniformBetween(-width, width, step);
    StoreNudged(child, v, delta, width);
    Ok(Add(child, Nudge(v, delta)))
  }

  /** Storing a nudged copy of one of `child`'s variables back under its name
      changes that variable's value and nothing else. */
  lemma StoreNudged(child: Equation, v: Variable, delta: real, width: real)
    requires Valid(child) && v in child.entries
    requires width >= 0.0 ==> -width <= delta <= width
    ensures var r := Add(child, Nudge(v, delta));
            Valid(r) && Names(r) == Names(child) && |r.entries| == |child.entries|
            && StepsOnly(r, child, v, width)
  {
    GetFindsEntry(child, v);
    var w := Nudge(v, delta);
    var r := Add(child, w);
    AddLookup(child, w);
    assert Get(r, v.name) == Ok(w);
    assert v.name in Names(child);
  }

  /** `r` is `child` with only `v`'s value changed, by at most `width` when
      it started in range, and into range when the range is not empty. */
  ghost predicate StepsOnly(r: Equation, child: Equation, v: Variable, width: real) {
    && (forall n :: n != v.name ==> Get(r, n) == Get(child, n))
    && Get(r, v.name).Ok?
    && SameExceptValue(Get(r, v.name).value, v)
    && (v.minRange <= v.maxRange ==> WellRanged(Get(r, v.name).value))
    && (WellRanged(v) && width >= 0.0 ==> -width <= Get(r, v.name).value.value - v.value <= width)
  }

  // ---------------------------------------------------------------------
  // Invariants every operator keeps

  /** Every variable of `c` is one of the parents' variables. */
  ghost predicate Inherits(c: Equation, p1: Equation, p2: Equation) {
    forall w :: w in c.entries ==> w in p1.entries || w in p2.entries
  }

  /** Every variable of `e` lies in its own range. */
  ghost predicate InRange(e: Equation) {
    forall w :: w in e.entries ==> WellRanged(w)
  }

  /** Every constant of `e` is still there, unchanged, in `r`. */
  ghost predicate KeepsConstants(r: Equation, e: Equation) {
    forall n :: Get(e, n).Ok? && Get(e, n).value.isConstant ==> Get(r, n) == Get(e, n)
  }

  /** Uniform crossover invents no variable: both children are made of the
      parents' variables. */
  lemma UniformCrossoverInherits(p1: Equation, p2: Equation, draws: nat -> real)
    requires UniformCrossover(p1, p2, draws).Ok?
    ensures var c := UniformCrossover(p1, p2, draws).value;
            Inherits(c.0, p1, p2) && Inherits(c.1, p1, p2)
  {
    var picks := UniformPicks(p1.entries, p2.entries, draws);
    FromListDrawsFrom(picks.0);
    FromListDrawsFrom(picks.1);
    forall w | w in picks.0 || w in picks.1 ensures w in p1.entries || w in p2.entries {
      var i :| 0 <= i < |p1.entries| && (picks.0[i] == w || picks.1[i] == w);
      assert p1.entries[i] in p1.entries && p2.entries[i] in p2.entries;
    }
  }

  /** The single-gene swap invents no variable either. */
  lemma SwapOneGeneInherits(p1: Equation, p2: Equation, u1: real, u2: real)
    requires Valid(p1) && Valid(p2) && IsUnit(u1) && IsUnit(u2)
    requires SwapOneGene(p1, p2, u1, u2).Ok?
    ensures var c := SwapOneGene(p1, p2, u1, u2).value;
            Inherits(c.0, p1, p2) && Inherits(c.1, p1, p2)
  {
    var v1 := PickNonConstant(p1, u1).value;
    var v2 := PickNonConstant(p2, u2).value;
    AddDrawsFrom(p1, v2);
    AddDrawsFrom(p2, v1);
  }

  /** Nor does the slice crossover. */
  lemma SliceCrossoverInherits(p1: Equation, p2: Equation, u: real)
    requires IsUnit(u) && SliceCrossover(p1, p2, u).Ok?
    ensures var c := SliceCrossover(p1, p2, u).value;
            Inherits(c.0, p1, p2) && Inherits(c.1, p1, p2)
  {
    var k := CrossoverPoint(u, |p1.entries|);
    var g1 := p1.entries[..k] + Tail(p2.entries, k);
    var g2 := Head(p2.entries, k) + p1.entries[k..];
    FromListDrawsFrom(g1);
    FromListDrawsFrom(g2);
    forall w | w in g1 || w in g2 ensures w in p1.entries || w in p2.entries {
      if w in p1.entries[..k] || w in p1.entries[k..] {
        assert p1.entries == p1.entries[..k] + p1.entries[k..];
      } else if w in Tail(p2.entries, k) {
        assert p2.entries == Head(p2.entries, k) + Tail(p2.entries, k);
      } else {
        assert w in Head(p2.entries, k);
        assert p2.entries == Head(p2.entries, k) + Tail(p2.entries, k);
      }
    }
  }

  /** The step mutation changes one non-constant variable, so it keeps every
      constant, and it clips into the range, so an equation in range stays
      in range. */
  lemma StepMutationKeepsInvariants(child: Equation, rule: StepRule, pick: real, step: real)
    requires Valid(child) && IsUnit(pick) && IsUnit(step)
    requires StepMutation(child, rule, pick, step).Ok?
    ensures KeepsConstants(StepMutation(child, rule, pick, step).value, child)
    ensures InRange(child) ==> InRange(StepMutation(child, rule, pick, step).value)
  {
    var r := StepMutation(child, rule, pick, step).value;
    var v :| v in child.entries && !v.isConstant && StepsOnly(r, child, v, StepWidth(rule, v));
    StepKeepsConstants(r, child, v, StepWidth(rule, v));
    if InRange(child) {
      StepKeepsRange(r, child, v, StepWidth(rule, v));
    }
  }

  /** A step of a non-constant variable leaves every constant's lookup
      alone. */
  lemma StepKeepsConstants(r: Equation, child: Equation, v: Variable, width: real)
    requires Valid(child) && v in child.entries && !v.isConstant && StepsOnly(r, child, v, width)
    ensures KeepsConstants(r, child)
  {
    GetFindsEntry(child, v);
    forall n | Get(child, n).Ok? && Get(child, n).value.isConstant
      ensures Get(r, n) == Get(child, n)
    {
      assert n != v.name;
    }
  }

  /** A step inside an equation in range stays in range: the stepped
      variable is clipped, the others are the child's. */
  lemma StepKeepsRange(r: Equation, child: Equation, v: Variable, width: real)
    requires Valid(child) && Valid(r) && v in child.entries && InRange(child) && StepsOnly(r, child, v, width)
    ensures InRange(r)
  {
    assert WellRanged(v);
    forall x | x in r.entries ensures WellRanged(x) {
      GetFindsEntry(r, x);
      if x.name != v.name {
        assert Get(child, x.name) == Ok(x);
      }
    }
  }

  /** Randomizing keeps every constant, and puts every variable of an
      equation in range back in range. */
  lemma RandomizeKeepsInvariants(e: Equation, draws: nat -> real)
    requires Valid(e) && IsUnitStream(draws)
    ensures KeepsConstants(RandomizeEquation(e, draws), e)
    ensures InRange(e) ==> InRange(RandomizeEquation(e, draws))
  {
    var r := RandomizeEquation(e, draws);
    forall n | Get(e, n).Ok? && Get(e, n).value.isConstant ensures Get(r, n) == Get(e, n) {
      var w := Get(e, n).value;
      var i :| 0 <= i < |e.entries| && e.entries[i] == w;
      assert r.entries[i] == w;
      GetFindsEntry(r, w);
    }
    if InRange(e) {
      forall w | w in r.entries ensures WellRanged(w) {
        var i :| 0 <= i < |r.entries| && r.entries[i] == w;
        assert e.entries[i] in e.entries;
      }
    }
  }
}

=== FILE: outcomes.dfy ===
/** Failure-compatible result types shared by every module of the model.

    Each constructor of `Error` stands for one exception the Python code can
    raise (or, for `DrawsExhausted`, for a retry loop the source never leaves).
 */
module Outcomes {

  datatype Error =
    /** KeyError: a name absent from an Equation, or a key absent from a record */
    | NotFound(name: string)
    /** ValueError from Variable.set_value in safe mode on a constant */
    | ConstantViolation(name: string)
    /** ZeroDivisionError (or numpy's non-finite result) inside a formula */
    | DomainError(quantity: string)
    /** IndexError: random.choice on an empty list, or a list index past its end */
    | IndexOutOfRange
    /** ValueError from random.sample / random.randint on a range that is too small */
    | EmptyRange
    /** NotImplementedError from a strategy dispatch */
    | Unsupported(tag: string)
    /** TypeError: a keyword argument the callee does not accept */
    | UnexpectedKeyword(keyword: string)
    /** AttributeError: an attribute the object does not have */
    | MissingAttribute(attribute: string)
    /** TypeError: more positional arguments than the callee takes */
    | WrongArity(callee: string)
    /** UnboundLocalError: a local read before any assignment */
    | Unbound(local: string)
    /** a record field holding a value of the wrong kind */
    | WrongKind(field: string)
    /** roulette found no ladder entry at or above the draw (the source returns None) */
    | NoIndividual
    /** the supplied draws ran out while the source would still be retrying */
    | DrawsExhausted

  datatype Option<+T> = None | Some(value: T)

  datatype Result<+T> = Ok(value: T) | Err(error: Error) {

    predicate IsFailure() {
      Err?
    }

    function PropagateFailure<U>(): Result<U>
      requires Err?
    {
      Err(error)
    }

    function Extract(): T
      requires Ok?
    {
      value
    }
  }
}

=== FILE: picking_manager.dfy ===
/** The strategy manager of src/GA/strategy_manager.py: it draws a fresh
    strategy on every call, gates mutation and crossover itself, and adapts
    the mutation rate by fitness improvement and by a diversity score.

    The manager's state is its two rates and the strategies it last picked
    (None until the first pick); each operation returns the new state.
 */
module PickingManager {
  import opened Outcomes
  import opened Draws
  import opened Equations
  import opened Operators
  import opened Selection
  import opened Strategies
  import Rates
  import PlainStrategies

  datatype Manager = Manager(
    mutationRate: real,
    crossoverRate: real,
    mutation: Option<MutationKind>,
    crossover: Option<CrossoverKind>,
    selection: Option<SelectionKind>)

  /** `StrategyManager(mutation_rate, crossover_rate)`: no strategy picked yet. */
  function New(mutationRate: real, crossoverRate: real): (m: Manager)
    ensures m.mutationRate == mutationRate && m.crossoverRate == crossoverRate
    ensures m.mutation.None? && m.crossover.None? && m.selection.None?
  {
    Manager(mutationRate, crossoverRate, None, None, None)
  }

  /** The pick draw, the gate draw, then the strategy's own draws. */
  datatype MutateDraws = MutateDraws(pick: real, gate: real, body: PlainStrategies.MutationDraws)

  ghost predicate MutateDrawsWellFormed(d: MutateDraws) {
    IsUnit(d.pick) && IsUnit(d.gate) && PlainStrategies.MutationDrawsWellFormed(d.body)
  }

  /** `mutate(child)`: pick a strategy (remembered even when the gate then
      skips), return the child untouched when the gate draw exceeds the
      mutation rate, and otherwise run the strategy. */
  function Mutate(m: Manager, child: Equation, d: MutateDraws): (r: (Manager, Result<Equation>))
    requires Valid(child) && MutateDrawsWellFormed(d)
    ensures r.0 == m.(mutation := Some(PickMutation(d.pick)))
    ensures Skips(d.gate, m.mutationRate) ==> r.1 == Ok(child)
    ensures !Skips(d.gate, m.mutationRate) ==> r.1 == PlainStrategies.Mutate(PickMutation(d.pick), child, d.body)
  {
    var kind := PickMutation(d.pick);
    var m' := m.(mutation := Some(kind));
    if Skips(d.gate, m.mutationRate) then (m', Ok(child))
    else (m', PlainStrategies.Mutate(kind, child, d.body))
  }

  /** A mutation through this manager changes neither rate, keeps the
      constants and keeps an equation in range. */
  lemma MutateKeepsInvariants(m: Manager, child: Equation, d: MutateDraws)
    requires Valid(child) && MutateDrawsWellFormed(d)
    ensures Mutate(m, child, d).0.mutationRate == m.mutationRate
    ensures Mutate(m, child, d).0.crossoverRate == m.crossoverRate
    ensures Mutate(m, child, d).1.Ok? ==> KeepsConstants(Mutate(m, child, d).1.value, child)
    ensures Mutate(m, child, d).1.Ok? && InRange(child) ==> InRange(Mutate(m, child, d).1.value)
  {
    var r := Mutate(m, child, d).1;
    if r.Ok? && !Skips(d.gate, m.mutationRate) {
      PlainStrategies.MutateKeepsInvariants(PickMutation(d.pick), child, d.body);
    }
  }

  /** `mutate(child)` as written: the randomizing strategy returns None, so a
      randomization that gets through the gate loses the child. */
  function MutateAsWritten(m: Manager, child: Equation, d: MutateDraws): (r: (Manager, Result<Option<Equation>>))
    requires Valid(child) && MutateDrawsWellFormed(d)
    ensures r.0 == Mutate(m, child, d).0
    ensures Skips(d.gate, m.mutationRate) ==> r.1 == Ok(Some(child))
    ensures !Skips(d.gate, m.mutationRate) ==> r.1 == PlainStrategies.MutateAsWritten(PickMutation(d.pick), child, d.body)
  {
    var kind := PickMutation(d.pick);
    var m' := m.(mutation := Some(kind));
    if Skips(d.gate, m.mutationRate) then (m', Ok(Some(child)))
    else (m', PlainStrategies.MutateAsWritten(kind, child, d.body))
  }

  /** When the gate lets a randomization through, the manager as written
      hands back None, while the corrected manager returns an equation with
      the child's names and constants. */
  lemma RandomizeAsWrittenLosesChild(m: Manager, child: Equation, d: MutateDraws)
    requires Valid(child) && MutateDrawsWellFormed(d)
    requires !Skips(d.gate, m.mutationRate) && ChoiceIndex(d.pick, 4) == 0
    ensures MutateAsWritten(m, child, d).1 == Ok(None)
    ensures Mutate(m, child, d).1.Ok? && Names(Mutate(m, child, d).1.value) == Names(child)
    ensures KeepsConstants(Mutate(m, child, d).1.value, child)
  {
    PlainStrategies.RandomizeAsWrittenLosesChild(child, d.body);
  }

  datatype CrossoverDraws = CrossoverDraws(pick: real, gate: real, body: PlainStrategies.CrossoverDraws)

  ghost predicate CrossoverDrawsWellFormed(d: CrossoverDraws) {
    IsUnit(d.pick) && IsUnit(d.gate) && IsUnit(d.body.point)
  }

  /** `crossover(parent1, parent2)`: pick a strategy, return the parents
      untouched when the gate draw exceeds the crossover rate, and otherwise
      run the strategy. */
  function Crossover(m: Manager, p1: Equation, p2: Equation, d: CrossoverDraws): (r: (Manager, Result<(Equation, Equation)>))
    requires CrossoverDrawsWellFormed(d)
    ensures r.0 == m.(crossover := Some(PickCrossover(d.pick)))
    ensures Skips(d.gate, m.crossoverRate) ==> r.1 == Ok((p1, p2))
    ensures !Skips(d.gate, m.crossoverRate) ==> r.1 == PlainStrategies.Crossover(PickCrossover(d.pick), p1, p2, d.body)
  {
    var kind := PickCrossover(d.pick);
    var m' := m.(crossover := Some(kind));
    if Skips(d.gate, m.crossoverRate) then (m', Ok((p1, p2)))
    else (m', PlainStrategies.Crossover(kind, p1, p2, d.body))
  }

  /** On name-aligned parents with at least two variables a crossover through
      this manager never fails, and the children carry the parents' names and
      together hold exactly the parents' variables. */
  lemma CrossoverRearranges(m: Manager, p1: Equation, p2: Equation, d: CrossoverDraws)
    requires CrossoverDrawsWellFormed(d) && Valid(p1) && Aligned(p1, p2) && |p1.entries| >= 2
    ensures Crossover(m, p1, p2, d).1.Ok?
    ensures var c := Crossover(m, p1, p2, d).1.value;
            Names(c.0) == Names(p1) && Names(c.1) == Names(p2)
            && multiset(c.0.entries + c.1.entries) == multiset(p1.entries + p2.entries)
  {
    SameNamesPointwise(p1, p2);
    if !Skips(d.gate, m.crossoverRate) {
      PlainStrategies.CrossoverRearranges(PickCrossover(d.pick), p1, p2, d.body);
    }
  }

  /** `select_parents(population, fitness_scores)`: pick a selection strategy
      and run it. */
  function SelectParents<T(==)>(m: Manager, population: seq<T>, fitness: seq<real>, d: (real, SelectionDraws)): (r: (Manager, Result<(T, T)>))
    requires |fitness| == |population| && IsUnit(d.0) && DrawsWellFormed(d.1)
    ensures r.0 == m.(selection := Some(PickSelection(d.0)))
    ensures r.1 == Select(PickSelection(d.0), population, fitness, d.1)
  {
    var kind := PickSelection(d.0);
    (m.(selection := Some(kind)), Select(kind, population, fitness, d.1))
  }

  /** `update_mutation_rate_by_fitness(best, previous)`: `if previous:` skips
      both None and a previous best of exactly zero; otherwise the rate is
      raised by 1.2 below a 10 percent improvement and lowered by 0.8 from
      it on. */
  function UpdateByFitness(m: Manager, best: real, previous: Option<real>): (r: Manager)
    ensures r == m.(mutationRate := r.mutationRate)
    ensures previous.None? || previous == Some(0.0) ==> r == m
    ensures previous.Some? && previous.value != 0.0 ==>
              var gain := Rates.Improvement(best, previous.value).value;
              r.mutationRate == (if gain < 10.0 then Rates.Raise(m.mutationRate, 1.2) else Rates.Lower(m.mutationRate, 0.8))
  {
    match previous
    case None => m
    case Some(p) =>
      if p == 0.0 then m
      else
        var gain := Rates.Improvement(best, p).value;
        m.(mutationRate := if gain < 10.0 then Rates.Raise(m.mutationRate, 1.2) else Rates.Lower(m.mutationRate, 0.8))
  }

  /** The manager's fitness rule is the engine's wherever the engine's is
      defined; where the engine divides by a previous best of zero, the
      manager leaves the rate alone. */
  lemma FitnessRuleMatchesEngine(m: Manager, best: real, previous: Option<real>)
    ensures Rates.UpdateByFitness(m.mutationRate, best, previous).Ok? ==>
              UpdateByFitness(m, best, previous).mutationRate == Rates.UpdateByFitness(m.mutationRate, best, previous).value
    ensures Rates.UpdateByFitness(m.mutationRate, best, previous).Err? <==> previous == Some(0.0)
    ensures previous == Some(0.0) ==> UpdateByFitness(m, best, previous) == m
  {
  }

  /** `update_mutation_rate_by_diversity(score, population_size)`: below 0.5
      the rate is raised by 1.1, otherwise lowered by 0.9. */
  function UpdateByDiversity(m: Manager, score: real, populationSize: int): (r: Manager)
    ensures r == m.(mutationRate := r.mutationRate)
    ensures score < 0.5 ==> r.mutationRate == Rates.Raise(m.mutationRate, 1.1)
    ensures score >= 0.5 ==> r.mutationRate == Rates.Lower(m.mutationRate, 0.9)
  {
    m.(mutationRate := if score < 0.5 then Rates.Raise(m.mutationRate, 1.1) else Rates.Lower(m.mutationRate, 0.9))
  }

  /** The population size argument plays no part in the diversity rule. */
  lemma DiversityIgnoresSize(m: Manager, score: real, size1: int, size2: int)
    ensures UpdateByDiversity(m, score, size1) == UpdateByDiversity(m, score, size2)
  {
  }

  /** A rate in [0.01, 0.5] stays there through both updates; a raising
      branch never lowers it and a lowering branch never raises it. */
  lemma UpdatesKeepBand(m: Manager, best: real, previous: Option<real>, score: real, size: int)
    requires Rates.InBand(m.mutationRate)
    ensures Rates.InBand(UpdateByFitness(m, best, previous).mutationRate)
    ensures Rates.InBand(UpdateByDiversity(m, score, size).mutationRate)
    ensures score < 0.5 ==> UpdateByDiversity(m, score, size).mutationRate >= m.mutationRate
    ensures score >= 0.5 ==> UpdateByDiversity(m, score, size).mutationRate <= m.mutationRate
    ensures previous.Some? && previous.value != 0.0 ==>
              (Rates.Improvement(best, previous.value).value < 10.0 ==> UpdateByFitness(m, best, previous).mutationRate >= m.mutationRate)
              && (Rates.Improvement(best, previous.value).value >= 10.0 ==> UpdateByFitness(m, best, previous).mutationRate <= m.mutationRate)
  {
    Rates.AdjustmentsKeepBand(m.mutationRate, 1.2, 0.8);
    Rates.AdjustmentsKeepBand(m.mutationRate, 1.1, 0.9);
  }
}

=== FILE: plain_strategies.dfy ===
/** The ungated strategy classes (src/GA/crossover_strategy.py and
    src/GA/mutation_strategy.py): the manager that holds them does the
    gating, so each strategy always runs.

    The slice crossover is modelled with the evident meaning of
    `set_variable_list` (the corrected `Operators.SliceCrossover`); as
    written it fails, see `Operators.SliceCrossoverAsWritten`.
 */
module PlainStrategies {
  import opened Outcomes
  import opened Draws
  import opened Equations
  import opened Operators
  import opened Strategies

  /** The draws a crossover consumes: one coin per position for the uniform
      loop, or the `randint` draw for the slice point. */
  datatype CrossoverDraws = CrossoverDraws(coins: nat -> real, point: real)

  /** `UniformCrossover.crossover` / `SinglePointCrossover.crossover`. */
  function Crossover(kind: CrossoverKind, p1: Equation, p2: Equation, d: CrossoverDraws): (r: Result<(Equation, Equation)>)
    requires IsUnit(d.point)
    ensures kind == Uniform ==> r == UniformCrossover(p1, p2, d.coins)
    ensures kind == SinglePoint ==> r == SliceCrossover(p1, p2, d.point)
    ensures r.Ok? ==> Valid(r.value.0) && Valid(r.value.1)
  {
    match kind
    case Uniform => UniformCrossover(p1, p2, d.coins)
    case SinglePoint => SliceCrossover(p1, p2, d.point)
  }

  /** Either strategy, on name-aligned parents: it fails only when the slice
      point cannot be drawn, both children carry the parents' names, and
      together they hold exactly the parents' variables. */
  lemma CrossoverRearranges(kind: CrossoverKind, p1: Equation, p2: Equation, d: CrossoverDraws)
    requires IsUnit(d.point) && Valid(p1) && Aligned(p1, p2)
    ensures Crossover(kind, p1, p2, d).Err? <==> kind == SinglePoint && |p1.entries| < 2
    ensures Crossover(kind, p1, p2, d).Ok? ==>
              var c := Crossover(kind, p1, p2, d).value;
              Names(c.0) == Names(p1) && Names(c.1) == Names(p1)
              && multiset(c.0.entries + c.1.entries) == multiset(p1.entries + p2.entries)
  {
    match kind
    case Uniform => UniformRearranges(p1, p2, d.coins);
    case SinglePoint =>
      if |p1.entries| >= 2 {
        SliceRearranges(p1, p2, d.point);
      }
  }

  lemma UniformRearranges(p1: Equation, p2: Equation, coins: nat -> real)
    requires Valid(p1) && Aligned(p1, p2)
    ensures UniformCrossover(p1, p2, coins).Ok?
    ensures var c := UniformCrossover(p1, p2, coins).value;
            Names(c.0) == Names(p1) && Names(c.1) == Names(p1)
            && multiset(c.0.entries + c.1.entries) == multiset(p1.entries + p2.entries)
  {
    UniformCrossoverSharesGenes(p1, p2, coins);
    var c := UniformCrossover(p1, p2, coins).value;
    SharedGenesRearrange(c.0.entries, c.1.entries, p1.entries, p2.entries);
    assert multiset(c.0.entries + c.1.entries) == multiset(c.0.entries) + multiset(c.1.entries);
    assert multiset(p1.entries + p2.entries) == multiset(p1.entries) + multiset(p2.entries);
  }

  lemma SliceRearranges(p1: Equation, p2: Equation, u: real)
    requires Valid(p1) && Aligned(p1, p2) && |p1.entries| >= 2 && IsUnit(u)
    ensures SliceCrossover(p1, p2, u).Ok?
    ensures var c := SliceCrossover(p1, p2, u).value;
            Names(c.0) == Names(p1) && Names(c.1) == Names(p1)
            && multiset(c.0.entries + c.1.entries) == multiset(p1.entries + p2.entries)
  {
    SliceCrossoverRearranges(p1, p2, u);
    SliceCrossoverExchangesTails(p1, p2, u);
  }

  /** Handing each position's two genes to the two children, one each, keeps
      the combined multiset. */
  lemma {:induction false} SharedGenesRearrange<T>(c1: seq<T>, c2: seq<T>, p1: seq<T>, p2: seq<T>)
    requires |c1| == |c2| == |p1| == |p2|
    requires forall i :: 0 <= i < |p1| ==> (c1[i] == p1[i] && c2[i] == p2[i]) || (c1[i] == p2[i] && c2[i] == p1[i])
    ensures multiset(c1) + multiset(c2) == multiset(p1) + multiset(p2)
    decreases |p1|
  {
    if |p1| > 0 {
      var n := |p1| - 1;
      assert forall i :: 0 <= i < n ==> c1[..n][i] == c1[i] && c2[..n][i] == c2[i]
                                         && p1[..n][i] == p1[i] && p2[..n][i] == p2[i];
      SharedGenesRearrange(c1[..n], c2[..n], p1[..n], p2[..n]);
      LastSplit(c1);
      LastSplit(c2);
      LastSplit(p1);
      LastSplit(p2);
      var tails := multiset{c1[n]} + multiset{c2[n]};
      if c1[n] == p1[n] && c2[n] == p2[n] {
        assert tails == multiset{p1[n]} + multiset{p2[n]};
      } else {
        assert c1[n] == p2[n] && c2[n] == p1[n];
        assert tails == multiset{p1[n]} + multiset{p2[n]};
      }
      assert multiset(c1) + multiset(c2) == (multiset(c1[..n]) + multiset(c2[..n])) + tails;
      assert multiset(p1) + multiset(p2) == (multiset(p1[..n]) + multiset(p2[..n])) + tails;
    }
  }

  lemma LastSplit<T>(s: seq<T>)
    requires |s| > 0
    ensures multiset(s) == multiset(s[..|s| - 1]) + multiset{s[|s| - 1]}
  {
    assert s == s[..|s| - 1] + [s[|s| - 1]];
  }

  /** The draws a mutation consumes: one draw per variable for the
      randomization, or the pick and the step. */
  datatype MutationDraws = MutationDraws(stream: nat -> real, pick: real, step: real)

  ghost predicate MutationDrawsWellFormed(d: MutationDraws) {
    IsUnitStream(d.stream) && IsUnit(d.pick) && IsUnit(d.step)
  }

  /** `RandomizeMutation.mutate` returning the randomized equation, as its
      callers expect, and `StepMutation.mutate` with a step of up to a tenth
      of the range. */
  function Mutate(kind: MutationKind, child: Equation, d: MutationDraws): (r: Result<Equation>)
    requires Valid(child) && MutationDrawsWellFormed(d)
    ensures kind == Randomize ==> r == Ok(RandomizeEquation(child, d.stream))
    ensures kind == Step ==> r == StepMutation(child, TenthOfRange, d.pick, d.step)
    ensures r.Ok? ==> Valid(r.value) && Names(r.value) == Names(child)
  {
    match kind
    case Randomize => Ok(RandomizeEquation(child, d.stream))
    case Step => StepMutation(child, TenthOfRange, d.pick, d.step)
  }

  /** Either strategy keeps the constants and keeps an equation in range; a
      step moves one variable by at most a tenth of its range. */
  lemma MutateKeepsInvariants(kind: MutationKind, child: Equation, d: MutationDraws)
    requires Valid(child) && MutationDrawsWellFormed(d)
    requires Mutate(kind, child, d).Ok?
    ensures KeepsConstants(Mutate(kind, child, d).value, child)
    ensures InRange(child) ==> InRange(Mutate(kind, child, d).value)
    ensures kind == Step ==>
              exists v :: v in child.entries && !v.isConstant
                && StepsOnly(Mutate(kind, child, d).value, child, v, 0.1 * (v.maxRange - v.minRange))
  {
    match kind
    case Randomize => RandomizeKeepsInvariants(child, d.stream);
    case Step => StepMutationKeepsInvariants(child, TenthOfRange, d.pick, d.step);
  }

  /** As written `RandomizeMutation.mutate` returns what `randomize_equation`
      returns, which is None: the child is randomized in place and the caller
      receives nothing.  The step returns the child. */
  function MutateAsWritten(kind: MutationKind, child: Equation, d: MutationDraws): (r: Result<Option<Equation>>)
    requires Valid(child) && MutationDrawsWellFormed(d)
    ensures kind == Randomize ==> r == Ok(None)
    ensures kind == Step ==> (r.Ok? <==> Mutate(kind, child, d).Ok?)
    ensures kind == Step && r.Ok? ==> r.value == Some(Mutate(kind, child, d).value)
  {
    match kind
    case Randomize => Ok(None)
    case Step =>
      var c :- StepMutation(child, TenthOfRange, d.pick, d.step);
      Ok(Some(c))
  }

  /** The randomizing strategy loses the child as written, while the
      corrected one returns an equation with the child's names and
      constants. */
  lemma RandomizeAsWrittenLosesChild(child: Equation, d: MutationDraws)
    requires Valid(child) && MutationDrawsWellFormed(d)
    ensures MutateAsWritten(Randomize, child, d) == Ok(None)
    ensures Mutate(Randomize, child, d).Ok? && Names(Mutate(Randomize, child, d).value) == Names(child)
    ensures KeepsConstants(Mutate(Randomize, child, d).value, child)
  {
    RandomizeKeepsInvariants(child, d.stream);
  }
}

=== FILE: quantities.dfy ===
/** The derived-quantity getters of `Equation` (src/diffusiophoresis/equation.py:39-121).

    Each getter first looks for a variable named after its quantity and, when
    there is one, returns that value without reading anything else; otherwise
    it reads its inputs by name, in the source's order, and applies the
    formula.  Lookups go through the corrected `GetValue`.
 */
module Quantities {
  import opened Outcomes
  import opened Equations
  import Formulas

  /** The transcendental functions the formulas need, left uninterpreted. */
  datatype Transcendentals = Transcendentals(logCosh: real -> real, ln: real -> real, sqrt: real -> real)

  const BetaKey: string := "beta_potential"
  const ElectroKey: string := "electrophoretic_mobility"
  const ChemiKey: string := "chemiphoretic_mobility"
  const GradientKey: string := "chemiphoretic_gradient"
  const VelocityKey: string := "diffusiophoretic_velocity"
  const AreaKey: string := "channel_area"
  const LengthKey: string := "characteristic_length"
  const ExclusionKey: string := "exclusion_zone_area"
  /** The key the exclusion-zone getter reads after testing for `ExclusionKey`. */
  const MisspelledExclusionKey: string := "exlcusion_zone_area"

  /** The mean flow velocity the exclusion-zone getter passes; the source
      hard-codes it with a note that the real value is still to be fetched. */
  const MeanVelocity: real := 1.0

  /** The Reynolds number below which the flow counts as laminar. */
  const LaminarLimit: real := 500.0

  /** `get_beta_potential`. */
  function BetaPotential(e: Equation): (r: Result<real>)
    ensures Has(e, BetaKey) ==> r == GetValue(e, BetaKey)
    ensures !Has(e, BetaKey) && !Has(e, "cation") ==> r == Err(NotFound("cation"))
    ensures !Has(e, BetaKey) && Has(e, "cation") && !Has(e, "anion") ==> r == Err(NotFound("anion"))
    ensures !Has(e, BetaKey) && Has(e, "cation") && Has(e, "anion") ==>
              r == Formulas.BetaPotential(GetValue(e, "cation").value, GetValue(e, "anion").value)
  {
    if Has(e, BetaKey) then GetValue(e, BetaKey)
    else
      var cation :- GetValue(e, "cation");
      var anion :- GetValue(e, "anion");
      Formulas.BetaPotential(cation, anion)
  }

  /** Reads of the four inputs shared by both mobility getters, in order. */
  function MobilityInputs(e: Equation): (r: Result<(real, real, real, real)>)
    ensures r.Ok? <==> Has(e, "valence_charge") && Has(e, "elementary_charge")
                       && Has(e, "zeta_potential") && Has(e, "absolute_temperature")
    ensures r.Ok? ==> r.value == (GetValue(e, "valence_charge").value, GetValue(e, "elementary_charge").value,
                                  GetValue(e, "zeta_potential").value, GetValue(e, "absolute_temperature").value)
    ensures !Has(e, "valence_charge") ==> r == Err(NotFound("valence_charge"))
    ensures Has(e, "valence_charge") && !Has(e, "elementary_charge") ==> r == Err(NotFound("elementary_charge"))
    ensures (Has(e, "valence_charge") && Has(e, "elementary_charge") && !Has(e, "zeta_potential")) ==>
              r == Err(NotFound("zeta_potential"))
    ensures (Has(e, "valence_charge") && Has(e, "elementary_charge") && Has(e, "zeta_potential")
             && !Has(e, "absolute_temperature")) ==>
              r == Err(NotFound("absolute_temperature"))
  {
    var z :- GetValue(e, "valence_charge");
    var q :- GetValue(e, "elementary_charge");
    var zeta :- GetValue(e, "zeta_potential");
    var t :- GetValue(e, "absolute_temperature");
    Ok((z, q, zeta, t))
  }

  /** `get_electrophoretic_mobility`. */
  function ElectrophoreticMobility(e: Equation): (r: Result<real>)
    ensures Has(e, ElectroKey) ==> r == GetValue(e, ElectroKey)
    ensures !Has(e, ElectroKey) && MobilityInputs(e).Err? ==> r == Err(MobilityInputs(e).error)
    ensures !Has(e, ElectroKey) && MobilityInputs(e).Ok? ==>
              var i := MobilityInputs(e).value;
              r == Formulas.ElectrophoreticMobility(i.0, i.1, i.2, i.3)
  {
    if Has(e, ElectroKey) then GetValue(e, ElectroKey)
    else
      var i :- MobilityInputs(e);
      Formulas.ElectrophoreticMobility(i.0, i.1, i.2, i.3)
  }

  /** `get_chemiphoretic_mobility`. */
  function ChemiphoreticMobility(e: Equation, fns: Transcendentals): (r: Result<real>)
    ensures Has(e, ChemiKey) ==> r == GetValue(e, ChemiKey)
    ensures !Has(e, ChemiKey) && MobilityInputs(e).Err? ==> r == Err(MobilityInputs(e).error)
    ensures !Has(e, ChemiKey) && MobilityInputs(e).Ok? ==>
              var i := MobilityInputs(e).value;
              r == Formulas.ChemiphoreticMobility(i.0, i.1, i.2, i.3, fns.logCosh)
  {
    if Has(e, ChemiKey) then GetValue(e, ChemiKey)
    else
      var i :- MobilityInputs(e);
      Formulas.ChemiphoreticMobility(i.0, i.1, i.2, i.3, fns.logCosh)
  }

  /** `get_chemiphoretic_gradient`; it reads the channel length under the key
      `length`, not `channel_length`. */
  function ChemiphoreticGradient(e: Equation, fns: Transcendentals): (r: Result<real>)
    ensures Has(e, GradientKey) ==> r == GetValue(e, GradientKey)
    ensures !Has(e, GradientKey) && Has(e, "ci") && Has(e, "cb") && Has(e, "length") ==>
              r == Formulas.ChemiphoreticGradient(GetValue(e, "ci").value, GetValue(e, "cb").value,
                                                  GetValue(e, "length").value, fns.ln)
    ensures !Has(e, GradientKey) && !Has(e, "ci") ==> r == Err(NotFound("ci"))
    ensures !Has(e, GradientKey) && Has(e, "ci") && !Has(e, "cb") ==> r == Err(NotFound("cb"))
    ensures !Has(e, GradientKey) && Has(e, "ci") && Has(e, "cb") && !Has(e, "length") ==>
              r == Err(NotFound("length"))
  {
    if Has(e, GradientKey) then GetValue(e, GradientKey)
    else
      var ci :- GetValue(e, "ci");
      var cb :- GetValue(e, "cb");
      var length :- GetValue(e, "length");
      Formulas.ChemiphoreticGradient(ci, cb, length, fns.ln)
  }

  /** `get_diffusiophoretic_velocity`: each of its four inputs goes through its
      own getter, so each may itself be an override. */
  function DiffusiophoreticVelocity(e: Equation, fns: Transcendentals): (r: Result<real>)
    ensures Has(e, VelocityKey) ==> r == GetValue(e, VelocityKey)
    ensures !Has(e, VelocityKey) ==>
              (r.Ok? <==> BetaPotential(e).Ok? && ElectrophoreticMobility(e).Ok?
                          && ChemiphoreticMobility(e, fns).Ok? && ChemiphoreticGradient(e, fns).Ok?)
    ensures !Has(e, VelocityKey) && r.Ok? ==>
              r.value == Formulas.DiffusiophoreticVelocity(BetaPotential(e).value, ElectrophoreticMobility(e).value,
                                                           ChemiphoreticMobility(e, fns).value,
                                                           ChemiphoreticGradient(e, fns).value)
    ensures !Has(e, VelocityKey) && BetaPotential(e).Err? ==> r == Err(BetaPotential(e).error)
    ensures !Has(e, VelocityKey) && BetaPotential(e).Ok? && ElectrophoreticMobility(e).Err? ==>
              r == Err(ElectrophoreticMobility(e).error)
    ensures (!Has(e, VelocityKey) && BetaPotential(e).Ok? && ElectrophoreticMobility(e).Ok?
             && ChemiphoreticMobility(e, fns).Err?) ==>
              r == Err(ChemiphoreticMobility(e, fns).error)
    ensures (!Has(e, VelocityKey) && BetaPotential(e).Ok? && ElectrophoreticMobility(e).Ok?
             && ChemiphoreticMobility(e, fns).Ok? && ChemiphoreticGradient(e, fns).Err?) ==>
              r == Err(ChemiphoreticGradient(e, fns).error)
  {
    if Has(e, VelocityKey) then GetValue(e, VelocityKey)
    else
      var beta :- BetaPotential(e);
      var mu_e :- ElectrophoreticMobility(e);
      var mu_c :- ChemiphoreticMobility(e, fns);
      var gradient :- ChemiphoreticGradient(e, fns);
      Ok(Formulas.DiffusiophoreticVelocity(beta, mu_e, mu_c, gradient))
  }

  // ---------------------------------------------------------------------
  // Channel geometry: the getters call formulas the library does not define

  /** `channel_area(h, w) = h * w`, the formula the getter evidently means. */
  function AreaFormula(h: real, w: real): (a: real)
    ensures h >= 0.0 && w >= 0.0 ==> a >= 0.0
    ensures h == 0.0 || w == 0.0 ==> a == 0.0
  {
    h * w
  }

  /** `characteristic_length(h, w) = 4 * h * w / (2 * (h + w))`, the hydraulic
      diameter of a rectangular channel; undefined when `h + w = 0`. */
  function LengthFormula(h: real, w: real): (r: Result<real>)
    ensures r.Err? <==> h + w == 0.0
    ensures r.Err? ==> r.error == DomainError(LengthKey)
    ensures r.Ok? ==> r.value * (2.0 * (h + w)) == 4.0 * h * w
  {
    if 2.0 * (h + w) == 0.0 then Err(DomainError(LengthKey))
    else Ok((4.0 * h * w) / (2.0 * (h + w)))
  }

  /** The hydraulic diameter of a square channel is its side. */
  lemma SquareChannelLength(h: real)
    requires h > 0.0
    ensures LengthFormula(h, h) == Ok(h)
  {
    var r := LengthFormula(h, h).value;
    assert r * (4.0 * h) == 4.0 * h * h;
    assert (r - h) * (4.0 * h) == 0.0;
  }

  /** `get_channel_area` as written: without an override it reads its two
      inputs and then calls `channel_area`, which the formula library does not
      define, so it raises an AttributeError. */
  function ChannelAreaAsWritten(e: Equation): (r: Result<real>)
    ensures Has(e, AreaKey) ==> r == GetValue(e, AreaKey)
    ensures !Has(e, AreaKey) ==> r.Err?
    ensures !Has(e, AreaKey) && Has(e, "channel_height") && Has(e, "channel_length") ==>
              r == Err(MissingAttribute(AreaKey))
  {
    if Has(e, AreaKey) then GetValue(e, AreaKey)
    else
      var _ :- GetValue(e, "channel_height");
      var _ :- GetValue(e, "channel_length");
      Err(MissingAttribute(AreaKey))
  }

  /** `get_channel_area` with the missing formula supplied. */
  function ChannelArea(e: Equation): (r: Result<real>)
    ensures Has(e, AreaKey) ==> r == GetValue(e, AreaKey)
    ensures !Has(e, AreaKey) ==> (r.Ok? <==> Has(e, "channel_height") && Has(e, "channel_length"))
    ensures !Has(e, AreaKey) && r.Ok? ==>
              r.value == AreaFormula(GetValue(e, "channel_height").value, GetValue(e, "channel_length").value)
  {
    if Has(e, AreaKey) then GetValue(e, AreaKey)
    else
      var h :- GetValue(e, "channel_height");
      var w :- GetValue(e, "channel_length");
      Ok(AreaFormula(h, w))
  }

  /** `get_characteristic_length` as written: the same missing-attribute failure. */
  function CharacteristicLengthAsWritten(e: Equation): (r: Result<real>)
    ensures Has(e, LengthKey) ==> r == GetValue(e, LengthKey)
    ensures !Has(e, LengthKey) ==> r.Err?
    ensures !Has(e, LengthKey) && Has(e, "channel_height") && Has(e, "channel_length") ==>
              r == Err(MissingAttribute(LengthKey))
  {
    if Has(e, LengthKey) then GetValue(e, LengthKey)
    else
      var _ :- GetValue(e, "channel_height");
      var _ :- GetValue(e, "channel_length");
      Err(MissingAttribute(LengthKey))
  }

  /** `get_characteristic_length` with the missing formula supplied. */
  function CharacteristicLength(e: Equation): (r: Result<real>)
    ensures Has(e, LengthKey) ==> r == GetValue(e, LengthKey)
    ensures !Has(e, LengthKey) && Has(e, "channel_height") && Has(e, "channel_length") ==>
              r == LengthFormula(GetValue(e, "channel_height").value, GetValue(e, "channel_length").value)
    ensures !Has(e, LengthKey) && !(Has(e, "channel_height") && Has(e, "channel_length")) ==> r.Err?
  {
    if Has(e, LengthKey) then GetValue(e, LengthKey)
    else
      var h :- GetValue(e, "channel_height");
      var w :- GetValue(e, "channel_length");
      LengthFormula(h, w)
  }

  /** Without an override, the geometry getters as written fail exactly where
      the corrected ones read both inputs. */
  lemma GeometryAsWrittenAlwaysFails(e: Equation)
    requires !Has(e, AreaKey) && !Has(e, LengthKey)
    requires Has(e, "channel_height") && Has(e, "channel_length")
    ensures ChannelArea(e).Ok? && ChannelAreaAsWritten(e) == Err(MissingAttribute(AreaKey))
    ensures CharacteristicLengthAsWritten(e) == Err(MissingAttribute(LengthKey))
  {
  }

  /** `is_laminar`: the Reynolds number from `fluid_density`, `fluid_velocity`,
      the characteristic length and `dynamic_viscosity` is below 500. */
  function IsLaminar(e: Equation): (r: Result<bool>)
    ensures r.Ok? <==> Has(e, "fluid_density") && Has(e, "fluid_velocity") && CharacteristicLength(e).Ok?
                       && Has(e, "dynamic_viscosity") && GetValue(e, "dynamic_viscosity").value != 0.0
    ensures r.Ok? ==>
              (r.value <==> Formulas.ReynoldsNumber(GetValue(e, "fluid_density").value, GetValue(e, "fluid_velocity").value,
                                                    CharacteristicLength(e).value,
                                                    GetValue(e, "dynamic_viscosity").value).value < LaminarLimit)
  {
    var density :- GetValue(e, "fluid_density");
    var velocity :- GetValue(e, "fluid_velocity");
    var length :- CharacteristicLength(e);
    var viscosity :- GetValue(e, "dynamic_viscosity");
    var reynolds :- Formulas.ReynoldsNumber(density, velocity, length, viscosity);
    Ok(reynolds < LaminarLimit)
  }

  /** A stored characteristic length of 0.01 m with water-like density and
      viscosity at 1 m/s gives Reynolds number 10000, not laminar; a hundred
      times the viscosity gives 100, laminar. */
  lemma IsLaminarExamples()
    ensures IsLaminar(FlowExample(0.001)) == Ok(false)
    ensures IsLaminar(FlowExample(0.1)) == Ok(true)
  {
    FlowExampleReads(0.001);
    FlowExampleReads(0.1);
    Formulas.ReynoldsNumberExample();
    assert Formulas.ReynoldsNumber(1000.0, 1.0, 0.01, 0.1) == Ok(100.0);
  }

  lemma FlowExampleReads(viscosity: real)
    requires viscosity != 0.0
    ensures GetValue(FlowExample(viscosity), "fluid_density") == Ok(1000.0)
    ensures GetValue(FlowExample(viscosity), "fluid_velocity") == Ok(1.0)
    ensures CharacteristicLength(FlowExample(viscosity)) == Ok(0.01)
    ensures GetValue(FlowExample(viscosity), "dynamic_viscosity") == Ok(viscosity)
  {
    var e := FlowExample(viscosity);
    assert Valid(e);
    GetFindsEntry(e, e.entries[0]);
    GetFindsEntry(e, e.entries[1]);
    GetFindsEntry(e, e.entries[2]);
    GetFindsEntry(e, e.entries[3]);
  }

  function FlowExample(viscosity: real): Equation {
    Equation([
      Variables.Variable("fluid_density", 1000.0, true, 0.0, 2000.0),
      Variables.Variable("fluid_velocity", 1.0, true, 0.0, 2.0),
      Variables.Variable(LengthKey, 0.01, true, 0.0, 1.0),
      Variables.Variable("dynamic_viscosity", viscosity, true, 0.0, 1.0)])
  }

  // ---------------------------------------------------------------------
  // Exclusion-zone area

  /** `get_exlcusion_zone_area` as written: the presence test uses the right
      key but the read uses `exlcusion_zone_area`, so an override is a
      KeyError unless the misspelled name is also present. */
  function ExclusionZoneAreaAsWritten(e: Equation, fns: Transcendentals): (r: Result<real>)
    ensures Has(e, ExclusionKey) ==> r == GetValue(e, MisspelledExclusionKey)
    ensures !Has(e, ExclusionKey) ==> r == ComputedExclusionZoneArea(e, fns)
  {
    if Has(e, ExclusionKey) then GetValue(e, MisspelledExclusionKey)
    else ComputedExclusionZoneArea(e, fns)
  }

  /** `get_exlcusion_zone_area` reading the key it tests for. */
  function ExclusionZoneArea(e: Equation, fns: Transcendentals): (r: Result<real>)
    ensures Has(e, ExclusionKey) ==> r.Ok? && r == GetValue(e, ExclusionKey)
    ensures !Has(e, ExclusionKey) ==> r == ComputedExclusionZoneArea(e, fns)
  {
    if Has(e, ExclusionKey) then GetValue(e, ExclusionKey)
    else ComputedExclusionZoneArea(e, fns)
  }

  /** The computed branch shared by both versions: height, length, the mean
      velocity fixed at 1, and the diffusiophoretic velocity. */
  function ComputedExclusionZoneArea(e: Equation, fns: Transcendentals): (r: Result<real>)
    ensures !Has(e, "channel_height") ==> r == Err(NotFound("channel_height"))
    ensures Has(e, "channel_height") && !Has(e, "channel_length") ==> r == Err(NotFound("channel_length"))
    ensures r.Ok? ==> DiffusiophoreticVelocity(e, fns).Ok?
    ensures r.Ok? ==> GetValue(e, "channel_height").value != 0.0 && GetValue(e, "channel_length").value != 0.0
    ensures r.Ok? && (forall z :: fns.sqrt(z) >= 0.0) ==> r.value >= 0.0
  {
    var h :- GetValue(e, "channel_height");
    var l :- GetValue(e, "channel_length");
    var u :- DiffusiophoreticVelocity(e, fns);
    Formulas.ExclusionZoneArea(h, l, MeanVelocity, u, fns.sqrt)
  }

  /** An override of the exclusion-zone area is lost as written: with the
      correct key present and the misspelled one absent the getter fails,
      while the corrected getter returns the stored value. */
  lemma ExclusionOverrideLostAsWritten(e: Equation, fns: Transcendentals)
    requires Has(e, ExclusionKey) && !Has(e, MisspelledExclusionKey)
    ensures ExclusionZoneAreaAsWritten(e, fns) == Err(NotFound(MisspelledExclusionKey))
    ensures ExclusionZoneArea(e, fns).Ok?
  {
  }

  // ---------------------------------------------------------------------
  // Properties of the override-or-compute rule

  /** An override wins whatever else the equation holds: adding or replacing
      any variable with another name leaves every getter with an override
      unchanged. */
  lemma OverridesIgnoreOtherVariables(e: Equation, v: Variables.Variable, fns: Transcendentals)
    requires Valid(e)
    ensures Has(e, BetaKey) && v.name != BetaKey ==> BetaPotential(Add(e, v)) == BetaPotential(e)
    ensures Has(e, ElectroKey) && v.name != ElectroKey ==>
              ElectrophoreticMobility(Add(e, v)) == ElectrophoreticMobility(e)
    ensures Has(e, ChemiKey) && v.name != ChemiKey ==>
              ChemiphoreticMobility(Add(e, v), fns) == ChemiphoreticMobility(e, fns)
    ensures Has(e, GradientKey) && v.name != GradientKey ==>
              ChemiphoreticGradient(Add(e, v), fns) == ChemiphoreticGradient(e, fns)
    ensures Has(e, VelocityKey) && v.name != VelocityKey ==>
              DiffusiophoreticVelocity(Add(e, v), fns) == DiffusiophoreticVelocity(e, fns)
    ensures Has(e, LengthKey) && v.name != LengthKey ==> CharacteristicLength(Add(e, v)) == CharacteristicLength(e)
    ensures Has(e, AreaKey) && v.name != AreaKey ==> ChannelArea(Add(e, v)) == ChannelArea(e)
  {
    var r := Add(e, v);
    AddLookup(e, v);
    forall k | k != v.name
      ensures Has(r, k) == Has(e, k) && GetValue(r, k) == GetValue(e, k)
    {
      assert Get(r, k) == Get(e, k);
    }
  }

  /** A computed beta potential from positive concentrations lies strictly
      between -1 and 1. */
  lemma ComputedBetaIsBounded(e: Equation)
    requires !Has(e, BetaKey) && Has(e, "cation") && Has(e, "anion")
    requires GetValue(e, "cation").value > 0.0 && GetValue(e, "anion").value > 0.0
    ensures BetaPotential(e).Ok? && -1.0 < BetaPotential(e).value < 1.0
  {
    Formulas.BetaPotentialBounds(GetValue(e, "cation").value, GetValue(e, "anion").value);
  }

  /** A zero chemiphoretic gradient, stored or computed, gives a zero
      computed diffusiophoretic velocity whatever the mobilities. */
  lemma ZeroGradientStopsParticles(e: Equation, fns: Transcendentals)
    requires !Has(e, VelocityKey)
    requires DiffusiophoreticVelocity(e, fns).Ok?
    requires ChemiphoreticGradient(e, fns) == Ok(0.0)
    ensures DiffusiophoreticVelocity(e, fns) == Ok(0.0)
  {
    var b := BetaPotential(e).value;
    var m := ElectrophoreticMobility(e).value;
    var c := ChemiphoreticMobility(e, fns).value;
    Formulas.DiffusiophoreticVelocityIsLinearInGradient(b, m, c, 0.0, 0.0);
  }
}

=== FILE: ranking.dfy ===
/** The engine's ranking of a generation (src/genetic_algorithm.py:183-189
    and 127): `sorted(zip(fitness_scores, population), key=fitness,
    reverse=True)` and `len(set(fitness_results))`.

    Python's sort is stable, also with `reverse=True`: individuals of equal
    fitness keep their order in the population.  Each pair is tagged with
    its position so that stability can be stated.
 */
module Ranking {
  import opened Draws

  /** One element of `zip(fitness_scores, population)`, with its position. */
  datatype Entry<T> = Entry(fitness: real, index: nat, individual: T)

  /** `zip(fitness_scores, population)`, which stops at the shorter list. */
  function Pair<T>(fitness: seq<real>, population: seq<T>): (r: seq<Entry<T>>)
    ensures |r| == Min(|fitness| as real, |population| as real) as int
    ensures forall i :: 0 <= i < |r| ==> r[i] == Entry(fitness[i], i, population[i])
    ensures IncreasingIndices(r)
  {
    var n := if |fitness| < |population| then |fitness| else |population|;
    seq(n, i requires 0 <= i < n => Entry(fitness[i], i, population[i]))
  }

  /** `a` comes first in the descending stable order: fitter, or as fit and
      earlier in the population. */
  predicate Precedes<T>(a: Entry<T>, b: Entry<T>) {
    a.fitness > b.fitness || (a.fitness == b.fitness && a.index < b.index)
  }

  ghost predicate Ranked<T>(s: seq<Entry<T>>) {
    forall a, b :: 0 <= a < b < |s| ==> Precedes(s[a], s[b])
  }

  ghost predicate EarlierThan<T>(s: seq<Entry<T>>, k: nat) {
    forall x :: x in s ==> x.index < k
  }

  /** One insertion step: `e` goes after every entry at least as fit. */
  function Insert<T>(s: seq<Entry<T>>, e: Entry<T>): (r: seq<Entry<T>>)
    ensures |r| == |s| + 1
    ensures multiset(r) == multiset(s) + multiset{e}
    ensures Ranked(s) && EarlierThan(s, e.index) ==> Ranked(r)
    decreases |s|
  {
    if |s| == 0 then [e]
    else if s[|s| - 1].fitness >= e.fitness then
      AppendKeepsRanked(s, e);
      s + [e]
    else
      var init := s[..|s| - 1];
      var last := s[|s| - 1];
      assert s == init + [last];
      var front := Insert(init, e);
      assert Ranked(s) && EarlierThan(s, e.index) ==> Ranked(front + [last]) by {
        if Ranked(s) && EarlierThan(s, e.index) {
          assert Ranked(init) && EarlierThan(init, e.index);
          InsertedBeforeLast(s, e, front);
        }
      }
      front + [last]
  }

  /** An entry no fitter than the last, and later than all, may go at the
      end. */
  lemma AppendKeepsRanked<T>(s: seq<Entry<T>>, e: Entry<T>)
    requires |s| > 0 && s[|s| - 1].fitness >= e.fitness
    ensures Ranked(s) && EarlierThan(s, e.index) ==> Ranked(s + [e])
  {
    if Ranked(s) && EarlierThan(s, e.index) {
      forall a | 0 <= a < |s| ensures Precedes(s[a], e) {
        assert s[a] in s;
        if a < |s| - 1 {
          assert Precedes(s[a], s[|s| - 1]);
        }
      }
    }
  }

  /** When `e` is fitter than the last entry, the last entry may follow
      everything else and `e`. */
  lemma InsertedBeforeLast<T>(s: seq<Entry<T>>, e: Entry<T>, front: seq<Entry<T>>)
    requires |s| > 0 && Ranked(s) && Ranked(front) && e.fitness > s[|s| - 1].fitness
    requires multiset(front) == multiset(s[..|s| - 1]) + multiset{e}
    ensures Ranked(front + [s[|s| - 1]])
  {
    var last := s[|s| - 1];
    forall a | 0 <= a < |front| ensures Precedes(front[a], last) {
      assert front[a] in multiset(front);
      if front[a] != e {
        assert front[a] in multiset(s[..|s| - 1]);
        var j :| 0 <= j < |s| - 1 && s[..|s| - 1][j] == front[a];
        assert s[j] == front[a];
      }
    }
  }

  /** The entries are tagged in increasing position order, as `Pair`
      tags them. */
  ghost predicate IncreasingIndices<T>(s: seq<Entry<T>>) {
    forall a, b :: 0 <= a < b < |s| ==> s[a].index < s[b].index
  }

  /** Insertion sort, inserting the entries in their given order. */
  function Sort<T>(s: seq<Entry<T>>): (r: seq<Entry<T>>)
    ensures |r| == |s|
    ensures multiset(r) == multiset(s)
    ensures IncreasingIndices(s) ==> Ranked(r)
    decreases |s|
  {
    if |s| == 0 then []
    else
      var init := s[..|s| - 1];
      var last := s[|s| - 1];
      assert s == init + [last];
      var front := Sort(init);
      assert IncreasingIndices(s) ==> Ranked(front) && EarlierThan(front, last.index) by {
        if IncreasingIndices(s) {
          assert IncreasingIndices(init);
          SortedPrefixIsEarlier(s, front);
        }
      }
      Insert(front, last)
  }

  /** A rearrangement of all but the last entry comes before the last one. */
  lemma SortedPrefixIsEarlier<T>(s: seq<Entry<T>>, front: seq<Entry<T>>)
    requires |s| > 0 && IncreasingIndices(s) && multiset(front) == multiset(s[..|s| - 1])
    ensures EarlierThan(front, s[|s| - 1].index)
  {
    forall x | x in front ensures x.index < s[|s| - 1].index {
      assert x in multiset(s[..|s| - 1]);
      var j :| 0 <= j < |s| - 1 && s[..|s| - 1][j] == x;
      assert s[j] == x;
    }
  }

  /** `sort_population_by_fitness(population, fitness_scores)`, keeping the
      pairs; the individuals are `Individuals` of the result. */
  function SortByFitness<T>(population: seq<T>, fitness: seq<real>): (r: seq<Entry<T>>)
    ensures |r| == |Pair(fitness, population)|
    ensures multiset(r) == multiset(Pair(fitness, population))
  {
    Sort(Pair(fitness, population))
  }

  function Individuals<T>(s: seq<Entry<T>>): (r: seq<T>)
    ensures |r| == |s| && forall i :: 0 <= i < |s| ==> r[i] == s[i].individual
  {
    seq(|s|, i requires 0 <= i < |s| => s[i].individual)
  }

  /** The sorted pairs are a rearrangement of the zipped pairs, in
      non-increasing fitness, with equal fitness in population order, and
      each carries an individual with its own score. */
  lemma SortIsStableDescending<T>(population: seq<T>, fitness: seq<real>)
    ensures var r := SortByFitness(population, fitness);
            multiset(r) == multiset(Pair(fitness, population))
            && (forall a, b :: 0 <= a < b < |r| ==> r[a].fitness >= r[b].fitness)
            && (forall a, b :: 0 <= a < b < |r| && r[a].fitness == r[b].fitness ==> r[a].index < r[b].index)
            && (forall k :: 0 <= k < |r| ==>
                  r[k].index < |population| && r[k].index < |fitness|
                  && r[k].individual == population[r[k].index] && r[k].fitness == fitness[r[k].index])
  {
    var p := Pair(fitness, population);
    var r := SortByFitness(population, fitness);
    forall k | 0 <= k < |r|
      ensures r[k].index < |population| && r[k].index < |fitness|
      ensures r[k].individual == population[r[k].index] && r[k].fitness == fitness[r[k].index]
    {
      assert r[k] in multiset(p);
      var j :| 0 <= j < |p| && p[j] == r[k];
    }
    forall a, b | 0 <= a < b < |r| ensures r[a].fitness >= r[b].fitness {
      assert Precedes(r[a], r[b]);
    }
  }

  /** The head of the ranking is at least as fit as every individual paired
      with a score: the best of this generation. */
  lemma HeadIsBest<T>(population: seq<T>, fitness: seq<real>)
    requires |fitness| == |population| > 0
    ensures var r := SortByFitness(population, fitness);
            |r| > 0 && (forall j :: 0 <= j < |fitness| ==> fitness[j] <= r[0].fitness)
            && r[0].individual in population
  {
    var p := Pair(fitness, population);
    var r := SortByFitness(population, fitness);
    SortIsStableDescending(population, fitness);
    forall j | 0 <= j < |fitness| ensures fitness[j] <= r[0].fitness {
      assert p[j] in multiset(r);
      var k :| 0 <= k < |r| && r[k] == p[j];
      if k > 0 {
        assert r[0].fitness >= r[k].fitness;
      }
    }
  }

  /** `len(set(fitness_results))`. */
  function UniqueCount(fitness: seq<real>): (r: nat)
    ensures r == 0 <==> |fitness| == 0
  {
    var distinct := set x | x in fitness;
    assert |fitness| > 0 ==> fitness[0] in distinct;
    |distinct|
  }

  /** There are never more distinct scores than scores. */
  lemma {:induction false} UniqueCountBound(fitness: seq<real>)
    ensures UniqueCount(fitness) <= |fitness|
    ensures |fitness| > 0 ==> UniqueCount(fitness) >= 1
    decreases |fitness|
  {
    if |fitness| > 0 {
      var init := fitness[..|fitness| - 1];
      var last := fitness[|fitness| - 1];
      UniqueCountBound(init);
      assert fitness == init + [last];
      assert (set x | x in fitness) == (set x | x in init) + {last};
    }
  }
}

=== FILE: rates.dfy ===
/** Mutation-rate adaptation, shared by the engine (src/genetic_algorithm.py:109-133)
    and both strategy managers.

    Every rule multiplies the rate by a factor and then clamps it from one side
    only: raising caps it at 0.5, lowering floors it at 0.01.
 */
module Rates {
  import opened Outcomes
  import opened Draws

  const MinRate: real := 0.01
  const MaxRate: real := 0.5

  predicate InBand(rate: real) {
    MinRate <= rate <= MaxRate
  }

  /** `min(rate * factor, 0.5)`. */
  function Raise(rate: real, factor: real): (r: real)
    ensures r <= MaxRate && r <= rate * factor
    ensures r == rate * factor || r == MaxRate
  {
    Min(rate * factor, MaxRate)
  }

  /** `max(rate * factor, 0.01)`. */
  function Lower(rate: real, factor: real): (r: real)
    ensures r >= MinRate && r >= rate * factor
    ensures r == rate * factor || r == MinRate
  {
    Max(rate * factor, MinRate)
  }

  /** Raising by a factor of at least 1 never lowers a rate in the band and
      keeps it there; lowering by a factor in (0, 1] never raises it and keeps
      it there. */
  lemma AdjustmentsKeepBand(rate: real, up: real, down: real)
    requires InBand(rate)
    requires up >= 1.0 && 0.0 < down <= 1.0
    ensures InBand(Raise(rate, up)) && Raise(rate, up) >= rate
    ensures InBand(Lower(rate, down)) && Lower(rate, down) <= rate
  {
    assert rate * up >= rate * 1.0 by {
      ProductNonNegative(rate, up - 1.0);
    }
    assert rate * down <= rate * 1.0 by {
      ProductNonNegative(rate, 1.0 - down);
    }
  }

  /** The percentage improvement the engine reacts to:
      `(best - previous) / abs(previous) * 100`, undefined for a previous best
      of zero. */
  function Improvement(best: real, previous: real): (r: Result<real>)
    ensures r.Err? <==> previous == 0.0
    ensures r.Err? ==> r.error == DomainError("fitness_improvement")
  {
    if previous == 0.0 then Err(DomainError("fitness_improvement"))
    else
      var magnitude := if previous < 0.0 then -previous else previous;
      Ok(((best - previous) / magnitude) * 100.0)
  }

  /** An improvement below 10 percent is exactly a gain smaller than a tenth
      of the previous best's magnitude. */
  lemma ImprovementThreshold(best: real, previous: real)
    requires previous != 0.0
    ensures var m := if previous < 0.0 then -previous else previous;
            Improvement(best, previous).value < 10.0 <==> (best - previous) * 10.0 < m
  {
    var m := if previous < 0.0 then -previous else previous;
    var q := (best - previous) / m;
    assert q * m == best - previous;
    if q < 0.1 {
      assert (0.1 - q) * m > 0.0 by { ProductPositive(0.1 - q, m); }
    }
    if (best - previous) * 10.0 < m {
      assert (best - previous) * 10.0 == q * m * 10.0;
      if q >= 0.1 {
        ProductNonNegative(q - 0.1, m);
        assert false;
      }
    }
  }

  lemma ProductPositive(x: real, y: real)
    requires x > 0.0 && y > 0.0
    ensures x * y > 0.0
  {
  }

  /** The engine's fitness rule: with no earlier best the rate is unchanged;
      otherwise an improvement below 10 percent raises it by 1.2 and any other
      lowers it by 0.8.  A previous best of zero is a division by zero. */
  function UpdateByFitness(rate: real, best: real, previous: Option<real>): (r: Result<real>)
    ensures previous.None? ==> r == Ok(rate)
    ensures previous.Some? ==> (r.Err? <==> previous.value == 0.0)
    ensures previous.Some? && r.Ok? ==>
              r.value == (if Improvement(best, previous.value).value < 10.0 then Raise(rate, 1.2) else Lower(rate, 0.8))
  {
    match previous
    case None => Ok(rate)
    case Some(p) =>
      var gain :- Improvement(best, p);
      Ok(if gain < 10.0 then Raise(rate, 1.2) else Lower(rate, 0.8))
  }

  /** The engine's diversity rule: fewer distinct fitness values than half the
      population raises the rate by 1.1, otherwise it is lowered by 0.9. */
  function UpdateByUniqueCount(rate: real, unique: nat, populationSize: int): (r: real)
    ensures (unique as real) < (populationSize as real) * 0.5 ==> r == Raise(rate, 1.1)
    ensures (unique as real) >= (populationSize as real) * 0.5 ==> r == Lower(rate, 0.9)
  {
    if (unique as real) < (populationSize as real) * 0.5 then Raise(rate, 1.1) else Lower(rate, 0.9)
  }

  /** A rate that starts a generation in the band ends it in the band, unless
      the fitness rule fails. */
  lemma GenerationRulesKeepBand(rate: real, best: real, previous: Option<real>, unique: nat, size: int)
    requires InBand(rate)
    requires UpdateByFitness(rate, best, previous).Ok?
    ensures InBand(UpdateByFitness(rate, best, previous).value)
    ensures InBand(UpdateByUniqueCount(UpdateByFitness(rate, best, previous).value, unique, size))
  {
    AdjustmentsKeepBand(rate, 1.2, 0.8);
    var mid := UpdateByFitness(rate, best, previous).value;
    AdjustmentsKeepBand(mid, 1.1, 0.9);
  }

  /** A rate below the band is not pulled into it by a raise, nor one above
      it by a lowering: each rule enforces one side of the band only. */
  lemma RaiseDoesNotEnforceFloor(rate: real, factor: real)
    ensures rate * factor < MinRate ==> Raise(rate, factor) == rate * factor && Raise(rate, factor) < MinRate
    ensures rate * factor > MaxRate ==> Lower(rate, factor) == rate * factor && Lower(rate, factor) > MaxRate
    ensures Raise(0.001, 1.1) < MinRate && Lower(0.9, 0.9) > MaxRate
  {
  }
}

=== FILE: selection.dfy ===
/** Parent selection (src/ga/selection.py and src/ga/selection_strategy.py,
    which hold the same two algorithms, once behind a random dispatch and
    once as two strategy classes).

    Individuals are of any type with equality; in the engine they are object
    references, so `==` is Python's default identity comparison.  Fitness
    scores are index-aligned with the population.  The deep copies both
    files make of the chosen parents are the engine's business (fresh
    references), not this module's.
 */
module Selection {
  import opened Outcomes
  import opened Draws

  /** The tournament size both files pass. */
  const TournamentSize: nat := 6

  // ---------------------------------------------------------------------
  // Tournament

  /** `max(indices, key=lambda i: fitness[i])`: the position in `s` of the
      first index of greatest fitness (Python's `max` keeps the earliest of
      equal keys). */
  function FirstBest(s: seq<nat>, fitness: seq<real>): (k: nat)
    requires |s| > 0
    requires forall i :: 0 <= i < |s| ==> s[i] < |fitness|
    ensures k < |s|
    ensures forall i :: 0 <= i < |s| ==> fitness[s[i]] <= fitness[s[k]]
    ensures forall i :: 0 <= i < k ==> fitness[s[i]] < fitness[s[k]]
    decreases |s|
  {
    if |s| == 1 then 0
    else
      var k := FirstBest(s[..|s| - 1], fitness);
      if fitness[s[|s| - 1]] > fitness[s[k]] then |s| - 1 else k
  }

  ghost predicate AllUnit(us: seq<real>) {
    forall i :: 0 <= i < |us| ==> IsUnit(us[i])
  }

  /** `tournament_select_parent()`: the population index of the winner of a
      tournament among six distinct indices drawn with `us`.  A population of
      fewer than six is `random.sample`'s ValueError. */
  function TournamentIndex(n: nat, fitness: seq<real>, us: seq<real>): (r: Result<nat>)
    requires |fitness| == n && |us| == TournamentSize && AllUnit(us)
    ensures r.Err? <==> n < TournamentSize
    ensures r.Err? ==> r.error == EmptyRange
    ensures r.Ok? ==> r.value < n
    ensures r.Ok? ==> exists s :: |s| == TournamentSize && r.value in s && IsContest(s, n)
                                  && forall i :: 0 <= i < |s| ==> fitness[s[i]] <= fitness[r.value]
  {
    if n < TournamentSize then Err(EmptyRange)
    else
      var s := Sample(n, us);
      var k := FirstBest(s, fitness);
      assert s[k] in s;
      Ok(s[k])
  }

  /** Six distinct indices below `n`. */
  ghost predicate IsContest(s: seq<nat>, n: nat) {
    (forall i :: 0 <= i < |s| ==> s[i] < n) && (forall i, j :: 0 <= i < j < |s| ==> s[i] != s[j])
  }

  ghost predicate AttemptsWellFormed(attempts: seq<seq<real>>) {
    forall a :: 0 <= a < |attempts| ==> |attempts[a]| == TournamentSize && AllUnit(attempts[a])
  }

  /** The winner of one attempt of at least six individuals. */
  function Contestant<T>(population: seq<T>, fitness: seq<real>, us: seq<real>): (c: T)
    requires |fitness| == |population| >= TournamentSize && |us| == TournamentSize && AllUnit(us)
  {
    population[TournamentIndex(|population|, fitness, us).value]
  }

  /** The `while parent1 == parent2` loop: the first attempt whose winner is
      not `parent1`.  The source loops for as long as it takes; running out
      of the supplied attempts is `DrawsExhausted`. */
  function SecondParent<T(==)>(population: seq<T>, fitness: seq<real>, parent1: T, attempts: seq<seq<real>>): (r: Result<T>)
    requires |fitness| == |population| >= TournamentSize && AttemptsWellFormed(attempts)
    ensures r.Ok? ==> r.value != parent1
    ensures r.Ok? ==> exists a :: 0 <= a < |attempts| && r.value == Contestant(population, fitness, attempts[a])
                        && forall b :: 0 <= b < a ==> Contestant(population, fitness, attempts[b]) == parent1
    ensures r.Err? ==> r.error == DrawsExhausted
                       && forall a :: 0 <= a < |attempts| ==> Contestant(population, fitness, attempts[a]) == parent1
    decreases |attempts|
  {
    if |attempts| == 0 then Err(DrawsExhausted)
    else
      var c := Contestant(population, fitness, attempts[0]);
      if c != parent1 then Ok(c)
      else
        var rest := attempts[1..];
        assert forall a :: 0 <= a < |rest| ==> rest[a] == attempts[a + 1];
        SecondParent(population, fitness, parent1, rest)
  }

  /** `tournament_selection(population, fitness_scores, 6)`: `first` draws the
      first parent, and `attempts` the successive tries for the second. */
  function TournamentSelection<T(==)>(population: seq<T>, fitness: seq<real>, first: seq<real>,
                                      attempts: seq<seq<real>>): (r: Result<(T, T)>)
    requires |fitness| == |population| && |first| == TournamentSize && AllUnit(first)
    requires AttemptsWellFormed(attempts)
    ensures |population| < TournamentSize ==> r == Err(EmptyRange)
    ensures r.Ok? ==> r.value.0 != r.value.1
    ensures r.Ok? ==> r.value.0 == Contestant(population, fitness, first)
  {
    var i :- TournamentIndex(|population|, fitness, first);
    if |attempts| == 0 then Err(DrawsExhausted)
    else
      var p2 :- SecondParent(population, fitness, population[i], attempts);
      Ok((population[i], p2))
  }

  /** With exactly six individuals and one strictly fittest, every tournament
      includes everyone and is won by the fittest, so the retry loop never
      finds a second parent: however many attempts are supplied, they run
      out. */
  lemma SixWithUniqueBestNeverFinishes<T>(population: seq<T>, fitness: seq<real>, m: nat,
                                              first: seq<real>, attempts: seq<seq<real>>)
    requires |fitness| == |population| == TournamentSize && m < TournamentSize
    requires forall j :: 0 <= j < TournamentSize && j != m ==> fitness[j] < fitness[m]
    requires |first| == TournamentSize && AllUnit(first) && AttemptsWellFormed(attempts)
    ensures TournamentSelection(population, fitness, first, attempts) == Err(DrawsExhausted)
  {
    SixWinnerIsBest(fitness, m, first);
    forall a | 0 <= a < |attempts|
      ensures Contestant(population, fitness, attempts[a]) == population[m]
    {
      SixWinnerIsBest(fitness, m, attempts[a]);
    }
  }

  /** In a population of six the tournament's winner is the strict maximum. */
  lemma SixWinnerIsBest(fitness: seq<real>, m: nat, us: seq<real>)
    requires |fitness| == TournamentSize && m < TournamentSize
    requires forall j :: 0 <= j < TournamentSize && j != m ==> fitness[j] < fitness[m]
    requires |us| == TournamentSize && AllUnit(us)
    ensures TournamentIndex(TournamentSize, fitness, us) == Ok(m)
  {
    var s := Sample(TournamentSize, us);
    var k := FirstBest(s, fitness);
    DistinctCoversAll(s, TournamentSize, m);
    var p :| 0 <= p < |s| && s[p] == m;
    assert fitness[s[p]] <= fitness[s[k]];
  }

  /** Pigeonhole: `n` distinct naturals below `n` include each of them. */
  lemma DistinctCoversAll(s: seq<nat>, n: nat, m: nat)
    requires |s| == n && m < n
    requires forall i :: 0 <= i < |s| ==> s[i] < n
    requires forall i, j :: 0 <= i < j < |s| ==> s[i] != s[j]
    ensures m in s
  {
    var values := set i | 0 <= i < |s| :: s[i];
    DistinctSetSize(s);
    assert |values| == n;
    var below := set i | 0 <= i < n :: Range(n)[i];
    DistinctSetSize(Range(n));
    forall x | x in values ensures x in below {
      assert Range(n)[x] == x;
    }
    if m !in values {
      assert values <= below - {m};
      assert Range(n)[m] == m;
      assert |below - {m}| == n - 1;
      SubsetSize(values, below - {m});
    }
  }

  lemma {:induction false} DistinctSetSize(s: seq<nat>)
    requires forall i, j :: 0 <= i < j < |s| ==> s[i] != s[j]
    ensures |set i | 0 <= i < |s| :: s[i]| == |s|
    decreases |s|
  {
    if |s| > 0 {
      var init := s[..|s| - 1];
      DistinctSetSize(init);
      var a := set i | 0 <= i < |init| :: init[i];
      var b := set i | 0 <= i < |s| :: s[i];
      assert b == a + {s[|s| - 1]} by {
        forall x | x in b ensures x in a + {s[|s| - 1]} {
          var i :| 0 <= i < |s| && s[i] == x;
          if i < |s| - 1 {
            assert init[i] == x;
          }
        }
        forall x | x in a ensures x in b {
          var i :| 0 <= i < |init| && init[i] == x;
          assert s[i] == x;
        }
      }
      assert s[|s| - 1] !in a;
    }
  }

  lemma {:induction false} SubsetSize<U>(a: set<U>, b: set<U>)
    requires a <= b
    ensures |a| <= |b|
    decreases |b|
  {
    if a != {} {
      var x :| x in a;
      SubsetSize(a - {x}, b - {x});
    }
  }

  // ---------------------------------------------------------------------
  // Roulette

  /** Python's `sum` of the first `k` scores, added from the left. */
  function PrefixSum(xs: seq<real>, k: nat): real
    requires k <= |xs|
    decreases k
  {
    if k == 0 then 0.0 else PrefixSum(xs, k - 1) + xs[k - 1]
  }

  /** `sum(fitness for fitness in fitness_scores)`. */
  function Sum(xs: seq<real>): real {
    PrefixSum(xs, |xs|)
  }

  /** The loop's `cummulative_sum` after `k` scores: the running total of
      `fitness / total_fitness`. */
  function Climb(fitness: seq<real>, total: real, k: nat): real
    requires total != 0.0 && k <= |fitness|
    decreases k
  {
    if k == 0 then 0.0 else Climb(fitness, total, k - 1) + fitness[k - 1] / total
  }

  /** `cummulative_probabilities`: rung `i` is the running total after score `i`. */
  function Ladder(fitness: seq<real>, total: real): (l: seq<real>)
    requires total != 0.0
    ensures |l| == |fitness|
    ensures forall i :: 0 <= i < |fitness| ==> l[i] == Climb(fitness, total, i + 1)
  {
    seq(|fitness|, i requires 0 <= i < |fitness| => Climb(fitness, total, i + 1))
  }

  /** Summing the shares gives the share of the sum: after `k` scores the
      running total is `PrefixSum(fitness, k) / total`. */
  lemma {:induction false} ClimbIsShare(fitness: seq<real>, total: real, k: nat)
    requires total != 0.0 && k <= |fitness|
    ensures Climb(fitness, total, k) * total == PrefixSum(fitness, k)
    decreases k
  {
    if k > 0 {
      ClimbIsShare(fitness, total, k - 1);
      var share := fitness[k - 1] / total;
      assert share * total == fitness[k - 1];
      assert (Climb(fitness, total, k - 1) + share) * total
          == Climb(fitness, total, k - 1) * total + share * total;
    }
  }

  /** Against a positive total a rung test is a test on the prefix sum. */
  lemma RungTest(fitness: seq<real>, total: real, j: nat, u: real)
    requires total > 0.0 && j < |fitness|
    ensures u <= Ladder(fitness, total)[j] <==> u * total <= PrefixSum(fitness, j + 1)
  {
    var c := Climb(fitness, total, j + 1);
    ClimbIsShare(fitness, total, j + 1);
    assert (c - u) * total == PrefixSum(fitness, j + 1) - u * total;
    ScaledSign(c - u, total);
  }

  /** Multiplying by a positive number keeps the sign. */
  lemma ScaledSign(x: real, t: real)
    requires t > 0.0
    ensures x >= 0.0 <==> x * t >= 0.0
    ensures x > 0.0 <==> x * t > 0.0
  {
    if x > 0.0 {
      ProductPositive(x, t);
    } else if x < 0.0 {
      ProductPositive(-x, t);
    }
  }

  lemma ProductPositive(x: real, y: real)
    requires x > 0.0 && y > 0.0
    ensures x * y > 0.0
  {
  }

  /** The first rung at or above `u`, if any. */
  function FirstRung(ladder: seq<real>, u: real): (r: Option<nat>)
    ensures r.Some? ==> r.value < |ladder| && u <= ladder[r.value]
    ensures r.Some? ==> forall j :: 0 <= j < r.value ==> ladder[j] < u
    ensures r.None? ==> forall j :: 0 <= j < |ladder| ==> ladder[j] < u
    decreases |ladder|
  {
    if |ladder| == 0 then None
    else if u <= ladder[0] then Some(0)
    else match FirstRung(ladder[1..], u)
      case None => None
      case Some(k) => Some(k + 1)
  }

  /** `roulette_select_parent()` for the draw `u`: the index of the first rung
      at or above it.  An empty population divides nothing and finds nothing,
      where the source returns None; a non-empty one with total fitness zero
      divides by zero. */
  function RouletteIndex(fitness: seq<real>, u: real): (r: Result<nat>)
    ensures |fitness| == 0 ==> r == Err(NoIndividual)
    ensures |fitness| > 0 && Sum(fitness) == 0.0 ==> r == Err(DomainError("roulette"))
    ensures r.Ok? ==> r.value < |fitness|
    ensures r.Ok? ==> u <= Ladder(fitness, Sum(fitness))[r.value]
    ensures r.Ok? ==> forall j :: 0 <= j < r.value ==> Ladder(fitness, Sum(fitness))[j] < u
  {
    if |fitness| == 0 then Err(NoIndividual)
    else if Sum(fitness) == 0.0 then Err(DomainError("roulette"))
    else match FirstRung(Ladder(fitness, Sum(fitness)), u)
      case None => Err(NoIndividual)
      case Some(i) => Ok(i)
  }

  /** `roulette_selection(population, fitness_scores)`: two independent spins. */
  function RouletteSelection<T>(population: seq<T>, fitness: seq<real>, u1: real, u2: real): (r: Result<(T, T)>)
    requires |fitness| == |population|
    ensures r.Ok? ==> RouletteIndex(fitness, u1).Ok? && RouletteIndex(fitness, u2).Ok?
    ensures r.Ok? ==> r.value == (population[RouletteIndex(fitness, u1).value], population[RouletteIndex(fitness, u2).value])
    ensures r.Err? ==> RouletteIndex(fitness, u1).Err? || RouletteIndex(fitness, u2).Err?
  {
    var i :- RouletteIndex(fitness, u1);
    var j :- RouletteIndex(fitness, u2);
    Ok((population[i], population[j]))
  }

  /** Over exact reals the top rung is exactly 1, so every draw in [0, 1)
      finds an individual once the total is non-zero. */
  lemma RouletteAlwaysFinds(fitness: seq<real>, u: real)
    requires |fitness| > 0 && Sum(fitness) != 0.0 && IsUnit(u)
    ensures RouletteIndex(fitness, u).Ok?
  {
    var t := Sum(fitness);
    var l := Ladder(fitness, t);
    var c := Climb(fitness, t, |fitness|);
    ClimbIsShare(fitness, t, |fitness|);
    assert (c - 1.0) * t == 0.0;
    ZeroFactor(c - 1.0, t);
    assert l[|fitness| - 1] == 1.0;
    assert FirstRung(l, u).Some?;
  }

  lemma ZeroFactor(x: real, t: real)
    requires t != 0.0 && x * t == 0.0
    ensures x == 0.0
  {
  }

  /** With non-negative fitness a draw picks index `i` exactly when `u * total`
      falls in `i`'s slice `(PrefixSum(f, i), PrefixSum(f, i + 1)]`, so each
      individual's chance is its share of the total. */
  lemma RoulettePicksSlice(fitness: seq<real>, u: real, i: nat)
    requires |fitness| > 0 && Sum(fitness) > 0.0 && IsUnit(u)
    requires forall j :: 0 <= j < |fitness| ==> fitness[j] >= 0.0
    requires i < |fitness|
    ensures RouletteIndex(fitness, u) == Ok(i) <==> InSlice(fitness, u, i)
  {
    if RouletteIndex(fitness, u) == Ok(i) {
      PickedIsInSlice(fitness, u, i);
    }
    if InSlice(fitness, u, i) {
      SliceIsPicked(fitness, u, i);
    }
  }

  /** `u * total` falls in `i`'s slice `(PrefixSum(f, i), PrefixSum(f, i + 1)]`;
      a draw of exactly 0 lands on the first rung whatever its width. */
  predicate InSlice(fitness: seq<real>, u: real, i: nat)
    requires i < |fitness|
  {
    PrefixSum(fitness, i) < u * Sum(fitness) <= PrefixSum(fitness, i + 1) || (i == 0 && u == 0.0)
  }

  lemma PickedIsInSlice(fitness: seq<real>, u: real, i: nat)
    requires |fitness| > 0 && Sum(fitness) > 0.0 && IsUnit(u)
    requires i < |fitness| && RouletteIndex(fitness, u) == Ok(i)
    ensures InSlice(fitness, u, i)
  {
    var t := Sum(fitness);
    var l := Ladder(fitness, t);
    assert u <= l[i];
    RungTest(fitness, t, i, u);
    if i > 0 {
      assert l[i - 1] < u;
      RungTest(fitness, t, i - 1, u);
    } else if u > 0.0 {
      ProductPositive(u, t);
    }
  }

  lemma SliceIsPicked(fitness: seq<real>, u: real, i: nat)
    requires |fitness| > 0 && Sum(fitness) > 0.0 && IsUnit(u)
    requires forall j :: 0 <= j < |fitness| ==> fitness[j] >= 0.0
    requires i < |fitness| && InSlice(fitness, u, i)
    ensures RouletteIndex(fitness, u) == Ok(i)
  {
    var t := Sum(fitness);
    var l := Ladder(fitness, t);
    forall j | 0 <= j < i ensures l[j] < u {
      PrefixClimb(fitness, j + 1, i);
      RungTest(fitness, t, j, u);
    }
    PrefixClimb(fitness, 0, i + 1);
    RungTest(fitness, t, i, u);
    FirstRungIs(l, u, i);
  }

  /** A rung at or above `u` with every earlier rung below it is the first. */
  lemma {:induction false} FirstRungIs(ladder: seq<real>, u: real, i: nat)
    requires i < |ladder| && u <= ladder[i]
    requires forall j :: 0 <= j < i ==> ladder[j] < u
    ensures FirstRung(ladder, u) == Some(i)
    decreases i
  {
    if i > 0 {
      FirstRungIs(ladder[1..], u, i - 1);
    }
  }

  /** With non-negative terms the prefix sums never decrease. */
  lemma {:induction false} PrefixClimb(fitness: seq<real>, i: nat, j: nat)
    requires forall k :: 0 <= k < |fitness| ==> fitness[k] >= 0.0
    requires i <= j <= |fitness|
    ensures 0.0 <= PrefixSum(fitness, i) <= PrefixSum(fitness, j)
    decreases j
  {
    if i < j {
      PrefixClimb(fitness, i, j - 1);
    } else if j > 0 {
      PrefixClimb(fitness, j - 1, j - 1);
    }
  }

  // ---------------------------------------------------------------------
  // Dispatch

  /** The draws one call to `select_parents` consumes, whichever branch runs. */
  datatype SelectionDraws = SelectionDraws(
    choice: real,
    first: seq<real>,
    attempts: seq<seq<real>>,
    spin1: real,
    spin2: real)

  ghost predicate DrawsWellFormed(d: SelectionDraws) {
    IsUnit(d.choice) && |d.first| == TournamentSize && AllUnit(d.first)
    && AttemptsWellFormed(d.attempts) && IsUnit(d.spin1) && IsUnit(d.spin2)
  }

  /** `Selection.select_parents`: `random.choice(["tournament", "roulette"])`
      then the chosen algorithm. */
  function SelectParents<T(==)>(population: seq<T>, fitness: seq<real>, d: SelectionDraws): (r: Result<(T, T)>)
    requires |fitness| == |population| && DrawsWellFormed(d)
    ensures ChoiceIndex(d.choice, 2) == 0 ==> r == TournamentSelection(population, fitness, d.first, d.attempts)
    ensures ChoiceIndex(d.choice, 2) == 1 ==> r == RouletteSelection(population, fitness, d.spin1, d.spin2)
  {
    if ChoiceIndex(d.choice, 2) == 0 then TournamentSelection(population, fitness, d.first, d.attempts)
    else RouletteSelection(population, fitness, d.spin1, d.spin2)
  }

  /** Both selection algorithms hand back members of the population: the
      engine's parents are always individuals of the current generation. */
  lemma SelectedAreMembers<T>(population: seq<T>, fitness: seq<real>, d: SelectionDraws)
    requires |fitness| == |population| && DrawsWellFormed(d)
    requires SelectParents(population, fitness, d).Ok?
    ensures SelectParents(population, fitness, d).value.0 in population
    ensures SelectParents(population, fitness, d).value.1 in population
  {
    if ChoiceIndex(d.choice, 2) == 0 {
      var r := TournamentSelection(population, fitness, d.first, d.attempts);
      assert TournamentIndex(|population|, fitness, d.first).Ok?;
      var p2 := SecondParent(population, fitness, r.value.0, d.attempts);
      assert r.value.1 == p2.value;
      var a :| 0 <= a < |d.attempts| && p2.value == Contestant(population, fitness, d.attempts[a]);
      assert TournamentIndex(|population|, fitness, d.attempts[a]).Ok?;
    }
  }
}

=== FILE: strategies.dfy ===
/** The strategy objects both strategy managers hold
    (src/GA/strategy_manager.py and src/ga/strategy_manager/strategy_manager.py
    build the same three dicts), and the draws that choose among them.

    A strategy object carries no state, so its class is all that matters:
    each dict becomes a datatype, and `random.choice` over the dict's values
    follows the dict's insertion order.
 */
module Strategies {
  import opened Outcomes
  import opened Draws
  import opened Selection

  datatype MutationKind = Randomize | Step
  datatype CrossoverKind = SinglePoint | Uniform
  datatype SelectionKind = RouletteWheel | Tournament

  /** The weighted list `pick_mutation_strategy` draws from. */
  const MutationTags: seq<string> := ["randomize", "step", "step", "step"]

  /** `pick_mutation_strategy`: a tag from the weighted list, looked up in the
      mutation dict.  One index in four gives the randomizing strategy. */
  function PickMutation(u: real): (k: MutationKind)
    requires IsUnit(u)
    ensures k == Randomize <==> ChoiceIndex(u, 4) == 0
    ensures k == Step <==> 1 <= ChoiceIndex(u, 4) <= 3
  {
    if MutationTags[ChoiceIndex(u, |MutationTags|)] == "randomize" then Randomize else Step
  }

  /** `pick_crossover_strategy`: `random.choice` over
      `{"single_point": ..., "uniform": ...}.values()`. */
  function PickCrossover(u: real): (k: CrossoverKind)
    requires IsUnit(u)
    ensures k == SinglePoint <==> ChoiceIndex(u, 2) == 0
    ensures k == Uniform <==> ChoiceIndex(u, 2) == 1
  {
    [SinglePoint, Uniform][ChoiceIndex(u, 2)]
  }

  /** `pick_selection_strategy`: `random.choice` over
      `{"roulette_wheel": ..., "tournament": ...}.values()`. */
  function PickSelection(u: real): (k: SelectionKind)
    requires IsUnit(u)
    ensures k == RouletteWheel <==> ChoiceIndex(u, 2) == 0
    ensures k == Tournament <==> ChoiceIndex(u, 2) == 1
  {
    [RouletteWheel, Tournament][ChoiceIndex(u, 2)]
  }

  /** `select_parents` of the two selection strategy classes
      (src/ga/selection_strategy.py): the same tournament and roulette as the
      dispatching selection, without the dispatch.  The deep copies they
      return are the engine's concern. */
  function Select<T(==)>(kind: SelectionKind, population: seq<T>, fitness: seq<real>, d: SelectionDraws): (r: Result<(T, T)>)
    requires |fitness| == |population| && DrawsWellFormed(d)
    ensures kind == Tournament ==> r == TournamentSelection(population, fitness, d.first, d.attempts)
    ensures kind == RouletteWheel ==> r == RouletteSelection(population, fitness, d.spin1, d.spin2)
    ensures kind == Tournament && r.Ok? ==> r.value.0 != r.value.1
  {
    match kind
    case Tournament => TournamentSelection(population, fitness, d.first, d.attempts)
    case RouletteWheel => RouletteSelection(population, fitness, d.spin1, d.spin2)
  }

  /** The strategy classes choose exactly as the dispatching selection does
      when its own draw lands on the same algorithm. */
  lemma SelectAgreesWithDispatch<T>(population: seq<T>, fitness: seq<real>, d: SelectionDraws)
    requires |fitness| == |population| && DrawsWellFormed(d)
    ensures SelectParents(population, fitness, d)
            == Select(if ChoiceIndex(d.choice, 2) == 0 then Tournament else RouletteWheel, population, fitness, d)
  {
  }
}

=== FILE: variable.dfy ===
/** The parameter record of the optimiser (src/diffusiophoresis/variable.py).

    A `Variable` is a named real value with a declared range and a constancy
    flag.  The Python class mutates in place; here every mutator returns the
    updated record.  Python floats are modelled as exact reals.
 */
module Variables {
  import opened Outcomes
  import opened Draws

  datatype Variable = Variable(
    name: string,
    value: real,
    isConstant: bool,
    minRange: real,
    maxRange: real)

  /** `u` and `v` agree on every field except, possibly, the value. */
  predicate SameExceptValue(u: Variable, v: Variable) {
    u.name == v.name && u.isConstant == v.isConstant
    && u.minRange == v.minRange && u.maxRange == v.maxRange
  }

  /** The declared range is non-empty and holds the current value. */
  predicate WellRanged(v: Variable) {
    v.minRange <= v.value <= v.maxRange
  }

  /** `is_within_range`: the closed range test. */
  predicate IsWithinRange(v: Variable, x: real): (b: bool)
    ensures b ==> v.minRange <= v.maxRange
    ensures v.minRange <= v.maxRange ==> (b <==> Clip(x, v.minRange, v.maxRange) == x)
  {
    v.minRange <= x <= v.maxRange
  }

  /** `set_value(value, safe_mode)`: a constant ignores the write, or refuses it
      with a ValueError in safe mode; any other variable takes the new value. */
  function SetValue(v: Variable, x: real, safeMode: bool): (r: Result<Variable>)
    ensures r.Err? <==> v.isConstant && safeMode
    ensures r.Err? ==> r.error == ConstantViolation(v.name)
    ensures r.Ok? ==> SameExceptValue(r.value, v)
    ensures r.Ok? && v.isConstant ==> r.value == v
    ensures r.Ok? && !v.isConstant ==> r.value.value == x
  {
    if v.isConstant then
      if safeMode then Err(ConstantViolation(v.name)) else Ok(v)
    else
      Ok(v.(value := x))
  }

  /** `randomize()`: a non-constant variable takes `np.random.uniform(min, max)`
      for the draw `u`; a constant is left alone. */
  function Randomize(v: Variable, u: real): (r: Variable)
    requires IsUnit(u)
    ensures SameExceptValue(r, v)
    ensures v.isConstant ==> r == v
    ensures !v.isConstant && v.minRange <= v.maxRange ==> IsWithinRange(r, r.value)
  {
    if v.isConstant then v
    else v.(value := UniformBetween(v.minRange, v.maxRange, u))
  }

  /** `set_min_range`: replaces the lower bound without re-checking anything. */
  function SetMinRange(v: Variable, lo: real): (r: Variable)
    ensures r.minRange == lo
    ensures r.name == v.name && r.value == v.value && r.isConstant == v.isConstant
    ensures r.maxRange == v.maxRange
  {
    v.(minRange := lo)
  }

  /** `set_max_range`: replaces the upper bound without re-checking anything. */
  function SetMaxRange(v: Variable, hi: real): (r: Variable)
    ensures r.maxRange == hi
    ensures r.name == v.name && r.value == v.value && r.isConstant == v.isConstant
    ensures r.minRange == v.minRange
  {
    v.(maxRange := hi)
  }

  /** `set_constant`: flips the constancy flag only. */
  function SetConstant(v: Variable, c: bool): (r: Variable)
    ensures r.isConstant == c
    ensures r.name == v.name && r.value == v.value
    ensures r.minRange == v.minRange && r.maxRange == v.maxRange
  {
    v.(isConstant := c)
  }

  /** The range setters accept bounds that leave the value outside the range
      or the range empty: nothing re-establishes `WellRanged`. */
  lemma RangeSettersDoNotRecheck(v: Variable, lo: real, hi: real)
    ensures lo > v.value ==> SetMinRange(v, lo).value == v.value && !WellRanged(SetMinRange(v, lo))
    ensures lo > v.maxRange ==> SetMinRange(v, lo).minRange > SetMinRange(v, lo).maxRange
    ensures hi < v.value ==> SetMaxRange(v, hi).value == v.value && !WellRanged(SetMaxRange(v, hi))
    ensures hi < v.minRange ==> SetMaxRange(v, hi).minRange > SetMaxRange(v, hi).maxRange
    ensures var x := Variable("x", 5.0, false, 0.0, 10.0);
            WellRanged(x) && !WellRanged(SetMinRange(x, 20.0)) && !IsWithinRange(SetMaxRange(x, 1.0), x.value)
  {
  }

  /** `__eq__`: field-by-field comparison. */
  predicate Equals(a: Variable, b: Variable): (r: bool)
    ensures r <==> a == b
  {
    a.name == b.name && a.value == b.value && a.isConstant == b.isConstant
    && a.minRange == b.minRange && a.maxRange == b.maxRange
  }

  /** The five fields `__hash__` hashes, as one tuple. */
  function HashKey(v: Variable): (string, real, bool, real, real) {
    (v.name, v.value, v.isConstant, v.minRange, v.maxRange)
  }

  /** `__hash__` is Python's tuple hash of the five fields; the tuple hash is
      left as a parameter. */
  function Hash(v: Variable, tupleHash: ((string, real, bool, real, real)) -> int): int {
    tupleHash(HashKey(v))
  }

  /** Equality is exactly agreement of all five fields, and equal variables
      hash alike whatever tuple hash is used. */
  lemma EqualityAndHash(a: Variable, b: Variable, tupleHash: ((string, real, bool, real, real)) -> int)
    ensures Equals(a, b) <==> a == b
    ensures Equals(a, b) <==> HashKey(a) == HashKey(b)
    ensures Equals(a, b) ==> Hash(a, tupleHash) == Hash(b, tupleHash)
  {
  }

  /** A sequence of the ordinary operations the optimiser applies to a variable. */
  datatype Operation = Assign(x: real) | Redraw(u: real)

  ghost predicate DrawsAreUnits(ops: seq<Operation>) {
    forall i :: 0 <= i < |ops| && ops[i].Redraw? ==> IsUnit(ops[i].u)
  }

  /** Applies `set_value(x)` (without safe mode) and `randomize()` in order. */
  function ApplyAll(v: Variable, ops: seq<Operation>): Variable
    requires DrawsAreUnits(ops)
    decreases |ops|
  {
    if |ops| == 0 then v
    else
      var w := match ops[0]
        case Assign(x) => SetValue(v, x, false).value
        case Redraw(u) => Randomize(v, u);
      ApplyAll(w, ops[1..])
  }

  /** A constant never changes under any number of ordinary writes and redraws,
      and a non-constant keeps its name, flag and range. */
  lemma {:induction false} OrdinaryOperationsKeepConstants(v: Variable, ops: seq<Operation>)
    requires DrawsAreUnits(ops)
    ensures SameExceptValue(ApplyAll(v, ops), v)
    ensures v.isConstant ==> ApplyAll(v, ops) == v
    decreases |ops|
  {
    if |ops| > 0 {
      var w := match ops[0]
        case Assign(x) => SetValue(v, x, false).value
        case Redraw(u) => Randomize(v, u);
      assert DrawsAreUnits(ops[1..]) by {
        forall i | 0 <= i < |ops[1..]| && ops[1..][i].Redraw?
          ensures IsUnit(ops[1..][i].u)
        {
          assert ops[1..][i] == ops[i + 1];
        }
      }
      OrdinaryOperationsKeepConstants(w, ops[1..]);
    }
  }

  // ---------------------------------------------------------------------
  // Serialisation to a plain record

  /** The value kinds a record field can hold. */
  datatype Field = Text(s: string) | Number(x: real) | Flag(b: bool)

  type Record = map<string, Field>

  const NameKey: string := "variable_name"
  const ValueKey: string := "value"
  const ConstantKey: string := "is_constant"
  const MinKey: string := "min_range"
  const MaxKey: string := "max_range"

  /** `to_dict`: the five fields under their public names. */
  function ToDict(v: Variable): (d: Record)
    ensures d.Keys == {NameKey, ValueKey, ConstantKey, MinKey, MaxKey}
    ensures |d| == 5
  {
    map[NameKey := Text(v.name), ValueKey := Number(v.value), ConstantKey := Flag(v.isConstant),
        MinKey := Number(v.minRange), MaxKey := Number(v.maxRange)]
  }

  /** `from_dict` as its documentation describes it: a KeyError for a missing
      field.  Python would accept a field of any type; the model rejects a
      field of the wrong kind. */
  function FromDict(d: Record): (r: Result<Variable>)
    ensures r.Ok? ==> {NameKey, ValueKey, ConstantKey, MinKey, MaxKey} <= d.Keys
    ensures (exists k :: k in {NameKey, ValueKey, ConstantKey, MinKey, MaxKey} && k !in d) ==> r.Err?
  {
    if NameKey !in d then Err(NotFound(NameKey))
    else if ValueKey !in d then Err(NotFound(ValueKey))
    else if ConstantKey !in d then Err(NotFound(ConstantKey))
    else if MinKey !in d then Err(NotFound(MinKey))
    else if MaxKey !in d then Err(NotFound(MaxKey))
    else if !d[NameKey].Text? then Err(WrongKind(NameKey))
    else if !d[ValueKey].Number? then Err(WrongKind(ValueKey))
    else if !d[ConstantKey].Flag? then Err(WrongKind(ConstantKey))
    else if !d[MinKey].Number? then Err(WrongKind(MinKey))
    else if !d[MaxKey].Number? then Err(WrongKind(MaxKey))
    else Ok(Variable(d[NameKey].s, d[ValueKey].x, d[ConstantKey].b, d[MinKey].x, d[MaxKey].x))
  }

  /** The round trip in both directions: every variable survives `to_dict`
      then `from_dict`, and every record `from_dict` accepts that has exactly
      the five keys is what `to_dict` gives back. */
  lemma DictRoundTrip(v: Variable, d: Record)
    ensures FromDict(ToDict(v)) == Ok(v)
    ensures FromDict(d).Ok? && d.Keys == ToDict(v).Keys ==> ToDict(FromDict(d).value) == d
  {
  }

  /** `from_dict` as written: it reads the five keys (a KeyError for the first
      missing one) and then passes them as `_variable_name=`, `_value=`, ...,
      keywords the constructor does not accept, so it raises a TypeError. */
  function FromDictAsWritten(d: Record): (r: Result<Variable>)
    ensures r.Err?
  {
    if NameKey !in d then Err(NotFound(NameKey))
    else if ValueKey !in d then Err(NotFound(ValueKey))
    else if ConstantKey !in d then Err(NotFound(ConstantKey))
    else if MinKey !in d then Err(NotFound(MinKey))
    else if MaxKey !in d then Err(NotFound(MaxKey))
    else Err(UnexpectedKeyword("_variable_name"))
  }

  /** As written, the documented round trip fails for every variable. */
  lemma FromDictAsWrittenBreaksRoundTrip(v: Variable)
    ensures FromDictAsWritten(ToDict(v)) == Err(UnexpectedKeyword("_variable_name"))
    ensures FromDictAsWritten(ToDict(v)) != FromDict(ToDict(v))
  {
    DictRoundTrip(v, ToDict(v));
  }
}
